=== FILE: README.md ===
# llamaApp agent sandbox, modelled in Dafny

llamaApp is an Electron chat client for local language models. In agent mode
the model may answer with a JSON tool call. The app then detects the call,
checks it against a permission policy, runs one of nine read-only tools and
feeds the tool's result back to the model, for at most five turns. This
project models that core as pure Dafny functions and proves what it
guarantees:

- **Permissions** (`permissions.dfy`). This is the permission manager:
  - the operation classes (read, write, system, execution) and the default policy;
  - read access: blocklist first, then whitelist, then sensitive file names, then blocked extensions;
  - execution access;
  - adding and removing allowed directories;
  - the file-size limit.
- **Executor** (`executor.dfy`). `executeToolCall`: unknown tools, denials, handler results and the 100-entry history, newest first. It is gated, as in the program, by `validateOperation`. A corrected dispatcher beside it is gated by the check of the argument each handler reads (see Findings).
- **Handlers** (`handlers.dfy`, `diskusage.dfy`, `csv.dfy`, `logs.dfy`). The pure cores of the tool handlers:
  - `read_file` and its truncation;
  - `list_directory` and its split into files and directories;
  - `analyze_json` and its depth-bounded structure;
  - `get_disk_usage`, with `du` size parsing and the descending sort;
  - `analyze_csv` and its quote-aware line parser;
  - `analyze_logs`.
- **Detector** (`detector.dfy`). The recognition of a tool call in model output: a fenced json block first, then a line scan.
- **Agent** (`agent.dfy`). The model manager:
  - the plain `generate` guard;
  - the tool-enabled system prompt;
  - the `generateWithAgent` loop, including what reaches the token callback.
- **Chunker** (`chunker.dfy`). The RAG chunker's sliding window over tokens, its text-position estimate and the chunk statistics.
- **Markdown** (`markdown.dfy`). The renderer's HTML escaping, the single-pass `javascript:` strip of the sanitizer with a corrected repeated strip beside it, and the empty and fallback cases of `markdownToHtml`.
- **Support** (`wrappers.dfy`, `text.dfy`, `json.dfy`, `paths.dfy`). JavaScript strings, `split`/`join`/`trim`/`indexOf`/`replace`, JSON values and Node's POSIX `path.join`/`normalize`/`basename`/`extname`, each with its own specification lemmas.

Everything the program reaches outside itself is a parameter:

- the file system (`stat`, `readFile`, `readdir`);
- the `du` command;
- the model session;
- the tokenizer;
- the `marked` renderer;
- `JSON.parse` and `JSON.stringify`;
- `String(x)`;
- the regex compiler.

## Model

| member | source | states |
|---|---|---|
| Permissions.Classify | src/main/agent/permission-manager.js:202-250 | a tool name falls in exactly one of the four operation classes when it is a string on that class's list, and in none otherwise |
| Permissions.ClassOutcomes | src/main/agent/permission-manager.js:77-114 | system operations are always allowed; `execute_code` without `path` or `workingDir` is allowed; any name on no list is refused as an unknown operation |
| Permissions.WriteAlwaysDenied | src/main/agent/permission-manager.js:85-90 | every write-class tool is refused with the fixed not-implemented reason, whatever its arguments |
| Permissions.ReadWithoutPathDenied | src/main/agent/permission-manager.js:80-82 | a read-class call with neither `path` nor `directory` is refused with "No path specified" |
| Permissions.ResolvedPathIsAbsolute | src/main/agent/permission-manager.js:183-197 | with an absolute home directory, every input resolves to an absolute path (`~` expansion, absolute kept, relative joined to home) |
| Permissions.FirstPrefix | src/main/agent/permission-manager.js:131-143 | the root found is a member of the list that prefixes the path; when none is found, no root in the list prefixes it |
| Permissions.BlocklistFirst | src/main/agent/permission-manager.js:131-138 | the first blocked root that prefixes the path decides the denial, and its text names that root, for reads and for execution |
| Permissions.OutsideWhitelistDenied | src/main/agent/permission-manager.js:141-153 | a path under no allowed root is denied with the whitelist listed, home shown as `~` |
| Permissions.DisplayDirs | src/main/agent/permission-manager.js:146-148 | each listed directory has its first occurrence of the home directory replaced by `~` |
| Permissions.SensitiveCheck | src/main/agent/permission-manager.js:156-159 | a file name is sensitive exactly when some configured pattern matches it |
| Permissions.ReadAllowedIff | src/main/agent/permission-manager.js:119-178 | a resolved path may be read if and only if it clears the blocklist, lies under an allowed root, has no sensitive name and has no blocked extension |
| Permissions.ExecutionAllowedIff | src/main/agent/permission-manager.js:255-292 | execution in a resolved path is allowed if and only if no blocked root prefixes it and some allowed root does |
| Permissions.SiblingPrefixIsInside | src/main/agent/permission-manager.js:141-143 | containment is a raw string prefix, so any text appended to an allowed root (a sibling such as `~/Documents-old`) counts as inside it |
| Permissions.AddAllowedDirectory | src/main/agent/permission-manager.js:298-303 | the resolved directory is allowed afterwards; the allowed set gains only it; the old list is kept as a prefix; the other lists are unchanged |
| Permissions.RemoveAllowedDirectory | src/main/agent/permission-manager.js:309-314 | the resolved directory is no longer allowed, every other allowed directory stays, and the other lists are unchanged |
| Permissions.WithoutAppend | src/main/agent/permission-manager.js:309-314 | the `filter` keeps the other allowed directories in order and with their multiplicity: it works piecewise on a concatenation, and a single entry is kept exactly when it differs from the resolved path |
| Permissions.AddAllowedIdempotent | src/main/agent/permission-manager.js:298-303 | adding keeps the list free of duplicates, and adding the same directory twice is the same as adding it once |
| Permissions.RemoveUndoesAdd | src/main/agent/permission-manager.js:298-314 | removing a directory that was not allowed before adding it restores the original policy |
| Permissions.ValidateFileSize | src/main/agent/permission-manager.js:353-365 | a size is accepted exactly when it is at most the limit in mebibytes; a refusal starts with "File too large (" |
| Permissions.ValidateCall | src/main/agent/permission-manager.js:77-114 | corrected check: a read-class tool is checked on the argument its handler actually uses, so an allowed call has that argument as a non-empty string whose resolution is readable |
| Permissions.SearchDirectoryEscapesAsWritten | src/main/agent/permission-manager.js:80-82 | as written, `search_files` with a readable `path` is allowed even when its `directory` is a blocked root, which the corrected check refuses |
| Permissions.EmptyPathEscapesAsWritten | src/main/agent/permission-manager.js:80-82 | as written, an empty `path` falls through to `directory` and is allowed, although the handler then resolves the empty `path` to the home directory |
| Executor.LogExecution | src/main/agent/agent-controller.js:634-650 | the new entry comes first, the older entries follow in order, and at most 100 are kept |
| Executor.LogAllNewestFirst | src/main/agent/agent-controller.js:634-650 | logging a series of entries leaves them newest first in front of the old history, cut to 100 |
| Executor.GetExecutionHistory | src/main/agent/agent-controller.js:705-707 | the history's leading entries, as many as `slice(0, limit)` keeps, negative limits included |
| Executor.NewestFirstInHistory | src/main/agent/agent-controller.js:634-650 | the entry just logged is the first one any positive limit returns |
| Executor.ExecuteToolCall | src/main/agent/agent-controller.js:110-166 | an unregistered name fails without touching the history; a registered one puts exactly one entry in front of the history: a success with its result, or a failure with the denial reason or the handler's error; a success implies `validateOperation` allowed the call |
| Executor.ExecuteToolCallCorrected | src/main/agent/permission-manager.js:80-82 | corrected dispatcher: the same steps, but a success implies the check of the argument each read handler resolves allowed the call |
| Executor.HistoryStaysBounded | src/main/agent/agent-controller.js:644-649 | the history never grows past 100 entries |
| Executor.HandlerRunsOnlyWhenAllowed | src/main/agent/agent-controller.js:124-131 | when `validateOperation` refuses a call, the outcome does not depend on the handlers at all |
| Executor.DenialIsLogged | src/main/agent/agent-controller.js:124-131 | a registered call that `validateOperation` refuses fails with "Permission denied: " and that reason, which is logged as a failure |
| Executor.AllowedCallReportsHandler | src/main/agent/agent-controller.js:135-165 | a registered call that `validateOperation` allows succeeds exactly when its handler returns a non-null value, logged as a success; a throw fails with the handler's message and a null result with the TypeError of reading `items`, each logged as a failure with that message |
| Executor.OnlyRegisteredToolsSucceed | src/main/agent/agent-controller.js:26-104 | only a string naming one of the nine registered tools can succeed |
| Executor.PrototypeNameIsRefused | src/main/agent/agent-controller.js:116-131 | names such as `constructor`, found on every object, pass the registry test but are refused as unknown operations and logged |
| Executor.CheckedArgumentIsReadable | src/main/agent/agent-controller.js:124-131 | as written, after a read tool succeeds, the argument the check looked at, `path` or else `directory`, is a string resolving to a readable path |
| Executor.SearchRunsOnBlockedDirectoryAsWritten | src/main/agent/agent-controller.js:124-143 | as written, `search_files` with a readable `path` runs its handler and succeeds although its `directory` is a blocked root; the corrected dispatcher refuses it with "Permission denied: " |
| Executor.ReadToolRunsOnReadablePath | src/main/agent/permission-manager.js:80-82 | corrected dispatcher: after a read tool succeeds, the argument its handler uses resolves to a readable path |
| Handlers.ResolveArg | src/main/agent/agent-controller.js:523-537 | an argument resolves exactly when it is a string property, by the same rule as the permission manager; otherwise the TypeError is fixed by the argument's shape: null arguments, missing key, null value, or a value without `startsWith` |
| Handlers.NullPathArgument | src/main/agent/agent-controller.js:523-526 | a `null` `path` next to a `directory` fails with "Cannot read properties of null (reading 'startsWith')" |
| Handlers.AllowedReadResolves | src/main/agent/permission-manager.js:80-82 | as written, an allowed read call has `path`, or else `directory`, as a string resolving to a readable path; a handler reading `path` resolves that same path when `path` is non-empty, and otherwise throws or resolves the home directory |
| Handlers.CorrectedReadResolves | src/main/agent/permission-manager.js:80-82 | corrected check: every allowed read tool resolves the argument its handler reads without a TypeError, to a readable path |
| Handlers.CheckSize | src/main/agent/permission-manager.js:353-365 | a file passes when it can be stat-ed and its size is within the limit |
| Handlers.ReadFile | src/main/agent/agent-controller.js:173-192 | success reports the resolved path, the size, the line count as newlines plus one, and the content, cut to 50000 characters plus a marker exactly when longer; an oversize file gives the size error |
| Handlers.ReadFileShowsPrefix | src/main/agent/agent-controller.js:187-190 | the shown content always begins with as much of the file as fits, and is never longer than the limit plus the marker |
| Handlers.ListDirectory | src/main/agent/agent-controller.js:197-234 | the listing counts every entry, looks at the first 500 only, and splits those that can be stat-ed into files and directories in their original order |
| Handlers.ListingPartitions | src/main/agent/agent-controller.js:208-231 | files plus directories are exactly the entries that could be stat-ed, none counted twice |
| Handlers.ItemsAreChildren | src/main/agent/agent-controller.js:209-226 | every listed item is a joined child of the directory and comes from an entry of the matching kind |
| Handlers.StructureDepthBound | src/main/agent/agent-controller.js:587-604 | the structure summary is never deeper than the depth budget allows |
| Handlers.FieldShapesDepthBound | src/main/agent/agent-controller.js:595-599 | every summarised property respects the same depth bound |
| Handlers.FieldShapesKeys | src/main/agent/agent-controller.js:595-599 | at most ten properties are summarised, each one of the first ten keys, and none is `__proto__` |
| Handlers.FieldShapesKeepsFirstKeys | src/main/agent/agent-controller.js:595-599 | conversely, every one of the first ten keys other than `__proto__` is kept, with its value summarised at depth + 1 |
| Handlers.FieldShapesAppend | src/main/agent/agent-controller.js:595-599 | the entries follow the key order: a concatenation is summarised part by part with the remaining key budget, and a single key gives exactly its entry at depth + 1, or none for `__proto__` |
| Handlers.ObjectKeys | src/main/agent/agent-controller.js:470-471 | `Object.keys` throws only on null and gives an object's keys in order |
| Handlers.AnalyzeJson | src/main/agent/agent-controller.js:447-475 | success implies the file parsed, the type is "array" exactly for arrays, arrays report their length and objects their keys; a file holding `null` is an error |
| DiskUsage.ParseFloat | src/main/agent/agent-controller.js:579 | a parsed number is never negative |
| DiskUsage.ParseFloatDecimal | src/main/agent/agent-controller.js:579 | `parseFloat` of digits, a dot and digits is their decimal value |
| DiskUsage.ParseFloatWhole | src/main/agent/agent-controller.js:579 | `parseFloat` of a digit string is its value |
| DiskUsage.UnitMultiplier | src/main/agent/agent-controller.js:560-570 | every unit scales by at least one |
| DiskUsage.MatchSizeToken | src/main/agent/agent-controller.js:573 | a match splits into a non-empty run of digits and dots and one of the nine units |
| DiskUsage.Scale | src/main/agent/agent-controller.js:581 | scaling keeps NaN as NaN and a number non-negative |
| DiskUsage.ParseSizeToBytes | src/main/agent/agent-controller.js:553-582 | empty input gives 0 and no size is negative |
| DiskUsage.CleanedTokenUnchanged | src/main/agent/agent-controller.js:557 | trimming and upper-casing leave a well-formed size token unchanged |
| DiskUsage.TokenMatches | src/main/agent/agent-controller.js:573 | every number followed by a unit matches the size pattern with exactly those two parts |
| DiskUsage.ParseSizeRoundTrip | src/main/agent/agent-controller.js:553-582 | a size written as a number and a unit parses back to the number times the unit's factor |
| DiskUsage.DigitsSizeRoundTrip | src/main/agent/agent-controller.js:553-582 | a whole number of units parses back to its value times the unit's factor |
| DiskUsage.WholeSizeRoundTrip | src/main/agent/agent-controller.js:553-582 | printing a natural number and a unit and parsing it gives the number times the unit's factor |
| DiskUsage.ExampleWholeTokens | src/main/agent/agent-controller.js:572 | the documented examples "24K" and "0B" parse to 24576 and 0 |
| DiskUsage.UnitlessNumberIsZero | src/main/agent/agent-controller.js:573-577 | a number without a unit does not match and counts as 0 bytes |
| DiskUsage.BareDotIsNaN | src/main/agent/agent-controller.js:579-581 | a number part that is only a dot matches but is not a number |
| DiskUsage.ParseDuLine | src/main/agent/agent-controller.js:322-328 | a `du` line gives an entry exactly when it holds a tab |
| DiskUsage.EntryPathIsRelative | src/main/agent/agent-controller.js:324 | when the full path lies under the directory, the reported path is the rest after the directory and a slash |
| DiskUsage.ParseDuLinesSpec | src/main/agent/agent-controller.js:321-328 | all lines parse exactly when every line holds a tab, and then each entry is that line's entry, in order |
| DiskUsage.SortDescCorrect | src/main/agent/agent-controller.js:329 | the ranking is sorted by size, largest first, and is a permutation of the entries |
| DiskUsage.SortDescStable | src/main/agent/agent-controller.js:329 | entries of equal size keep their relative order, as in the stable `Array.prototype.sort` |
| DiskUsage.InsertSorted | src/main/agent/agent-controller.js:329 | inserting into a ranking keeps it sorted |
| DiskUsage.GetDiskUsage | src/main/agent/agent-controller.js:303-341 | a failed `du` gives the prefixed error; a success reports the directory, counts every non-empty line, and its items are the first 20 of the stable descending ranking of the entries parsed from those lines |
| DiskUsage.GetDiskUsageKeepsLargest | src/main/agent/agent-controller.js:329-335 | the reported items are entries `du` printed, and no entry left out is larger than one kept |
| DiskUsage.TopItemsAreLargest | src/main/agent/agent-controller.js:329-335 | no entry left out of the top 20 is larger than one kept |
| Csv.ParseCsvLine | src/main/agent/agent-controller.js:609-629 | a line always gives at least one field |
| Csv.ScanQuoteState | src/main/agent/agent-controller.js:617-618 | the scanner is inside quotes exactly when it has seen an odd number of quote marks |
| Csv.FieldCount | src/main/agent/agent-controller.js:609-629 | a line has one more field than it has commas outside quotes |
| Csv.ParseWithoutQuotes | src/main/agent/agent-controller.js:609-629 | without quote marks, the line parser is `split(',')` followed by trimming each field |
| Csv.StripQuotes | src/main/agent/agent-controller.js:496 | one leading and one trailing quote mark are removed, and nothing else changes |
| Csv.Headers | src/main/agent/agent-controller.js:496 | there is one header per comma-separated part of the first line |
| Csv.RowKeys | src/main/agent/agent-controller.js:501-504 | a row has exactly the headers as keys, except `__proto__`, which an object literal does not store |
| Csv.RowValue | src/main/agent/agent-controller.js:502-504 | a header's value is the trimmed field in its column, or empty when the line is shorter; the last duplicate header wins |
| Csv.NonBlankLines | src/main/agent/agent-controller.js:490 | the kept lines are all non-blank |
| Csv.NonBlankLinesEmpty | src/main/agent/agent-controller.js:490 | no line is kept exactly when every line is blank |
| Csv.Rows | src/main/agent/agent-controller.js:499-506 | each row is built from the headers and the parsed line at its position |
| Csv.CsvReportOf | src/main/agent/agent-controller.js:496-515 | the report counts all data rows, previews the first 100 and samples the first five of those |
| Csv.AnalyzeCsv | src/main/agent/agent-controller.js:480-516 | success implies the size check passed and the file has a non-blank line; the report is built from the non-blank lines |
| Csv.EmptyIffBlank | src/main/agent/agent-controller.js:490-494 | a readable file is reported empty exactly when it holds only whitespace |
| Logs.Clip | src/main/agent/agent-controller.js:371 | a shown line is the prefix of the line of length min(line length, 200), so a short line is shown whole |
| Logs.HitsSound | src/main/agent/agent-controller.js:367-388 | every hit is a matching line, numbered from 1, in increasing line order |
| Logs.HitsComplete | src/main/agent/agent-controller.js:367-388 | every matching line is a hit |
| Logs.Capped | src/main/agent/agent-controller.js:370 | a hit list keeps its first 50 entries, in order and unchanged, and all of them when there are fewer |
| Logs.ClassifyLines | src/main/agent/agent-controller.js:367-388 | corrected pattern test, each line matched from its start (see Findings): the single pass over the lines gives the first 50 error, warning and pattern hits |
| Logs.KeepHit | src/main/agent/agent-controller.js:369-387 | one loop step extends each capped hit list by the current line exactly as the whole-prefix definition does |
| Logs.AnalyzeLogs | src/main/agent/agent-controller.js:346-395 | corrected analysis: after the size check, the report is the capped hit lists of the split content with every line matched from its start |
| Logs.NoPatternNoMatches | src/main/agent/agent-controller.js:383-393 | without a pattern there are no pattern hits and the summary omits them |
| Logs.GlobalFlagMissesLines | src/main/agent/agent-controller.js:358-383 | as written, the `gi` regex keeps `lastIndex` between lines: for the lines "xa" and "a" and pattern "a", it misses line 2, which the corrected test reports |
| Detector.SkipSpaces | src/main/llama-manager.js:382 | the position returned is past every whitespace character from the start and at the first other character |
| Detector.FindClose | src/main/llama-manager.js:382 | the first place at or after a position where a `}` is followed by optional whitespace and a closing fence |
| Detector.FindFenceLeftmost | src/main/llama-manager.js:382 | the fence found is the leftmost match and the shortest one there, and when none is found no match exists |
| Detector.FencedBlock | src/main/llama-manager.js:382-384 | a captured block starts with `{` and ends with `}` |
| Detector.FencedBlockIsLeftmostMatch | src/main/llama-manager.js:382-384 | a block is captured exactly when the fence pattern matches somewhere, and it is the body of the leftmost, lazy match |
| Detector.CallOf | src/main/llama-manager.js:388-393 | a parsed value gives a call exactly when its `tool` and `arguments` are both truthy, and the call carries them |
| Detector.ExtendStops | src/main/llama-manager.js:410-413 | continuation lines are appended up to and including the first that brings a `}`, or to the end |
| Detector.ProbeLine | src/main/llama-manager.js:405-424 | a line not starting with `{` or lacking `"tool"` is skipped; a candidate whose text does not parse ends the scan; a hit comes only from a candidate |
| Detector.ScanLines | src/main/llama-manager.js:401-428 | a call found by the scan comes from some line's candidate |
| Detector.DecidedAt | src/main/llama-manager.js:405-425 | the scan passes over skipped lines and the first line that does not skip decides |
| Detector.ParseFailureEndsScan | src/main/llama-manager.js:416-428 | when the first candidate fails to parse, the thrown error ends the scan with no call, whatever later lines hold |
| Detector.FirstCandidateIsFound | src/main/llama-manager.js:401-423 | with no fenced call, the first candidate line that parses to a call is the call detected |
| Detector.DetectToolCall | src/main/llama-manager.js:377-432 | a fenced call wins over the line scan; any call detected has a truthy tool and arguments |
| Agent.SystemPromptWithoutTools | src/main/llama-manager.js:219-221 | without a controller, the system prompt is the user's, unchanged |
| Agent.SystemPromptStartsWithUser | src/main/llama-manager.js:235 | the tool-enabled prompt begins with the user's prompt |
| Agent.SystemPromptEndsWithReminder | src/main/llama-manager.js:266-268 | the tool-enabled prompt ends with the path reminder |
| Agent.SystemPromptListsTools | src/main/llama-manager.js:223-233 | every tool definition's section appears in the prompt |
| Agent.ParamLines | src/main/llama-manager.js:225-230 | one line per parameter, in order |
| Agent.ToolSections | src/main/llama-manager.js:224-233 | one section per tool, in order |
| Agent.SamplingOf | src/main/llama-manager.js:139-141 | the temperature and token limit passed to the model are never falsy, because the defaults replace falsy options |
| Agent.StopGeneration | src/main/llama-manager.js:170-174 | generation is marked stopped and nothing else changes |
| Agent.EnableAgent | src/main/llama-manager.js:203-206 | agent mode is on with the given controller, and the rest is unchanged |
| Agent.DisableAgent | src/main/llama-manager.js:211-213 | agent mode is off and the controller is kept |
| Agent.Generate | src/main/llama-manager.js:124-165 | refuses without a model or while generating; otherwise forwards every chunk, clears the busy flag, fails exactly when the session fails and then with the session's own error, and reports the streamed text, or the resolved string when nothing was streamed, and at least one token |
| Agent.Stream | src/main/llama-manager.js:311-326 | the turn's text is the concatenation of the chunks seen so far |
| Agent.StreamForwardsUntilDetection | src/main/llama-manager.js:315-325 | the callback receives exactly the chunks before the first one after which a call is detected, and none after it |
| Agent.ResultPromptRoundTrip | src/main/llama-manager.js:339-340 | the stringified tool result can be recovered from the next prompt by cutting off its fixed head and tail |
| Agent.FailureNoticeRoundTrip | src/main/llama-manager.js:346-350 | the tool's error can be recovered from the failure notice |
| Agent.TakeTurn | src/main/llama-manager.js:302-343 | a turn that continues ran a tool successfully, adds one turn record, keeps the response and makes the next prompt from the tool's result |
| Agent.LoopOutcome | src/main/llama-manager.js:302-358 | at most five turns; each turn before the last fed its tool's result to the next; the last turn decides the ending and what the response gains; nothing reaches the callback when there is none |
| Agent.StopPost | src/main/llama-manager.js:344-357 | a turn that ends the loop answers when no call was detected, and otherwise fails with the tool's error, appending the notice to the response and the callback |
| Agent.LoopPostExtends | src/main/llama-manager.js:337-343 | a successful tool turn followed by any valid run from the next prompt is a valid run from this one |
| Agent.GenerateWithAgent | src/main/llama-manager.js:277-370 | the guards in order: no model, then agent off (plain generation), then busy; the busy flag is always cleared; without a callback nothing is emitted |
| Agent.AgentRunResolves | src/main/llama-manager.js:360-368 | the call resolves with the loop's response and chunk count, and rejects with the session's error when it threw |
| Agent.AgentResponse | src/main/llama-manager.js:277-370 | the first turn gets the user's prompt; the response is empty after five tool turns, the last turn's text after an answer, the failure notice after a failed tool |
| Chunker.MakeConfig | src/main/chunk-processor.js:9-11 | a zero or missing option takes its default (512 and 128), so the chunk size is positive |
| Chunker.TextPositionBounds | src/main/chunk-processor.js:61-65 | the estimated position is monotone in the token index, lies within the text, and maps the ends to the ends |
| Chunker.WindowsCoverTokens | src/main/chunk-processor.js:32-52 | there is at least one window; the last one reaches the final token; every earlier one stops short of it |
| Chunker.WindowsBounded | src/main/chunk-processor.js:33-43 | each window holds between 1 and the chunk size tokens |
| Chunker.SplitIntoChunks | src/main/chunk-processor.js:19-55 | blank text gives no chunks; a text of at most the chunk size in tokens is one chunk, its trimmed self, whatever the overlap; otherwise the chunks are the non-empty windows, numbered in order |
| Chunker.ShortTextIsOneChunk | src/main/chunk-processor.js:32-52 | a non-blank text of at most the chunk size in tokens has exactly one window, holding the whole trimmed text and every token |
| Chunker.ChunkWindows | src/main/chunk-processor.js:32-52 | the loop with its early break yields exactly the numbered non-empty windows |
| Chunker.ChunksWellFormed | src/main/chunk-processor.js:40-45 | chunk `j` has index `j`, non-empty content and between 1 and the chunk size tokens |
| Chunker.MinTokens | src/main/chunk-processor.js:100 | the smallest token count is one of the counts and bounds them all from below |
| Chunker.MaxTokens | src/main/chunk-processor.js:101 | the largest token count is one of the counts and bounds them all from above |
| Chunker.RoundedMean | src/main/chunk-processor.js:99 | the average is the quotient rounded half up |
| Chunker.GetChunkStats | src/main/chunk-processor.js:82-103 | no chunks give all zeros; otherwise the count, total, rounded mean and the extremes |
| Chunker.TotalBetween | src/main/chunk-processor.js:94 | the total lies between count times the minimum and count times the maximum |
| Chunker.AverageBetweenExtremes | src/main/chunk-processor.js:97-101 | the rounded average never falls outside the minimum and maximum |
| Markdown.EscapeHtml | src/renderer/components/markdown.js:85-94 | the result holds no markup character, and text without special characters is unchanged |
| Markdown.EscapeAppend | src/renderer/components/markdown.js:85-94 | escaping works character by character, so it distributes over concatenation |
| Markdown.EscapeRoundTrip | src/renderer/components/markdown.js:85-94 | unescaping the five entities gives back the original text |
| Markdown.StripSchemeOnce | src/renderer/components/markdown.js:75 | the single pass never lengthens the text, and a result of the same length is the text itself |
| Markdown.StripSchemeOnceShortens | src/renderer/components/markdown.js:75 | the single pass deletes something exactly when the text holds the scheme in any letter case |
| Markdown.StripSchemeOnceLeavesScheme | src/renderer/components/markdown.js:75 | as written, one pass over "javajavascript:script:" leaves "javascript:" behind |
| Markdown.StripScheme | src/renderer/components/markdown.js:75 | corrected strip: the result holds no scheme, and text without one is unchanged |
| Markdown.SanitizeHtml | src/renderer/components/markdown.js:63-78 | as written, after the tag deletions one pass deletes `javascript:`: the text shrinks exactly when it held the scheme, and is unchanged otherwise |
| Markdown.SanitizeHtmlLeavesScheme | src/renderer/components/markdown.js:72-75 | as written, a text that is "javajavascript:script:" after the tag deletions is sanitized to "javascript:", which the corrected sanitizer does not leave |
| Markdown.SanitizeHtmlCorrected | src/renderer/components/markdown.js:63-78 | corrected sanitizer: the result holds no `javascript:` in any letter case, and text without one is unchanged |
| Markdown.MarkdownToHtml | src/renderer/components/markdown.js:11-56 | empty input gives empty output; a missing or failing renderer gives the escaped text; otherwise the single-pass sanitized rendering, never longer than the rendering after the tag deletions |
| Markdown.MarkdownToHtmlLeavesScheme | src/renderer/components/markdown.js:47-50 | as written, a rendering that reads "javajavascript:script:" after the tag deletions reaches the page holding `javascript:` |
| Text.ContainsIffIndexOf | src/main/llama-manager.js:407 | `includes` holds exactly when `indexOf` finds the pattern |
| Text.IndexOf | src/main/agent/permission-manager.js:147 | the index found is the first occurrence at or after the start, and none is missed |
| Text.ReplaceFirstSpec | src/main/agent/permission-manager.js:147 | `replace` with a string pattern rewrites only the first occurrence, and leaves text without it unchanged |
| Text.SplitCount | src/main/agent/agent-controller.js:183-189 | `split` gives one more piece than there are separators |
| Text.SplitPiecesHaveNoSeparator | src/main/llama-manager.js:402 | no piece of a split holds the separator |
| Text.JoinSplit | src/main/llama-manager.js:402-412 | joining the pieces of a split with the same separator gives back the text |
| Text.SplitAround | src/main/agent/agent-controller.js:356 | splitting around one separator is the two sides' splits put together |
| Text.TrimStartSpec | src/main/llama-manager.js:406 | trimming the start removes exactly the leading whitespace |
| Text.TrimEndSpec | src/main/llama-manager.js:406 | trimming the end removes exactly the trailing whitespace |
| Text.TrimEmptyIffBlank | src/main/agent/agent-controller.js:490 | the trimmed text is empty exactly when every character is whitespace |
| Text.NatToStringRoundTrip | src/main/agent/agent-controller.js:393 | a line number printed in decimal reads back as itself |
| Paths.NormalizeKeepsAbsoluteness | src/main/agent/permission-manager.js:183-197 | normalizing never changes whether a path is absolute |
| Paths.JoinPathAbsolute | src/main/agent/permission-manager.js:183-197 | a joined path is absolute exactly when its first non-empty part is |
| Paths.StripTrailingSlashes | src/main/agent/permission-manager.js:156 | the trailing slashes, and only those, are removed |
| Paths.LastSegment | src/main/agent/permission-manager.js:156 | the last segment is a slash-free suffix that starts the path or follows a slash |
| Paths.NameExtension | src/main/agent/permission-manager.js:169 | the extension is a dot and then dot-free text ending the name after its first character; it is empty when no later dot exists |
| Json.Lookup | src/main/agent/agent-controller.js:111 | a property found is one of the object's fields under that key, and a missing one has no field with that key |
| Json.Or | src/main/agent/permission-manager.js:81 | JavaScript's `or` of two property reads is the first when it is truthy, otherwise the second |

## Left out

- File system, `du`, the model session, the tokenizer, `marked`, `JSON.parse`, `JSON.stringify` and the regex compiler are parameters whose behaviour is not modelled. Their results are inputs.
- Concurrency and the asynchronous structure (`await`) are left out. Each operation is one atomic step from its inputs.
- The UI notifications (`_notifyExecution*`) and the execution timestamps are left out. They are side channels that do not influence a result.
- The console logging is left out.
- `_searchFiles`, `_getFileInfo`, `_listProcesses` and `_getSystemInfo` are left out. These handlers are reached only through the handler parameter `run` of `Executor.ExecuteToolCall`. Their permission checks are modelled.
- `_formatFileSize` is left out. It uses floating-point logarithms, so `Handlers.ListDirectory` takes the formatter as a parameter.
- `getToolDefinitions` is left out. The system prompt takes the definitions as a parameter, because they are literal data in `_initializeTools`.
- `countTokens` is left out. It is `encode(text).length` on the tokenizer parameter.
- Chunker.SplitIntoChunks requires the overlap to be smaller than the chunk size, or the text to have at most the chunk size in tokens. In the remaining case the loop of `splitIntoChunks` steps by zero or backwards and never reaches its break. A zero overlap cannot arise, because `|| 128` replaces it.
- Chunker.TextPosition computes `floor(length * index / total)` on integers. `splitIntoChunks` computes the double `index / total` first and then multiplies, which is not exact: `(1 / 49) * 49` is 0.9999999999999999 in double arithmetic, so where the exact product is a whole number its `Math.floor` can give one less. So Chunker.TextPosition, Chunker.TextPositionBounds and Chunker.SplitIntoChunks can differ from `splitIntoChunks` by one character at a window edge.
- Markdown.SanitizeHtml models the `javascript:` strip only. The `<script>` and event-handler regexes are a parameter. The allowed-tags list is declared but `sanitizeHtml` never uses it.
- Markdown.MarkdownToHtml does not model `marked.setOptions` and the highlighter. It handles only string input, not `null` or `undefined`.
- DiskUsage.ParseSizeToBytes represents `parseFloat` results as exact reals or NaN. It does not model IEEE 754 rounding.
- DiskUsage.SortDesc treats a NaN sort key as 0. `Array.prototype.sort` gives no defined order for an inconsistent comparator, so the model picks one.
- Handlers.ReadFile and the other handlers take one Dafny character for one UTF-16 code unit. Text outside the Basic Multilingual Plane, whose characters JavaScript counts as two units, is not modelled, so the 50000 and 200 cut-offs never split a surrogate pair here.
- Logs.IsErrorLine and Logs.IsWarningLine model the fixed error and warning regexes as case-insensitive substring tests on ASCII. The user's pattern is a parameter, tested through Logs.Tests.
- Permissions.SensitiveCheck models the twelve default sensitive-name regexes as three literal forms: text at the end, text anywhere, and text anywhere ignoring ASCII case. General regexes are not modelled.
- Csv.Rows represents a row as a map from header to value, which loses the header order in which `JSON.stringify` prints the row's properties into the next prompt. The report's `columns` keeps that order.
- `loadModel`, `initialize`, `dispose`, the RAG manager, the database and the web fetcher are not part of this model.

## Findings

| source | as written | input that shows it | evidently intended | confidence | as-written member | corrected member |
|---|---|---|---|---|---|---|
| src/main/agent/permission-manager.js:81 | a read-class call is checked on `args.path`, or on `args.directory` when `path` is falsy, while `search_files` searches `directory` and the other read tools use `path` | `search_files` with `path` "~/Documents" and `directory` "/etc" (a blocked root); or `read_file` with `path` "" and `directory` "~/Documents" | check the argument each handler actually uses | not executed | Executor.SearchRunsOnBlockedDirectoryAsWritten | Executor.ExecuteToolCallCorrected |
| src/renderer/components/markdown.js:75 | one `replace(/javascript:/gi, '')` pass, which can leave a new occurrence behind | "javajavascript:script:" becomes "javascript:" | no `javascript:` survives sanitizing | not executed | Markdown.SanitizeHtmlLeavesScheme | Markdown.SanitizeHtmlCorrected |
| src/main/agent/agent-controller.js:358-383 | the user pattern is compiled with the `g` flag and reused with `test`, so `lastIndex` carries over from one line to the next | pattern "a" over the lines "xa" and "a" reports line 1 only | every line matching the pattern is reported | not executed | Logs.GlobalFlagMissesLines | Logs.AnalyzeLogs |

=== FILE: agent.dfy ===
/** `LlamaManager`'s generation entry points and its agent loop. The
    language model session is a scripted oracle: given the prompts sent so
    far in one call and the sampling options, it streams a sequence of text
    chunks and then resolves with a string or throws. `onToken` is modelled
    by the list of chunks handed to it, when the caller passed one. */
module Agent {
  import opened Wrappers
  import opened Text
  import opened Json
  import opened Executor
  import opened Detector

  const MaxTurns: nat := 5

  // ------------------------------------------------------- the system prompt

  /** One entry of a tool's `parameters`, in `Object.entries` order */
  datatype ParamDef = ParamDef(name: string, kind: string, optional: bool, description: string)

  /** One element of `getToolDefinitions()` */
  datatype ToolDef = ToolDef(name: string, description: string, params: seq<ParamDef>)

  /** The fixed instructions between the caller's system prompt and the tool list */
  const ToolsHeader: string :=
    "\n"
    + "\n"
    + "## Available Tools\n"
    + "\n"
    + "You have access to the following tools to help answer user queries. To use a tool, respond with a JSON object in this exact format:\n"
    + "```json\n"
    + "{\n"
    + "  \"tool\": \"tool_name\",\n"
    + "  \"arguments\": {\n"
    + "    \"param1\": \"value1\",\n"
    + "    \"param2\": \"value2\"\n"
    + "  }\n"
    + "}\n"
    + "```\n"
    + "\n"
    + "**IMPORTANT RULES:**\n"
    + "1. Use tools when you need to access files, analyze data, or get system information\n"
    + "2. Always use the exact JSON format above\n"
    + "3. Only use one tool at a time\n"
    + "4. Wait for the tool result before responding to the user\n"
    + "5. After receiving tool results, provide a natural language response to the user\n"
    + "\n"
    + "**PATH RULES - CRITICAL:**\n"
    + "- ALWAYS use ~ (tilde) for paths in the user's home directory\n"
    + "- Allowed directories: ~/Documents, ~/Desktop, ~/Downloads\n"
    + "- Examples:\n"
    + "  * \"\U{30C9}\U{30AD}\U{30E5}\U{30E1}\U{30F3}\U{30C8}\U{30D5}\U{30A9}\U{30EB}\U{30C0}\" or \"Documents folder\" \U{2192} Use path: \"~/Documents\"\n"
    + "  * \"\U{30C7}\U{30B9}\U{30AF}\U{30C8}\U{30C3}\U{30D7}\" or \"Desktop\" \U{2192} Use path: \"~/Desktop\"\n"
    + "  * \"\U{30C0}\U{30A6}\U{30F3}\U{30ED}\U{30FC}\U{30C9}\" or \"Downloads\" \U{2192} Use path: \"~/Downloads\"\n"
    + "- NEVER use paths like \"/Users/.../Documents\" or \"Documents\" - ALWAYS use \"~/Documents\"\n"
    + "\n"

  /** The fixed reminder after the tool list */
  const ToolsFooter: string :=
    "\n\nRemember: ALWAYS use ~/Documents, ~/Desktop, or ~/Downloads for paths!"

  /** `  - name (type) (optional): description` */
  function ParamLine(p: ParamDef): string {
    "  - " + p.name + " (" + p.kind + ")" + (if p.optional then " (optional)" else "") + ": " + p.description
  }

  function ParamLines(ps: seq<ParamDef>): (r: seq<string>)
    ensures |r| == |ps| && forall i :: 0 <= i < |ps| ==> r[i] == ParamLine(ps[i])
  {
    seq(|ps|, i requires 0 <= i < |ps| => ParamLine(ps[i]))
  }

  /** A tool's section: heading, description, and its parameters one per line */
  function ToolSection(t: ToolDef): string {
    "### " + t.name + "\n" + t.description + "\nParameters:\n" + Join(ParamLines(t.params), "\n")
  }

  function ToolSections(defs: seq<ToolDef>): (r: seq<string>)
    ensures |r| == |defs| && forall i :: 0 <= i < |defs| ==> r[i] == ToolSection(defs[i])
  {
    seq(|defs|, i requires 0 <= i < |defs| => ToolSection(defs[i]))
  }

  /** `_buildSystemPromptWithTools(user)`: without a controller the prompt
      is unchanged; otherwise it is wrapped around the tool sections,
      separated by blank lines */
  function BuildSystemPrompt(user: string, tools: Option<seq<ToolDef>>): string {
    match tools
    case None => user
    case Some(defs) => user + ToolsHeader + Join(ToolSections(defs), "\n\n") + ToolsFooter
  }

  /** Without tools the caller's prompt is used as it is */
  lemma SystemPromptWithoutTools(user: string)
    ensures BuildSystemPrompt(user, None) == user
  {
  }

  /** With tools the caller's prompt comes first */
  lemma SystemPromptStartsWithUser(user: string, defs: seq<ToolDef>)
    ensures StartsWith(BuildSystemPrompt(user, Some(defs)), user)
  {
    WrapKeepsEnds(user, ToolsHeader, Join(ToolSections(defs), "\n\n"), ToolsFooter);
  }

  /** With tools the path reminder comes last */
  lemma SystemPromptEndsWithReminder(user: string, defs: seq<ToolDef>)
    ensures EndsWith(BuildSystemPrompt(user, Some(defs)), ToolsFooter)
  {
    WrapKeepsEnds(user, ToolsHeader, Join(ToolSections(defs), "\n\n"), ToolsFooter);
  }

  /** Every tool's section appears in the prompt */
  lemma SystemPromptListsTools(user: string, defs: seq<ToolDef>)
    ensures forall t :: t in defs ==> Contains(BuildSystemPrompt(user, Some(defs)), ToolSection(t))
  {
    var body := Join(ToolSections(defs), "\n\n");
    forall t | t in defs
      ensures Contains(user + ToolsHeader + body + ToolsFooter, ToolSection(t))
    {
      BodyHasSections(defs, t);
      WrapKeepsPart(user + ToolsHeader, body, ToolsFooter, ToolSection(t));
    }
  }

  lemma WrapKeepsEnds(a: string, b: string, c: string, d: string)
    ensures StartsWith(a + b + c + d, a) && EndsWith(a + b + c + d, d)
  {
    var r := a + b + c + d;
    assert r[..|a|] == a;
    assert r[|r| - |d|..] == d;
  }

  lemma BodyHasSections(defs: seq<ToolDef>, t: ToolDef)
    requires t in defs
    ensures Contains(Join(ToolSections(defs), "\n\n"), ToolSection(t))
  {
    var i :| 0 <= i < |defs| && defs[i] == t;
    JoinHasPart(ToolSections(defs), "\n\n", i);
  }

  lemma WrapKeepsPart(a: string, b: string, c: string, pat: string)
    requires Contains(b, pat)
    ensures Contains(a + b + c, pat)
  {
    var k :| 0 <= k <= |b| && OccursAt(b, pat, k);
    ContainsShift(a, b, c, pat, k);
  }

  /** Each part of a joined list occurs in the joined string */
  lemma {:induction false} JoinHasPart(parts: seq<string>, sep: string, i: nat)
    requires i < |parts|
    ensures Contains(Join(parts, sep), parts[i])
    decreases |parts|
  {
    var j := Join(parts, sep);
    if |parts| == 1 {
      assert OccursAt(j, parts[0], 0);
    } else if i == 0 {
      assert j == parts[0] + (sep + Join(parts[1..], sep));
      assert OccursAt(j, parts[0], 0);
    } else {
      JoinHasPart(parts[1..], sep, i - 1);
      var rest := Join(parts[1..], sep);
      var k :| 0 <= k <= |rest| && OccursAt(rest, parts[1..][i - 1], k);
      var pre := parts[0] + sep;
      assert j == pre + rest;
      assert j[|pre| + k..|pre| + k + |parts[i]|] == rest[k..k + |parts[i]|];
      assert OccursAt(j, parts[i], |pre| + k);
    }
  }

  /** An occurrence in the middle piece is an occurrence in the whole */
  lemma ContainsShift(a: string, b: string, c: string, pat: string, k: nat)
    requires OccursAt(b, pat, k)
    ensures Contains(a + b + c, pat)
  {
    var s := a + b + c;
    assert s[|a| + k..|a| + k + |pat|] == b[k..k + |pat|];
    assert OccursAt(s, pat, |a| + k);
  }

  // ------------------------------------------------------------ the session

  /** The sampling options: `options.temperature || 0.7`, `options.maxTokens || 2048` */
  datatype Sampling = Sampling(temperature: Json, maxTokens: Json)

  function SamplingOf(options: Json): (r: Sampling)
    ensures Truthy(r.temperature) && Truthy(r.maxTokens)
  {
    Sampling(Or(Member(options, "temperature"), Some(JNum(0.7))).value,
             Or(Member(options, "maxTokens"), Some(JNum(2048.0))).value)
  }

  /** What one `session.prompt` call does: the chunks it streams to
      `onTextChunk`, then the string it resolves with or the error it throws */
  datatype Reply = Reply(chunks: seq<string>, ending: Result<string>)

  /** The scripted session: the reply to the latest of the prompts sent in this call */
  datatype Session = Session(respond: (seq<string>, Sampling) -> Reply)

  /** The parts of the manager the generation methods read and write */
  datatype Manager = Manager(session: Option<Session>, isGenerating: bool,
                             agentEnabled: bool, controller: Option<Controller>)

  /** The environment the controller's handlers run in */
  datatype ToolEnv = ToolEnv(home: string, run: (string, Json) -> HandlerOutcome, rt: JsRuntime)

  /** How the loop finds and runs tool calls */
  datatype Wiring = Wiring(detect: string -> Option<ToolCall>, execute: (Controller, ToolCall) -> Step, rt: JsRuntime)

  /** The manager's wiring: `_detectToolCall` and the controller's `executeToolCall` */
  function Wire(env: ToolEnv): (w: Wiring)
    ensures forall text :: w.detect(text) == DetectToolCall(text, env.rt)
    ensures forall c, call :: w.execute(c, call) == ExecuteToolCall(c, env.home, call, env.run, env.rt)
    ensures w.rt == env.rt
  {
    Wiring(text => DetectToolCall(text, env.rt),
           (c, call) => ExecuteToolCall(c, env.home, call, env.run, env.rt),
           env.rt)
  }

  /** What a generation resolves with */
  datatype Generation = Generation(response: string, totalTokens: nat)

  /** The manager after a call, what the call resolves with (or throws),
      and every string handed to `onToken` */
  datatype Run = Run(manager: Manager, result: Result<Generation>, emitted: seq<string>)

  /** The chunks joined in order */
  function Concat(chunks: seq<string>): string {
    if |chunks| == 0 then "" else Concat(chunks[..|chunks| - 1]) + chunks[|chunks| - 1]
  }

  /** `stopGeneration()` */
  function StopGeneration(m: Manager): (r: Manager)
    ensures !r.isGenerating
    ensures r.session == m.session && r.agentEnabled == m.agentEnabled && r.controller == m.controller
  {
    m.(isGenerating := false)
  }

  /** `enableAgent(controller)` */
  function EnableAgent(m: Manager, c: Controller): (r: Manager)
    ensures r.agentEnabled && r.controller == Some(c)
    ensures r.session == m.session && r.isGenerating == m.isGenerating
  {
    m.(controller := Some(c), agentEnabled := true)
  }

  /** `disableAgent()`: the controller is kept, only the flag drops */
  function DisableAgent(m: Manager): (r: Manager)
    ensures !r.agentEnabled
    ensures r.session == m.session && r.isGenerating == m.isGenerating && r.controller == m.controller
  {
    m.(agentEnabled := false)
  }

  /** `generate(prompt, onToken, options)`: every chunk is forwarded; the
      response is the streamed text, or the resolved value when nothing was
      streamed; at least one token is reported */
  function Generate(m: Manager, prompt: string, forward: bool, options: Json): (r: Run)
    ensures m.session.None? ==> r == Run(m, Err("Model not loaded"), [])
    ensures m.session.Some? && m.isGenerating ==> r == Run(m, Err("Already generating"), [])
    ensures m.session.Some? && !m.isGenerating ==>
              r.manager == m.(isGenerating := false)
              && var reply := m.session.value.respond([prompt], SamplingOf(options));
                 && r.emitted == (if forward then reply.chunks else [])
                 && (reply.ending.Err? <==> r.result.Err?)
                 && (r.result.Ok? ==> r.result.value.totalTokens == Max(|reply.chunks|, 1))
                 && (r.result.Ok? && Concat(reply.chunks) != "" ==> r.result.value.response == Concat(reply.chunks))
                 && (r.result.Ok? && Concat(reply.chunks) == "" ==> r.result.value.response == reply.ending.value)
                 && (reply.ending.Err? ==> r.result == Err(reply.ending.message))
  {
    if m.session.None? then Run(m, Err("Model not loaded"), [])
    else if m.isGenerating then Run(m, Err("Already generating"), [])
    else
      var reply := m.session.value.respond([prompt], SamplingOf(options));
      var emitted := if forward then reply.chunks else [];
      match reply.ending
      case Err(e) => Run(m.(isGenerating := false), Err(e), emitted)
      case Ok(resolved) =>
        var full := Concat(reply.chunks);
        var tokens := if |reply.chunks| == 0 then 1 else |reply.chunks|;
        Run(m.(isGenerating := false), Ok(Generation(if full != "" then full else resolved, tokens)), emitted)
  }

  // -------------------------------------------------------- streaming a turn

  /** The turn's state after some chunks: the accumulated text, whether a
      tool call has been seen in it yet, and the chunks forwarded so far */
  datatype TurnStream = TurnStream(text: string, detected: bool, forwarded: seq<string>)

  /** The `onTextChunk` callback over the first `n` chunks of a turn */
  function Stream(chunks: seq<string>, n: nat, detect: string -> Option<ToolCall>): (r: TurnStream)
    requires n <= |chunks|
    ensures r.text == Concat(chunks[..n])
    decreases n
  {
    if n == 0 then TurnStream("", false, [])
    else
      var st := Stream(chunks, n - 1, detect);
      var text := st.text + chunks[n - 1];
      assert chunks[..n - 1] == chunks[..n][..n - 1];
      var detected := st.detected || detect(text).Some?;
      TurnStream(text, detected, st.forwarded + (if detected then [] else [chunks[n - 1]]))
  }

  /** Reference definition: a tool call is visible in the text once the
      first `k + 1` chunks have arrived */
  predicate SeenAfter(chunks: seq<string>, k: nat, detect: string -> Option<ToolCall>)
    requires k < |chunks|
  {
    detect(Concat(chunks[..k + 1])).Some?
  }

  /** Exactly the first `f` of the first `n` chunks were forwarded: none of
      them made a tool call visible, and if `f < n` the next one did */
  ghost predicate ForwardedUpTo(chunks: seq<string>, n: nat, detect: string -> Option<ToolCall>, f: nat)
    requires n <= |chunks|
  {
    && f <= n && Stream(chunks, n, detect).forwarded == chunks[..f]
    && (forall k :: 0 <= k < f ==> !SeenAfter(chunks, k, detect))
    && (f < n ==> SeenAfter(chunks, f, detect))
    && (Stream(chunks, n, detect).detected <==> f < n)
  }

  /** One more chunk: the turn detects a tool call once the grown text shows
      one, and forwards the chunk only while nothing has been detected */
  lemma StreamStep(chunks: seq<string>, n: nat, detect: string -> Option<ToolCall>)
    requires 0 < n <= |chunks|
    ensures Stream(chunks, n, detect).detected
            == (Stream(chunks, n - 1, detect).detected || SeenAfter(chunks, n - 1, detect))
    ensures Stream(chunks, n, detect).forwarded
            == Stream(chunks, n - 1, detect).forwarded
               + (if Stream(chunks, n, detect).detected then [] else [chunks[n - 1]])
  {
  }

  /** Chunks are forwarded exactly up to the one whose arrival first makes a
      tool call visible; that chunk and every later one are held back */
  lemma {:induction false} StreamForwardsUntilDetection(chunks: seq<string>, n: nat, detect: string -> Option<ToolCall>)
    requires n <= |chunks|
    ensures exists f :: ForwardedUpTo(chunks, n, detect, f)
    decreases n
  {
    if n == 0 {
      assert ForwardedUpTo(chunks, 0, detect, 0);
    } else {
      StreamForwardsUntilDetection(chunks, n - 1, detect);
      var f: nat :| ForwardedUpTo(chunks, n - 1, detect, f);
      if f < n - 1 || SeenAfter(chunks, n - 1, detect) {
        StreamHolds(chunks, n, detect, f);
      } else {
        StreamPasses(chunks, n, detect);
      }
    }
  }

  /** Once a call is visible, or as the chunk that shows it arrives,
      nothing more is forwarded */
  lemma StreamHolds(chunks: seq<string>, n: nat, detect: string -> Option<ToolCall>, f: nat)
    requires 0 < n <= |chunks| && ForwardedUpTo(chunks, n - 1, detect, f)
    requires f < n - 1 || SeenAfter(chunks, n - 1, detect)
    ensures ForwardedUpTo(chunks, n, detect, f)
  {
    StreamStep(chunks, n, detect);
  }

  /** While no call is visible, the new chunk is forwarded */
  lemma StreamPasses(chunks: seq<string>, n: nat, detect: string -> Option<ToolCall>)
    requires 0 < n <= |chunks| && ForwardedUpTo(chunks, n - 1, detect, n - 1)
    requires !SeenAfter(chunks, n - 1, detect)
    ensures ForwardedUpTo(chunks, n, detect, n)
  {
    StreamStep(chunks, n, detect);
    assert chunks[..n - 1] + [chunks[n - 1]] == chunks[..n];
  }

  // --------------------------------------------------------- the agent loop

  /** The prompt of the turn after a successful tool call */
  function ResultPrompt(tool: Json, result: Json, rt: JsRuntime): string {
    ResultPromptHead(tool, rt) + rt.stringify(result) + ResultPromptTail
  }

  function ResultPromptHead(tool: Json, rt: JsRuntime): string {
    "Tool " + ToJsString(tool, rt) + " returned:\n```json\n"
  }

  const ResultPromptTail: string :=
    "\n```\n\nNow provide a helpful response to the user based on this information."

  /** What `onToken` receives and the response gains when a tool fails */
  function FailureNotice(error: string): string {
    FailureNoticeHead + error + "\n"
  }

  const FailureNoticeHead: string := "\n\n\U{274C} Tool execution failed: "

  /** The tool's result is recovered from the next prompt by cutting off
      the fixed text around it */
  lemma ResultPromptRoundTrip(tool: Json, result: Json, rt: JsRuntime)
    ensures var p := ResultPrompt(tool, result, rt);
            var head := |ResultPromptHead(tool, rt)|;
            && StartsWith(p, ResultPromptHead(tool, rt)) && EndsWith(p, ResultPromptTail)
            && head + |ResultPromptTail| <= |p|
            && p[head..|p| - |ResultPromptTail|] == rt.stringify(result)
  {
    var p := ResultPrompt(tool, result, rt);
    var h := ResultPromptHead(tool, rt);
    assert p == h + rt.stringify(result) + ResultPromptTail;
    assert p[..|h|] == h;
    assert p[|p| - |ResultPromptTail|..] == ResultPromptTail;
    assert p[|h|..|p| - |ResultPromptTail|] == rt.stringify(result);
  }

  /** The error is recovered from the failure notice */
  lemma FailureNoticeRoundTrip(error: string)
    ensures var n := FailureNotice(error);
            && StartsWith(n, FailureNoticeHead) && EndsWith(n, "\n")
            && n[|FailureNoticeHead|..|n| - 1] == error
  {
    var n := FailureNotice(error);
    assert n[..|FailureNoticeHead|] == FailureNoticeHead;
    assert n[|FailureNoticeHead|..|n| - 1] == error;
  }

  /** How the loop ended */
  datatype Ending = Answered | ToolFailed(error: string) | TurnsExhausted | SessionThrew(error: string)

  /** One turn as it happened: its prompt, the text streamed, the call
      detected in it and what executing that call gave */
  datatype TurnRecord = TurnRecord(prompt: string, text: string, call: Option<ToolCall>, outcome: Option<ExecOutcome>)

  /** The loop's state: the controller, the turns so far, the response, the
      chunk count and what `onToken` received */
  datatype Loop = Loop(controller: Controller, turns: seq<TurnRecord>, response: string,
                       tokens: nat, emitted: seq<string>)

  datatype LoopEnd = LoopEnd(state: Loop, ending: Ending)

  function Last<T>(s: seq<T>): T
    requires |s| > 0
  {
    s[|s| - 1]
  }

  /** The prompts sent so far, in order */
  function Prompts(turns: seq<TurnRecord>): (r: seq<string>)
    ensures |r| == |turns| && forall i :: 0 <= i < |turns| ==> r[i] == turns[i].prompt
  {
    seq(|turns|, i requires 0 <= i < |turns| => turns[i].prompt)
  }

  /** Turn `k` ran a tool successfully */
  predicate ToolSucceeded(t: TurnRecord) {
    t.call.Some? && t.outcome.Some? && t.outcome.value.Succeeded?
  }

  /** Turn `k` ran a tool successfully and turn `k + 1` was prompted with its result */
  predicate FedBack(turns: seq<TurnRecord>, k: nat, rt: JsRuntime) {
    k + 1 < |turns| && ToolSucceeded(turns[k])
    && turns[k + 1].prompt == ResultPrompt(turns[k].call.value.tool, turns[k].outcome.value.result, rt)
  }

  /** What one turn leads to: another turn with the tool's result as its
      prompt, or the end of the loop */
  datatype TurnOutcome = Continue(next: Loop, nextPrompt: string) | Finish(end: LoopEnd)

  /** One iteration of the `while (turn < maxTurns)` loop of
      `generateWithAgent`: stream the reply, then answer, run the detected
      tool, or give up on a failed tool */
  function TakeTurn(w: Wiring, session: Session, sampling: Sampling, forward: bool,
                    st: Loop, prompt: string): (r: TurnOutcome)
    ensures r.Continue? ==>
              && |r.next.turns| == |st.turns| + 1
              && r.next.turns[..|st.turns|] == st.turns
              && Last(r.next.turns).prompt == prompt && ToolSucceeded(Last(r.next.turns))
              && r.nextPrompt == ResultPrompt(Last(r.next.turns).call.value.tool,
                                              Last(r.next.turns).outcome.value.result, w.rt)
              && r.next.response == st.response
              && (!forward ==> r.next.emitted == st.emitted)
  {
    var reply := session.respond(Prompts(st.turns) + [prompt], sampling);
    var stream := Stream(reply.chunks, |reply.chunks|, w.detect);
    var emitted := st.emitted + (if forward then stream.forwarded else []);
    var tokens := st.tokens + |reply.chunks|;
    match reply.ending
    case Err(e) =>
      var rec := TurnRecord(prompt, stream.text, None, None);
      Finish(LoopEnd(st.(turns := st.turns + [rec], tokens := tokens, emitted := emitted), SessionThrew(e)))
    case Ok(_) =>
      match w.detect(stream.text)
      case None =>
        var rec := TurnRecord(prompt, stream.text, None, None);
        Finish(LoopEnd(Loop(st.controller, st.turns + [rec], st.response + stream.text, tokens, emitted), Answered))
      case Some(call) =>
        var step := w.execute(st.controller, call);
        var rec := TurnRecord(prompt, stream.text, Some(call), Some(step.outcome));
        match step.outcome
        case Succeeded(result) =>
          Continue(Loop(step.controller, st.turns + [rec], st.response, tokens, emitted),
                   ResultPrompt(call.tool, result, w.rt))
        case Failed(error) =>
          var notice := FailureNotice(error);
          Finish(LoopEnd(Loop(step.controller, st.turns + [rec], st.response + notice, tokens,
                            emitted + (if forward then [notice] else [])), ToolFailed(error)))
  }

  /** The `while (turn < maxTurns)` loop of `generateWithAgent`, from a
      state whose next prompt is `prompt` */
  function AgentLoop(w: Wiring, session: Session, sampling: Sampling, forward: bool,
                     st: Loop, prompt: string): (r: LoopEnd)
    requires |st.turns| <= MaxTurns
    decreases MaxTurns - |st.turns|
  {
    if |st.turns| == MaxTurns then LoopEnd(st, TurnsExhausted)
    else
      match TakeTurn(w, session, sampling, forward, st, prompt)
      case Continue(next, p') => AgentLoop(w, session, sampling, forward, next, p')
      case Finish(end) => end
  }

  /** What the loop guarantees, for a run `r` from state `st` with next
      prompt `prompt`: at most five turns; every new turn but the last ran a
      tool successfully and fed its result to the next; the last one decides
      how the loop ends and what the response gains; nothing reaches
      `onToken` when there is none */
  ghost predicate LoopPost(w: Wiring, forward: bool, st: Loop, prompt: string, r: LoopEnd) {
    && |st.turns| <= |r.state.turns| <= MaxTurns
    && r.state.turns[..|st.turns|] == st.turns
    && (|r.state.turns| > |st.turns| ==> r.state.turns[|st.turns|].prompt == prompt)
    && (forall k :: |st.turns| <= k < |r.state.turns| - 1 ==> FedBack(r.state.turns, k, w.rt))
    && (!forward ==> r.state.emitted == st.emitted)
    && (r.ending == TurnsExhausted ==>
          |r.state.turns| == MaxTurns && r.state.response == st.response
          && (|r.state.turns| > |st.turns| ==> ToolSucceeded(Last(r.state.turns))))
    && (r.ending != TurnsExhausted ==>
          |r.state.turns| > |st.turns| && !ToolSucceeded(Last(r.state.turns)))
    && (r.ending == Answered ==>
          Last(r.state.turns).call.None?
          && w.detect(Last(r.state.turns).text).None?
          && r.state.response == st.response + Last(r.state.turns).text)
    && (r.ending.ToolFailed? ==>
          Last(r.state.turns).outcome == Some(Failed(r.ending.error))
          && r.state.response == st.response + FailureNotice(r.ending.error)
          && (forward ==> |r.state.emitted| > 0 && Last(r.state.emitted) == FailureNotice(r.ending.error)))
    && (r.ending.SessionThrew? ==> r.state.response == st.response)
  }

  lemma {:induction false} LoopOutcome(w: Wiring, session: Session, sampling: Sampling, forward: bool,
                                       st: Loop, prompt: string)
    requires |st.turns| <= MaxTurns
    ensures LoopPost(w, forward, st, prompt, AgentLoop(w, session, sampling, forward, st, prompt))
    decreases MaxTurns - |st.turns|
  {
    var r := AgentLoop(w, session, sampling, forward, st, prompt);
    if |st.turns| < MaxTurns {
      match TakeTurn(w, session, sampling, forward, st, prompt)
      case Continue(next, p') =>
        LoopOutcome(w, session, sampling, forward, next, p');
        LoopPostExtends(w, forward, st, prompt, Last(next.turns), next, p', r);
      case Finish(end) =>
        StopPost(w, session, sampling, forward, st, prompt);
    }
  }

  /** A turn that ends the loop meets the loop's guarantee by itself */
  lemma StopPost(w: Wiring, session: Session, sampling: Sampling, forward: bool, st: Loop, prompt: string)
    requires |st.turns| < MaxTurns
    requires TakeTurn(w, session, sampling, forward, st, prompt).Finish?
    ensures LoopPost(w, forward, st, prompt, TakeTurn(w, session, sampling, forward, st, prompt).end)
  {
    var r := TakeTurn(w, session, sampling, forward, st, prompt).end;
    var reply := session.respond(Prompts(st.turns) + [prompt], sampling);
    var stream := Stream(reply.chunks, |reply.chunks|, w.detect);
    var rec := Last(r.state.turns);
    assert r.state.turns == st.turns + [rec];
    assert r.state.turns[..|st.turns|] == st.turns;
    assert rec.prompt == prompt && rec.text == stream.text;
    match reply.ending
    case Err(e) =>
      assert r.ending == SessionThrew(e) && rec.call.None?;
    case Ok(_) =>
      match w.detect(stream.text)
      case None =>
        assert r.ending == Answered && rec.call.None?;
      case Some(call) =>
        assert rec.outcome.Some? && rec.outcome.value.Failed?;
  }

  /** A turn that ran a tool successfully, put in front of the rest of a run */
  lemma LoopPostExtends(w: Wiring, forward: bool, st: Loop, prompt: string, rec: TurnRecord,
                        next: Loop, p': string, r: LoopEnd)
    requires |next.turns| <= MaxTurns
    requires |next.turns| == |st.turns| + 1 && next.turns[..|st.turns|] == st.turns
    requires Last(next.turns) == rec && next.response == st.response
    requires !forward ==> next.emitted == st.emitted
    requires rec.prompt == prompt && ToolSucceeded(rec)
    requires p' == ResultPrompt(rec.call.value.tool, rec.outcome.value.result, w.rt)
    requires LoopPost(w, forward, next, p', r)
    ensures LoopPost(w, forward, st, prompt, r)
  {
    var turns := r.state.turns;
    assert turns[..|st.turns|] == st.turns by {
      assert turns[..|st.turns|] == turns[..|next.turns|][..|st.turns|];
    }
    assert turns[|st.turns|] == rec by {
      assert turns[..|next.turns|][|st.turns|] == next.turns[|st.turns|];
    }
    if |turns| > |next.turns| {
      assert FedBack(turns, |st.turns|, w.rt);
    }
  }

  /** The loop as `generateWithAgent` starts it */
  function AgentRun(m: Manager, env: ToolEnv, prompt: string, forward: bool, options: Json): LoopEnd
    requires m.session.Some? && m.controller.Some?
  {
    AgentLoop(Wire(env), m.session.value, SamplingOf(options), forward, Loop(m.controller.value, [], "", 0, []), prompt)
  }

  /** `generateWithAgent(prompt, onToken, options)`: the guards in the
      order `generateWithAgent` makes them, the delegation to `generate` when the agent is off,
      and the flag cleared however the loop ends */
  function GenerateWithAgent(m: Manager, env: ToolEnv, prompt: string, forward: bool, options: Json): (r: Run)
    ensures m.session.None? ==> r == Run(m, Err("Model not loaded"), [])
    ensures m.session.Some? && (!m.agentEnabled || m.controller.None?) ==> r == Generate(m, prompt, forward, options)
    ensures m.session.Some? && m.isGenerating ==> r == Run(m, Err("Already generating"), [])
    ensures m.session.Some? && !m.isGenerating ==> !r.manager.isGenerating
    ensures r.manager.session == m.session && r.manager.agentEnabled == m.agentEnabled
    ensures !forward ==> r.emitted == []
  {
    if m.session.None? then Run(m, Err("Model not loaded"), [])
    else if !m.agentEnabled || m.controller.None? then Generate(m, prompt, forward, options)
    else if m.isGenerating then Run(m, Err("Already generating"), [])
    else
      var end := AgentRun(m, env, prompt, forward, options);
      LoopOutcome(Wire(env), m.session.value, SamplingOf(options), forward, Loop(m.controller.value, [], "", 0, []), prompt);
      var after := m.(isGenerating := false, controller := Some(end.state.controller));
      match end.ending
      case SessionThrew(e) => Run(after, Err(e), end.state.emitted)
      case _ => Run(after, Ok(Generation(end.state.response, end.state.tokens)), end.state.emitted)
  }

  /** In agent mode the call resolves with the loop's response and chunk
      count, unless the session threw */
  lemma AgentRunResolves(m: Manager, env: ToolEnv, prompt: string, forward: bool, options: Json)
    requires m.session.Some? && m.agentEnabled && m.controller.Some? && !m.isGenerating
    ensures var end := AgentRun(m, env, prompt, forward, options);
            GenerateWithAgent(m, env, prompt, forward, options).result
            == if end.ending.SessionThrew? then Err(end.ending.error)
               else Ok(Generation(end.state.response, end.state.tokens))
  {
  }

  /** In agent mode the response is decided by the last turn: empty after
      five successful tool calls, the turn's text when it held no call, the
      failure notice when its tool failed; a throwing session rejects the call */
  lemma AgentResponse(m: Manager, env: ToolEnv, prompt: string, forward: bool, options: Json)
    requires m.session.Some? && m.agentEnabled && m.controller.Some? && !m.isGenerating
    ensures var end := AgentRun(m, env, prompt, forward, options);
            var r := GenerateWithAgent(m, env, prompt, forward, options);
            && 1 <= |end.state.turns| <= MaxTurns
            && end.state.turns[0].prompt == prompt
            && (end.ending == TurnsExhausted ==> r.result == Ok(Generation("", end.state.tokens)))
            && (end.ending == Answered ==> r.result == Ok(Generation(Last(end.state.turns).text, end.state.tokens)))
            && (end.ending.ToolFailed? ==> r.result == Ok(Generation(FailureNotice(end.ending.error), end.state.tokens)))
            && (end.ending.SessionThrew? ==> r.result == Err(end.ending.error))
  {
    var end := AgentRun(m, env, prompt, forward, options);
    AgentRunResolves(m, env, prompt, forward, options);
    var st0 := Loop(m.controller.value, [], "", 0, []);
    LoopOutcome(Wire(env), m.session.value, SamplingOf(options), forward, st0, prompt);
    assert LoopPost(Wire(env), forward, st0, prompt, end);
    if end.ending == Answered {
      assert "" + Last(end.state.turns).text == Last(end.state.turns).text;
    } else if end.ending.ToolFailed? {
      assert "" + FailureNotice(end.ending.error) == FailureNotice(end.ending.error);
    }
  }
}

=== FILE: chunker.dfy ===
/** `ChunkProcessor`: splitting a document into overlapping token windows
    for retrieval, and summarising the chunks. The tokenizer's `encode` is
    a parameter; tokens are naturals. Text positions are estimated from
    token positions in proportion to the text's length. */
module Chunker {
  import opened Wrappers
  import opened Text

  const DefaultChunkSize: nat := 512
  const DefaultOverlap: nat := 128

  /** The window size and the number of tokens shared by neighbouring windows */
  datatype Config = Config(chunkSize: nat, overlap: nat)

  /** `new ChunkProcessor(options)`: `options.chunkSize || 512`,
      `options.overlap || 128` (a missing or zero option takes the default) */
  function MakeConfig(chunkSize: Option<nat>, overlap: Option<nat>): (r: Config)
    ensures r.chunkSize == (if chunkSize.Some? && chunkSize.value != 0 then chunkSize.value else DefaultChunkSize)
    ensures r.overlap == (if overlap.Some? && overlap.value != 0 then overlap.value else DefaultOverlap)
    ensures r.chunkSize > 0
  {
    Config(if chunkSize.Some? && chunkSize.value != 0 then chunkSize.value else DefaultChunkSize,
           if overlap.Some? && overlap.value != 0 then overlap.value else DefaultOverlap)
  }

  /** The configurations for which the window loop advances */
  predicate Advances(cfg: Config) {
    cfg.overlap < cfg.chunkSize
  }

  /** The distance between neighbouring window starts */
  function Step(cfg: Config): nat
    requires Advances(cfg)
  {
    cfg.chunkSize - cfg.overlap
  }

  datatype Chunk = Chunk(content: string, tokenCount: nat, index: nat)

  // ------------------------------------------------------------- positions

  /** `findTextPosition(text, tokens, idx)`: `floor(|text| * idx / |tokens|)`,
      with the exact quotient in place of the floating-point `tokenIndex / allTokens.length` */
  function TextPosition(textLength: nat, tokenIndex: nat, tokenTotal: nat): nat
    requires tokenTotal > 0
  {
    (textLength * tokenIndex) / tokenTotal
  }

  lemma MulMonotone(a: nat, b: nat, c: nat)
    requires b <= c
    ensures a * b <= a * c
  {
  }

  lemma MulCancel(x: nat, y: nat, d: nat)
    requires d > 0 && x * d < y * d
    ensures x < y
  {
  }

  lemma DivMonotone(a: nat, b: nat, d: nat)
    requires a <= b && d > 0
    ensures a / d <= b / d
  {
    assert (a / d) * d <= a;
    assert b < (b / d + 1) * d;
    MulCancel(a / d, b / d + 1, d);
  }

  lemma DivLower(q: nat, x: nat, d: nat)
    requires d > 0 && q * d <= x
    ensures q <= x / d
  {
    assert x < (x / d + 1) * d;
    MulCancel(q, x / d + 1, d);
  }

  lemma DivUpper(q: nat, x: nat, d: nat)
    requires d > 0 && x < q * d
    ensures x / d < q
  {
    assert (x / d) * d <= x;
    MulCancel(x / d, q, d);
  }

  /** A token position within the tokens maps into the text, and later
      token positions never map to earlier text positions */
  lemma TextPositionBounds(textLength: nat, i: nat, j: nat, tokenTotal: nat)
    requires tokenTotal > 0 && i <= j <= tokenTotal
    ensures TextPosition(textLength, i, tokenTotal) <= TextPosition(textLength, j, tokenTotal) <= textLength
    ensures TextPosition(textLength, 0, tokenTotal) == 0
    ensures TextPosition(textLength, tokenTotal, tokenTotal) == textLength
  {
    MulMonotone(textLength, i, j);
    MulMonotone(textLength, j, tokenTotal);
    DivMonotone(textLength * i, textLength * j, tokenTotal);
    DivMonotone(textLength * j, textLength * tokenTotal, tokenTotal);
    MulDivCancel(textLength, tokenTotal);
  }

  lemma MulDivCancel(a: nat, d: nat)
    requires d > 0
    ensures (a * d) / d == a
  {
    DivLower(a, a * d, d);
    assert (a + 1) * d == a * d + d;
    DivUpper(a + 1, a * d, d);
  }

  // --------------------------------------------------------------- windows

  /** Where the `k`-th window starts: `k` steps into the tokens */
  function Start(cfg: Config, k: nat): nat
    requires Advances(cfg)
  {
    if k == 0 then 0 else Start(cfg, k - 1) + Step(cfg)
  }

  lemma {:induction false} StartIsMultiple(cfg: Config, k: nat)
    requires Advances(cfg)
    ensures Start(cfg, k) == k * Step(cfg)
  {
    if k > 0 {
      StartIsMultiple(cfg, k - 1);
      assert k * Step(cfg) == (k - 1) * Step(cfg) + Step(cfg);
    }
  }

  /** The number of windows from the `k`-th on: the loop runs while the
      window starts inside the tokens and stops after the first one that
      reaches the last token */
  function WindowsFrom(n: nat, cfg: Config, k: nat): nat
    requires Advances(cfg)
    decreases n - Start(cfg, k)
  {
    if Start(cfg, k) >= n then 0
    else if Start(cfg, k) + cfg.chunkSize >= n then 1
    else 1 + WindowsFrom(n, cfg, k + 1)
  }

  function WindowCount(n: nat, cfg: Config): nat
    requires Advances(cfg)
  {
    WindowsFrom(n, cfg, 0)
  }

  /** Every window counted from the `j`-th on starts inside the tokens;
      all but the last stop short of the end, and the last reaches it */
  lemma {:induction false} WindowsInside(n: nat, cfg: Config, j: nat, k: nat)
    requires Advances(cfg) && j <= k < j + WindowsFrom(n, cfg, j)
    ensures Start(cfg, k) < n
    ensures k < j + WindowsFrom(n, cfg, j) - 1 ==> Start(cfg, k) + cfg.chunkSize < n
    ensures k == j + WindowsFrom(n, cfg, j) - 1 ==> Start(cfg, k) + cfg.chunkSize >= n
    decreases k - j
  {
    if k > j {
      WindowsInside(n, cfg, j + 1, k);
    }
  }

  /** A non-empty token sequence has a window, and the windows together
      cover every token: the last one reaches the end */
  lemma WindowsCoverTokens(n: nat, cfg: Config)
    requires Advances(cfg) && n > 0
    ensures WindowCount(n, cfg) >= 1
    ensures Start(cfg, WindowCount(n, cfg) - 1) + cfg.chunkSize >= n
    ensures forall k :: 0 <= k < WindowCount(n, cfg) - 1 ==> Start(cfg, k) + cfg.chunkSize < n
  {
    assert WindowsFrom(n, cfg, 0) >= 1;
    WindowsInside(n, cfg, 0, WindowCount(n, cfg) - 1);
    forall k | 0 <= k < WindowCount(n, cfg) - 1
      ensures Start(cfg, k) + cfg.chunkSize < n
    {
      WindowsInside(n, cfg, 0, k);
    }
  }

  /** The number of tokens in window `k`: `tokens.slice(i, i + chunkSize).length` */
  function WindowLength(n: nat, cfg: Config, k: nat): nat
    requires Advances(cfg) && Start(cfg, k) <= n
  {
    Min(cfg.chunkSize, n - Start(cfg, k))
  }

  /** The text estimated for window `k`, from the text position of its
      first token to that of the token after its last */
  function WindowText(text: string, n: nat, cfg: Config, k: nat): string
    requires Advances(cfg) && n > 0 && Start(cfg, k) <= n
  {
    var start := Start(cfg, k);
    var len := WindowLength(n, cfg, k);
    TextPositionBounds(|text|, start, start + len, n);
    text[TextPosition(|text|, start, n)..TextPosition(|text|, start + len, n)]
  }

  /** A window before filtering: its trimmed text and its number of tokens */
  datatype Window = Window(content: string, tokenCount: nat)

  function WindowAt(text: string, n: nat, cfg: Config, k: nat): Window
    requires Advances(cfg) && n > 0 && Start(cfg, k) < n
  {
    Window(Trim(WindowText(text, n, cfg, k)), WindowLength(n, cfg, k))
  }

  /** The first `k` windows of an `n`-token text, in order */
  function WindowsUpTo(text: string, n: nat, cfg: Config, k: nat): (ws: seq<Window>)
    requires Advances(cfg) && n > 0 && k <= WindowCount(n, cfg)
    ensures |ws| == k
  {
    if k == 0 then []
    else
      WindowsInside(n, cfg, 0, k - 1);
      WindowsUpTo(text, n, cfg, k - 1) + [WindowAt(text, n, cfg, k - 1)]
  }

  /** Every window of an `n`-token text, in order */
  function Windows(text: string, n: nat, cfg: Config): (ws: seq<Window>)
    requires Advances(cfg) && n > 0
    ensures |ws| == WindowCount(n, cfg)
  {
    WindowsUpTo(text, n, cfg, WindowCount(n, cfg))
  }

  /** Window `j` of the sequence is the one the loop cuts at step `j` */
  lemma {:induction false} WindowsUpToIndex(text: string, n: nat, cfg: Config, k: nat, j: nat)
    requires Advances(cfg) && n > 0 && j < k <= WindowCount(n, cfg)
    ensures Start(cfg, j) < n && WindowsUpTo(text, n, cfg, k)[j] == WindowAt(text, n, cfg, j)
    decreases k
  {
    WindowsInside(n, cfg, 0, j);
    if j < k - 1 {
      WindowsUpToIndex(text, n, cfg, k - 1, j);
    }
  }

  /** Each window holds between 1 and `chunkSize` tokens */
  lemma WindowsBounded(text: string, n: nat, cfg: Config)
    requires Advances(cfg) && n > 0
    ensures forall k :: 0 <= k < |Windows(text, n, cfg)| ==>
              1 <= Windows(text, n, cfg)[k].tokenCount <= cfg.chunkSize
  {
    forall k | 0 <= k < |Windows(text, n, cfg)|
      ensures 1 <= Windows(text, n, cfg)[k].tokenCount <= cfg.chunkSize
    {
      WindowsUpToIndex(text, n, cfg, WindowCount(n, cfg), k);
    }
  }

  /** Reference definition of the result: the windows with non-blank
      content, numbered in order */
  function Number(ws: seq<Window>): seq<Chunk> {
    if |ws| == 0 then [] else Keep(Number(ws[..|ws| - 1]), ws[|ws| - 1])
  }

  lemma NumberSnoc(ws: seq<Window>, w: Window)
    ensures Number(ws + [w]) == Keep(Number(ws), w)
  {
    assert (ws + [w])[..|ws|] == ws;
  }

  /** The chunks so far, and the window `w` appended as the next chunk when
      its content is not blank; the running chunk index of the loop is the
      number of chunks kept so far */
  function Keep(chunks: seq<Chunk>, w: Window): seq<Chunk> {
    if |w.content| > 0 then chunks + [Chunk(w.content, w.tokenCount, |chunks|)] else chunks
  }

  /** `splitIntoChunks(text)`: a blank text gives no chunks; otherwise each
      window of the token sequence is cut from the text, trimmed, and kept
      when something remains. A text of at most `chunkSize` tokens is one
      window, after which the loop breaks whatever the overlap; a longer
      one needs the loop to advance */
  method SplitIntoChunks(text: string, encode: string -> seq<nat>, cfg: Config) returns (chunks: seq<Chunk>)
    requires Advances(cfg) || |encode(text)| <= cfg.chunkSize
    ensures Trim(text) == "" ==> chunks == []
    ensures |encode(text)| == 0 ==> chunks == []
    ensures Trim(text) != "" && 0 < |encode(text)| <= cfg.chunkSize ==>
              chunks == [Chunk(Trim(text), |encode(text)|, 0)]
    ensures Advances(cfg) && Trim(text) != "" && |encode(text)| > 0 ==>
              chunks == Number(Windows(text, |encode(text)|, cfg))
  {
    if |text| == 0 || Trim(text) == "" {
      return [];
    }
    var tokens := encode(text);
    if |tokens| == 0 {
      return [];
    }
    if |tokens| <= cfg.chunkSize {
      // the first window holds every token, and the loop breaks after it
      var n := |tokens|;
      TextPositionBounds(|text|, 0, n, n);
      var content := Trim(text[TextPosition(|text|, 0, n)..TextPosition(|text|, n, n)]);
      assert text[0..|text|] == text;
      chunks := if |content| > 0 then [Chunk(content, n, 0)] else [];
      if Advances(cfg) {
        ShortTextIsOneChunk(text, n, cfg);
      }
    } else {
      chunks := ChunkWindows(text, |tokens|, cfg);
    }
  }

  /** A text of at most `chunkSize` tokens is a single chunk: the whole
      text, trimmed, holding every token */
  lemma ShortTextIsOneChunk(text: string, n: nat, cfg: Config)
    requires Advances(cfg) && 0 < n <= cfg.chunkSize && Trim(text) != ""
    ensures Number(Windows(text, n, cfg)) == [Chunk(Trim(text), n, 0)]
  {
    assert Start(cfg, 0) == 0;
    assert WindowCount(n, cfg) == 1;
    TextPositionBounds(|text|, 0, n, n);
    assert text[0..|text|] == text;
    assert WindowText(text, n, cfg, 0) == text;
    var w := WindowAt(text, n, cfg, 0);
    assert w == Window(Trim(text), n);
    assert Windows(text, n, cfg) == [w];
    assert Number([w]) == Keep(Number([]), w);
  }

  /** The window loop of `splitIntoChunks` over a text of `n` tokens: start
      at 0, advance by the step, and stop after the first window that
      reaches the last token */
  method ChunkWindows(text: string, n: nat, cfg: Config) returns (chunks: seq<Chunk>)
    requires Advances(cfg) && n > 0
    ensures chunks == Number(Windows(text, n, cfg))
  {
    chunks := [];
    var step := cfg.chunkSize - cfg.overlap;
    var i := 0;
    var k := 0;
    while i < n
      invariant i == Start(cfg, k)
      invariant WindowCount(n, cfg) == k + WindowsFrom(n, cfg, k)
      invariant chunks == Number(WindowsUpTo(text, n, cfg, k))
      decreases n - i
    {
      WindowStep(n, cfg, k);
      NumberStep(text, n, cfg, k);
      chunks := Keep(chunks, WindowAt(text, n, cfg, k));
      k := k + 1;
      if i + cfg.chunkSize >= n {
        break;
      }
      i := i + step;
    }
    assert k == WindowCount(n, cfg);
  }

  /** Numbering one more window keeps the numbering of the earlier ones */
  lemma NumberStep(text: string, n: nat, cfg: Config, k: nat)
    requires Advances(cfg) && n > 0 && Start(cfg, k) < n && k < WindowCount(n, cfg)
    ensures Number(WindowsUpTo(text, n, cfg, k + 1))
            == Keep(Number(WindowsUpTo(text, n, cfg, k)), WindowAt(text, n, cfg, k))
  {
    NumberSnoc(WindowsUpTo(text, n, cfg, k), WindowAt(text, n, cfg, k));
  }

  /** One turn of the window loop: the window at `k` is counted, and either
      it reaches the end or the next one starts a step later */
  lemma WindowStep(n: nat, cfg: Config, k: nat)
    requires Advances(cfg) && Start(cfg, k) < n
    ensures Start(cfg, k) + cfg.chunkSize >= n ==> WindowsFrom(n, cfg, k) == 1
    ensures Start(cfg, k) + cfg.chunkSize < n ==> WindowsFrom(n, cfg, k) == 1 + WindowsFrom(n, cfg, k + 1)
    ensures Start(cfg, k + 1) == Start(cfg, k) + Step(cfg)
  {
  }

  /** The chunks are numbered 0, 1, 2, ... in order, none is blank, and
      each keeps the token count of its window */
  lemma {:induction false} NumberWellFormed(ws: seq<Window>, lo: nat, hi: nat)
    requires forall k :: 0 <= k < |ws| ==> lo <= ws[k].tokenCount <= hi
    ensures forall j :: 0 <= j < |Number(ws)| ==>
              Number(ws)[j].index == j && |Number(ws)[j].content| > 0 && lo <= Number(ws)[j].tokenCount <= hi
    ensures |Number(ws)| <= |ws|
    decreases |ws|
  {
    if |ws| > 0 {
      var init := ws[..|ws| - 1];
      assert forall k :: 0 <= k < |init| ==> init[k] == ws[k];
      NumberWellFormed(init, lo, hi);
      var before := Number(init);
      var cs := Number(ws);
      forall j | 0 <= j < |cs|
        ensures cs[j].index == j && |cs[j].content| > 0 && lo <= cs[j].tokenCount <= hi
      {
        if j < |before| {
          assert cs[j] == before[j];
        }
      }
    }
  }

  /** The chunks of a text are numbered 0, 1, 2, ..., none is blank, and
      each holds between 1 and `chunkSize` tokens */
  lemma ChunksWellFormed(text: string, n: nat, cfg: Config)
    requires Advances(cfg) && n > 0
    ensures var cs := Number(Windows(text, n, cfg));
            forall j :: 0 <= j < |cs| ==>
              cs[j].index == j && |cs[j].content| > 0 && 1 <= cs[j].tokenCount <= cfg.chunkSize
  {
    WindowsBounded(text, n, cfg);
    var ws := Windows(text, n, cfg);
    NumberWellFormed(ws, 1, cfg.chunkSize);
  }

  // ----------------------------------------------------------------- stats

  datatype ChunkStats = ChunkStats(count: nat, totalTokens: nat, avgTokens: nat, minTokens: nat, maxTokens: nat)

  function TotalTokens(cs: seq<Chunk>): nat {
    if |cs| == 0 then 0 else TotalTokens(cs[..|cs| - 1]) + cs[|cs| - 1].tokenCount
  }

  function MinTokens(cs: seq<Chunk>): (r: nat)
    requires |cs| > 0
    ensures forall j :: 0 <= j < |cs| ==> r <= cs[j].tokenCount
    ensures exists j :: 0 <= j < |cs| && r == cs[j].tokenCount
  {
    if |cs| == 1 then cs[0].tokenCount
    else
      var m := MinTokens(cs[..|cs| - 1]);
      assert forall j :: 0 <= j < |cs| - 1 ==> cs[..|cs| - 1][j] == cs[j];
      Min(m, cs[|cs| - 1].tokenCount)
  }

  function MaxTokens(cs: seq<Chunk>): (r: nat)
    requires |cs| > 0
    ensures forall j :: 0 <= j < |cs| ==> cs[j].tokenCount <= r
    ensures exists j :: 0 <= j < |cs| && r == cs[j].tokenCount
  {
    if |cs| == 1 then cs[0].tokenCount
    else
      var m := MaxTokens(cs[..|cs| - 1]);
      assert forall j :: 0 <= j < |cs| - 1 ==> cs[..|cs| - 1][j] == cs[j];
      Max(m, cs[|cs| - 1].tokenCount)
  }

  /** `Math.round(total / count)` for naturals: the nearest whole number,
      halves rounding up */
  function RoundedMean(total: nat, count: nat): (r: nat)
    requires count > 0
    ensures 2 * r * count <= 2 * total + count < 2 * (r + 1) * count
  {
    (2 * total + count) / (2 * count)
  }

  /** `getChunkStats(chunks)` */
  function GetChunkStats(cs: seq<Chunk>): (r: ChunkStats)
    ensures |cs| == 0 ==> r == ChunkStats(0, 0, 0, 0, 0)
    ensures |cs| > 0 ==>
              && r.count == |cs| && r.totalTokens == TotalTokens(cs)
              && r.minTokens == MinTokens(cs) && r.maxTokens == MaxTokens(cs)
              && r.avgTokens == RoundedMean(TotalTokens(cs), |cs|)
  {
    if |cs| == 0 then ChunkStats(0, 0, 0, 0, 0)
    else ChunkStats(|cs|, TotalTokens(cs), RoundedMean(TotalTokens(cs), |cs|), MinTokens(cs), MaxTokens(cs))
  }

  /** The total lies between `count * min` and `count * max` */
  lemma {:induction false} TotalBetween(cs: seq<Chunk>, lo: nat, hi: nat)
    requires forall j :: 0 <= j < |cs| ==> lo <= cs[j].tokenCount <= hi
    ensures |cs| * lo <= TotalTokens(cs) <= |cs| * hi
    decreases |cs|
  {
    if |cs| > 0 {
      var init := cs[..|cs| - 1];
      assert forall j :: 0 <= j < |init| ==> init[j] == cs[j];
      TotalBetween(init, lo, hi);
      assert TotalTokens(cs) == TotalTokens(init) + cs[|init|].tokenCount;
      AddBounds(|init|, TotalTokens(init), cs[|init|].tokenCount, lo, hi);
    }
  }

  lemma AddBounds(k: nat, t: nat, x: nat, lo: nat, hi: nat)
    requires k * lo <= t <= k * hi && lo <= x <= hi
    ensures (k + 1) * lo <= t + x <= (k + 1) * hi
  {
    assert (k + 1) * lo == k * lo + lo;
    assert (k + 1) * hi == k * hi + hi;
  }

  /** A mean rounded to the nearest whole number stays within any bounds
      the averaged values keep */
  lemma RoundedMeanBetween(t: nat, c: nat, lo: nat, hi: nat)
    requires c > 0 && c * lo <= t <= c * hi
    ensures lo <= RoundedMean(t, c) <= hi
  {
    assert lo * (2 * c) == 2 * (c * lo);
    DivLower(lo, 2 * t + c, 2 * c);
    assert (hi + 1) * (2 * c) == 2 * (c * hi) + 2 * c;
    DivUpper(hi + 1, 2 * t + c, 2 * c);
  }

  /** The rounded average lies between the smallest and largest chunk */
  lemma AverageBetweenExtremes(cs: seq<Chunk>)
    requires |cs| > 0
    ensures GetChunkStats(cs).minTokens <= GetChunkStats(cs).avgTokens <= GetChunkStats(cs).maxTokens
  {
    TotalBetween(cs, MinTokens(cs), MaxTokens(cs));
    RoundedMeanBetween(TotalTokens(cs), |cs|, MinTokens(cs), MaxTokens(cs));
  }
}

=== FILE: csv.dfy ===
/** `analyze_csv`: the header line split on commas, each data line split by
    the quote-aware `_parseCSVLine`, and at most 100 rows turned into
    header-keyed records. */
module Csv {
  import opened Wrappers
  import opened Text
  import opened Json
  import opened Permissions
  import opened Handlers

  /** The scanner's state: the fields closed so far, the field being read,
      and whether a quote is open */
  datatype ScanState = ScanState(fields: seq<string>, current: string, inQuotes: bool)

  /** One character of `_parseCSVLine`: a quote toggles the quote state and
      is dropped, a comma outside quotes closes the field, anything else is kept */
  function ScanChar(st: ScanState, c: char): ScanState {
    if c == '"' then st.(inQuotes := !st.inQuotes)
    else if c == ',' && !st.inQuotes then ScanState(st.fields + [Trim(st.current)], "", st.inQuotes)
    else st.(current := st.current + [c])
  }

  function Scan(s: string): ScanState
    decreases |s|
  {
    if |s| == 0 then ScanState([], "", false) else ScanChar(Scan(s[..|s| - 1]), s[|s| - 1])
  }

  /** `_parseCSVLine(line)`: the trimmed fields */
  function ParseCsvLine(line: string): (r: seq<string>)
    ensures |r| >= 1
  {
    var st := Scan(line);
    st.fields + [Trim(st.current)]
  }

  /** Commas that are not inside a quoted stretch */
  function UnquotedCommas(s: string): nat
    decreases |s|
  {
    if |s| == 0 then 0
    else
      var init := s[..|s| - 1];
      UnquotedCommas(init) + (if s[|s| - 1] == ',' && Count(init, '"') % 2 == 0 then 1 else 0)
  }

  /** The quote is open exactly after an odd number of quotes */
  lemma {:induction false} ScanQuoteState(s: string)
    ensures Scan(s).inQuotes <==> Count(s, '"') % 2 == 1
    decreases |s|
  {
    if |s| > 0 {
      var init := s[..|s| - 1];
      ScanQuoteState(init);
      CountAppend(init, [s[|s| - 1]], '"');
      assert init + [s[|s| - 1]] == s;
    }
  }

  /** A field closes at each comma outside quotes */
  lemma {:induction false} ScanInvariant(s: string)
    ensures |Scan(s).fields| == UnquotedCommas(s)
    decreases |s|
  {
    if |s| > 0 {
      var init := s[..|s| - 1];
      ScanInvariant(init);
      ScanQuoteState(init);
    }
  }

  /** A line has one field more than it has commas outside quotes */
  lemma FieldCount(line: string)
    ensures |ParseCsvLine(line)| == UnquotedCommas(line) + 1
  {
    ScanInvariant(line);
  }

  function TrimAll(parts: seq<string>): (r: seq<string>)
    ensures |r| == |parts|
    ensures forall i :: 0 <= i < |parts| ==> r[i] == Trim(parts[i])
  {
    if |parts| == 0 then [] else [Trim(parts[0])] + TrimAll(parts[1..])
  }

  /** What `Scan` keeps about a quote-free prefix whose split is `p` */
  predicate ScanMatches(st: ScanState, p: seq<string>)
    requires |p| >= 1
  {
    !st.inQuotes && st.fields == TrimAll(p[..|p| - 1]) && st.current == p[|p| - 1]
  }

  lemma ScanCommaStep(st: ScanState, p: seq<string>)
    requires |p| >= 1 && ScanMatches(st, p)
    ensures ScanMatches(ScanChar(st, ','), p + [""])
  {
    var q := p + [""];
    assert q[..|q| - 1] == p;
    assert p == p[..|p| - 1] + [p[|p| - 1]];
    TrimAllSnoc(p[..|p| - 1], p[|p| - 1]);
  }

  lemma TrimAllSnoc(q: seq<string>, x: string)
    ensures TrimAll(q + [x]) == TrimAll(q) + [Trim(x)]
  {
    var a, b := TrimAll(q + [x]), TrimAll(q) + [Trim(x)];
    assert |a| == |b|;
    forall i | 0 <= i < |a|
      ensures a[i] == b[i]
    {
      if i < |q| {
        assert (q + [x])[i] == q[i];
      }
    }
  }

  lemma ScanOtherStep(st: ScanState, p: seq<string>, c: char)
    requires |p| >= 1 && ScanMatches(st, p)
    requires c != ',' && c != '"'
    ensures ScanMatches(ScanChar(st, c), ExtendLast(p, c))
  {
    var q := ExtendLast(p, c);
    assert q[..|q| - 1] == p[..|p| - 1];
  }

  lemma {:induction false} ScanWithoutQuotes(s: string)
    requires '"' !in s
    ensures ScanMatches(Scan(s), Split(s, ','))
    decreases |s|
  {
    if |s| > 0 {
      var init := s[..|s| - 1];
      var c := s[|s| - 1];
      assert forall i :: 0 <= i < |init| ==> init[i] == s[i];
      ScanWithoutQuotes(init);
      if c == ',' {
        ScanCommaStep(Scan(init), Split(init, ','));
      } else {
        ScanOtherStep(Scan(init), Split(init, ','), c);
      }
    }
  }

  /** Without quotes a line is its comma-separated pieces, trimmed */
  lemma ParseWithoutQuotes(line: string)
    requires '"' !in line
    ensures ParseCsvLine(line) == TrimAll(Split(line, ','))
  {
    ScanWithoutQuotes(line);
    var p := Split(line, ',');
    assert p == p[..|p| - 1] + [p[|p| - 1]];
    TrimAllSnoc(p[..|p| - 1], p[|p| - 1]);
  }

  /** `h.replace(/^"|"$/g, '')`: one leading and one trailing quote go; a
      lone quote is both and goes once */
  function StripQuotes(h: string): (r: string)
    ensures |r| <= |h|
    ensures |h| >= 2 && h[0] == '"' && h[|h| - 1] == '"' ==> r == h[1..|h| - 1]
    ensures (|h| == 0 || h[0] != '"') && (|h| == 0 || h[|h| - 1] != '"') ==> r == h
  {
    var rest := if |h| > 0 && h[0] == '"' then h[1..] else h;
    if |rest| > 0 && rest[|rest| - 1] == '"' then rest[..|rest| - 1] else rest
  }

  function Headers(first: string): (r: seq<string>)
    ensures |r| == |Split(first, ',')|
  {
    var parts := Split(first, ',');
    seq(|parts|, i requires 0 <= i < |parts| => StripQuotes(Trim(parts[i])))
  }

  /** A row as the object `row[header] = value` builds it. Assigning a
      string to `__proto__` changes nothing, so that header never appears. */
  function BuildRow(headers: seq<string>, values: seq<string>): (row: map<string, string>)
    decreases |headers|
  {
    if |headers| == 0 then map[]
    else
      var j := |headers| - 1;
      var row := BuildRow(headers[..j], values);
      if headers[j] == "__proto__" then row
      else row[headers[j] := if j < |values| then Trim(values[j]) else ""]
  }

  /** Every header but `__proto__` becomes a key, and nothing else does */
  lemma {:induction false} RowKeys(headers: seq<string>, values: seq<string>)
    ensures forall k :: k in BuildRow(headers, values) <==> k in headers && k != "__proto__"
    decreases |headers|
  {
    if |headers| > 0 {
      var j := |headers| - 1;
      RowKeys(headers[..j], values);
      assert headers == headers[..j] + [headers[j]];
    }
  }

  /** A header's value comes from the column of its last occurrence, or is
      empty when the line is short */
  lemma {:induction false} RowValue(headers: seq<string>, values: seq<string>, j: nat)
    requires j < |headers| && headers[j] != "__proto__"
    requires forall k :: j < k < |headers| ==> headers[k] != headers[j]
    ensures headers[j] in BuildRow(headers, values)
    ensures BuildRow(headers, values)[headers[j]] == if j < |values| then Trim(values[j]) else ""
    decreases |headers|
  {
    var last := |headers| - 1;
    if j < last {
      var init := headers[..last];
      assert init[j] == headers[j];
      assert forall k :: j < k < |init| ==> init[k] == headers[k];
      RowValue(init, values, j);
    }
  }

  /** The lines `content.split('\n').filter(l => l.trim())` keeps */
  function NonBlankLines(lines: seq<string>): (r: seq<string>)
    ensures |r| <= |lines|
    ensures forall i :: 0 <= i < |r| ==> Trim(r[i]) != ""
    decreases |lines|
  {
    if |lines| == 0 then []
    else if Trim(lines[0]) == "" then NonBlankLines(lines[1..])
    else [lines[0]] + NonBlankLines(lines[1..])
  }

  predicate Blank(s: string) {
    forall i :: 0 <= i < |s| ==> IsJsSpace(s[i])
  }

  predicate AllBlank(lines: seq<string>) {
    forall i :: 0 <= i < |lines| ==> Blank(lines[i])
  }

  lemma {:induction false} NonBlankLinesEmpty(lines: seq<string>)
    ensures NonBlankLines(lines) == [] <==> AllBlank(lines)
    decreases |lines|
  {
    if |lines| > 0 {
      NonBlankLinesEmpty(lines[1..]);
      TrimEmptyIffBlank(lines[0]);
      assert forall i :: 1 <= i < |lines| ==> lines[i] == lines[1..][i - 1];
    }
  }

  lemma BlankSnoc(s: string, c: char)
    ensures Blank(s + [c]) <==> Blank(s) && IsJsSpace(c)
  {
    assert forall i :: 0 <= i < |s| ==> (s + [c])[i] == s[i];
    assert (s + [c])[|s|] == c;
  }

  lemma AllBlankSnoc(p: seq<string>, x: string)
    ensures AllBlank(p + [x]) <==> AllBlank(p) && Blank(x)
  {
    assert forall i :: 0 <= i < |p| ==> (p + [x])[i] == p[i];
    assert (p + [x])[|p|] == x;
  }

  lemma AllBlankExtendLast(p: seq<string>, c: char)
    requires |p| >= 1
    ensures AllBlank(ExtendLast(p, c)) <==> AllBlank(p) && IsJsSpace(c)
  {
    var init, last := p[..|p| - 1], p[|p| - 1];
    assert p == init + [last];
    AllBlankSnoc(init, last);
    AllBlankSnoc(init, last + [c]);
    BlankSnoc(last, c);
  }

  lemma {:induction false} SplitBlank(s: string)
    ensures AllBlank(Split(s, '\n')) <==> Blank(s)
    decreases |s|
  {
    if |s| > 0 {
      var init, c := s[..|s| - 1], s[|s| - 1];
      SplitBlank(init);
      assert s == init + [c];
      BlankSnoc(init, c);
      var p := Split(init, '\n');
      if c == '\n' {
        AllBlankSnoc(p, "");
      } else {
        AllBlankExtendLast(p, c);
      }
    }
  }

  const RowLimit: nat := 100
  const SampleRows: nat := 5
  const CsvLimitMB: nat := 20

  datatype CsvReport = CsvReport(
    file: string, totalRows: nat, columns: seq<string>, columnCount: nat,
    sample: seq<map<string, string>>, preview: seq<map<string, string>>)

  function Rows(headers: seq<string>, lines: seq<string>, n: nat): (rows: seq<map<string, string>>)
    requires n <= |lines|
    ensures |rows| == n
    ensures forall i :: 0 <= i < n ==> rows[i] == BuildRow(headers, ParseCsvLine(lines[i]))
  {
    if n == 0 then [] else Rows(headers, lines, n - 1) + [BuildRow(headers, ParseCsvLine(lines[n - 1]))]
  }

  /** The report on the non-blank `lines` of a file: the first line names
      the columns and up to 100 further lines become rows, the first five of
      which are the sample */
  function CsvReportOf(path: string, lines: seq<string>): (r: CsvReport)
    requires |lines| > 0
    ensures r.file == path
    ensures r.columns == Headers(lines[0]) && r.columnCount == |r.columns|
    ensures r.totalRows == |lines| - 1
    ensures |r.preview| == Min(|lines| - 1, RowLimit)
    ensures forall i :: 0 <= i < |r.preview| ==> r.preview[i] == BuildRow(r.columns, ParseCsvLine(lines[i + 1]))
    ensures r.sample == r.preview[..Min(|r.preview|, SampleRows)]
  {
    var headers := Headers(lines[0]);
    var rows := Rows(headers, lines[1..], Min(|lines| - 1, RowLimit));
    CsvReport(path, |lines| - 1, headers, |headers|, rows[..Min(|rows|, SampleRows)], rows)
  }

  /** `_analyzeCsv`: a file with no non-blank line is "CSV file is empty";
      otherwise the report on its non-blank lines */
  function AnalyzeCsv(home: string, args: Json, fs: FileSystem): (r: Result<CsvReport>)
    ensures ResolveArg(home, args, "path").Err? ==> r == Err(ResolveArg(home, args, "path").message)
    ensures r.Ok? ==> ResolveArg(home, args, "path").Ok?
    ensures r.Ok? ==>
              var path := ResolveArg(home, args, "path").value;
              && CheckSize(fs, path, CsvLimitMB).Ok?
              && fs.readFile(path).Ok?
              && var lines := NonBlankLines(Split(fs.readFile(path).value, '\n'));
              && |lines| > 0
              && r.value == CsvReportOf(path, lines)
  {
    match ResolveArg(home, args, "path")
    case Err(m) => Err(m)
    case Ok(path) =>
      match CheckSize(fs, path, CsvLimitMB)
      case Err(m) => Err(m)
      case Ok(_) =>
        match fs.readFile(path)
        case Err(m) => Err(m)
        case Ok(content) =>
          var lines := NonBlankLines(Split(content, '\n'));
          if |lines| == 0 then Err("CSV file is empty") else Ok(CsvReportOf(path, lines))
  }

  /** A readable file is reported empty exactly when it holds nothing but whitespace */
  lemma EmptyIffBlank(home: string, args: Json, fs: FileSystem)
    requires ResolveArg(home, args, "path").Ok?
    requires CheckSize(fs, ResolveArg(home, args, "path").value, CsvLimitMB).Ok?
    requires fs.readFile(ResolveArg(home, args, "path").value).Ok?
    ensures AnalyzeCsv(home, args, fs) == Err("CSV file is empty") <==>
              Blank(fs.readFile(ResolveArg(home, args, "path").value).value)
  {
    var content := fs.readFile(ResolveArg(home, args, "path").value).value;
    var lines := NonBlankLines(Split(content, '\n'));
    NonBlankLinesEmpty(Split(content, '\n'));
    SplitBlank(content);
    if |lines| == 0 {
      assert AnalyzeCsv(home, args, fs) == Err("CSV file is empty");
    } else {
      assert AnalyzeCsv(home, args, fs).Ok?;
    }
  }
}

=== FILE: detector.dfy ===
/** `_detectToolCall`: finding a tool call in a model's reply. A fenced
    ```json block is tried first; if it yields no call, the reply's lines
    are scanned for a bare line that opens an object and names "tool".
    `JSON.parse` is the runtime's abstract `parse`. */
module Detector {
  import opened Wrappers
  import opened Text
  import opened Json
  import opened Executor

  const FenceOpen: string := "```json"
  const FenceClose: string := "```"

  // ------------------------------------------------------- the fenced block

  /** The first index at or after `i` that does not hold whitespace (`\s*`
      in a regular expression, which is greedy) */
  function SkipSpaces(s: string, i: nat): (r: nat)
    ensures i >= |s| ==> r == i
    ensures i <= |s| ==> i <= r <= |s|
    ensures forall k :: i <= k < r ==> IsJsSpace(s[k])
    ensures r < |s| ==> !IsJsSpace(s[r])
    decreases |s| - i
  {
    if i < |s| && IsJsSpace(s[i]) then SkipSpaces(s, i + 1) else i
  }

  /** Where the captured object starts for a fence opening at `p` */
  function BodyStart(s: string, p: nat): nat {
    SkipSpaces(s, p + |FenceOpen|)
  }

  /** "```json", optional whitespace and `{` start at `p` */
  predicate OpensAt(s: string, p: nat) {
    OccursAt(s, FenceOpen, p) && BodyStart(s, p) < |s| && s[BodyStart(s, p)] == '{'
  }

  /** A `}` at `e` followed by optional whitespace and "```" */
  predicate ClosesAt(s: string, e: nat) {
    e < |s| && s[e] == '}' && OccursAt(s, FenceClose, SkipSpaces(s, e + 1))
  }

  /** Reference definition: `/```json\s*(\{[\s\S]*?\})\s*```/` can match
      starting at `p` with its capture ending at `e`. Whitespace is never
      `{` or a backtick, so the greedy `\s*` gives up nothing. */
  predicate MatchesAt(s: string, p: nat, e: nat) {
    OpensAt(s, p) && BodyStart(s, p) < e && ClosesAt(s, e)
  }

  /** The match `String.prototype.match` reports: the leftmost start and,
      for it, the shortest (lazy) capture */
  ghost predicate Leftmost(s: string, p: nat, e: nat) {
    && MatchesAt(s, p, e)
    && (forall p', e' :: MatchesAt(s, p', e') ==> p < p' || (p == p' && e <= e'))
  }

  /** The lazy `[\s\S]*?\}`: the first closing position at or after `from` */
  function FindClose(s: string, from: nat): (r: Option<nat>)
    ensures r.Some? ==> from <= r.value && ClosesAt(s, r.value)
    ensures r.Some? ==> forall e :: from <= e < r.value ==> !ClosesAt(s, e)
    ensures r.None? ==> forall e :: from <= e ==> !ClosesAt(s, e)
    decreases |s| - from
  {
    if from >= |s| then None
    else if ClosesAt(s, from) then Some(from)
    else FindClose(s, from + 1)
  }

  /** The regular expression engine's search: try each start in turn */
  function FindFence(s: string, p: nat): (r: Option<(nat, nat)>)
    ensures r.Some? ==> p <= r.value.0 && MatchesAt(s, r.value.0, r.value.1)
    decreases |s| - p
  {
    if p >= |s| then None
    else if OpensAt(s, p) then
      match FindClose(s, BodyStart(s, p) + 1)
      case Some(e) => Some((p, e))
      case None => FindFence(s, p + 1)
    else FindFence(s, p + 1)
  }

  /** No start at or after `p` can match */
  ghost predicate NoMatchFrom(s: string, p: nat) {
    forall p', e' :: p <= p' ==> !MatchesAt(s, p', e')
  }

  /** The match (q, e) comes before every match starting at or after `p`:
      an earlier start, or the same start and a capture no longer */
  ghost predicate FirstFrom(s: string, p: nat, q: nat, e: nat) {
    forall p', e' :: p <= p' && MatchesAt(s, p', e') ==> q < p' || (q == p' && e <= e')
  }

  /** The search finds the leftmost start that can match and, for it, the
      shortest capture; it finds nothing only when no start at or after `p`
      can match */
  lemma {:induction false} FindFenceLeftmost(s: string, p: nat)
    ensures var r := FindFence(s, p);
            && (r.Some? ==> FirstFrom(s, p, r.value.0, r.value.1))
            && (r.None? ==> NoMatchFrom(s, p))
    decreases |s| - p
  {
    if p >= |s| {
      NoMatchPastEnd(s, p);
    } else if OpensAt(s, p) && FindClose(s, BodyStart(s, p) + 1).Some? {
      ShortestAt(s, p);
    } else {
      NoMatchAt(s, p);
      FindFenceLeftmost(s, p + 1);
      var r := FindFence(s, p + 1);
      assert FindFence(s, p) == r;
      if r.Some? {
        FirstFromStep(s, p, r.value.0, r.value.1);
      } else {
        NoMatchFromStep(s, p);
      }
    }
  }

  lemma NoMatchPastEnd(s: string, p: nat)
    requires p >= |s|
    ensures NoMatchFrom(s, p)
  {
  }

  /** Where a fence opens and a close follows, the first close gives the
      shortest capture */
  lemma ShortestAt(s: string, p: nat)
    requires OpensAt(s, p) && FindClose(s, BodyStart(s, p) + 1).Some?
    ensures FirstFrom(s, p, p, FindClose(s, BodyStart(s, p) + 1).value)
  {
  }

  /** Where no fence opens, or no close follows, nothing matches */
  lemma NoMatchAt(s: string, p: nat)
    requires !(OpensAt(s, p) && FindClose(s, BodyStart(s, p) + 1).Some?)
    ensures forall e' :: !MatchesAt(s, p, e')
  {
  }

  lemma FirstFromStep(s: string, p: nat, q: nat, e: nat)
    requires (forall e' :: !MatchesAt(s, p, e')) && FirstFrom(s, p + 1, q, e)
    ensures FirstFrom(s, p, q, e)
  {
  }

  lemma NoMatchFromStep(s: string, p: nat)
    requires (forall e' :: !MatchesAt(s, p, e')) && NoMatchFrom(s, p + 1)
    ensures NoMatchFrom(s, p)
  {
  }

  /** `text.match(...)[1]`: the captured object text, if the pattern matches */
  function FencedBlock(s: string): (r: Option<string>)
    ensures r.Some? ==> |r.value| >= 2 && r.value[0] == '{' && r.value[|r.value| - 1] == '}'
  {
    match FindFence(s, 0)
    case None => None
    case Some((p, e)) => Some(s[BodyStart(s, p)..e + 1])
  }

  /** The block reported is the capture of the leftmost, laziest match, and
      there is a block exactly when the pattern matches somewhere */
  lemma FencedBlockIsLeftmostMatch(s: string)
    ensures FencedBlock(s).Some? <==> exists p, e :: MatchesAt(s, p, e)
    ensures FencedBlock(s).Some? ==>
              exists p, e :: Leftmost(s, p, e) && FencedBlock(s).value == s[BodyStart(s, p)..e + 1]
  {
    var r := FindFence(s, 0);
    FindFenceLeftmost(s, 0);
    if r.Some? {
      var p, e := r.value.0, r.value.1;
      assert Leftmost(s, p, e);
    }
  }

  // --------------------------------------------------------- the tool call

  /** `json.tool && json.arguments` and the call built from them; a value
      without both truthy properties gives no call */
  function CallOf(v: Json): (r: Option<ToolCall>)
    ensures r.Some? <==> Defined(Member(v, "tool")) && Defined(Member(v, "arguments"))
    ensures r.Some? ==> r.value == ToolCall(Member(v, "tool").value, Member(v, "arguments").value)
  {
    var tool := Member(v, "tool");
    var args := Member(v, "arguments");
    if Defined(tool) && Defined(args) then Some(ToolCall(tool.value, args.value)) else None
  }

  /** The first stage: the fenced block, parsed. A parse failure (or reading
      a property of `null`) is caught and the second stage runs. */
  function FromFence(text: string, rt: JsRuntime): Option<ToolCall> {
    match FencedBlock(text)
    case None => None
    case Some(block) =>
      match rt.parse(block)
      case None => None
      case Some(v) => CallOf(v)
  }

  // ---------------------------------------------------------- the bare scan

  /** A trimmed line that opens an object and mentions "tool" in quotes */
  predicate IsCandidate(line: string) {
    StartsWith(line, "{") && Contains(line, "\"tool\"")
  }

  /** The lines `j` up to `m`, each preceded by a newline */
  function Appended(lines: seq<string>, j: nat, m: nat): string
    requires m <= |lines|
    decreases m - j
  {
    if j >= m then "" else "\n" + lines[j] + Appended(lines, j + 1, m)
  }

  /** The candidate text: following lines (untrimmed) are appended while the
      text has no `}` and lines remain */
  function Extend(lines: seq<string>, j: nat, acc: string): (r: string)
    requires j <= |lines|
    ensures StartsWith(r, acc)
    decreases |lines| - j
  {
    if j < |lines| && !Contains(acc, "}") then Extend(lines, j + 1, acc + "\n" + lines[j])
    else acc
  }

  /** Reference definition of where the extension stops: after line `m`,
      the first point at which the text holds a `}` or no lines remain */
  ghost predicate StopsAt(lines: seq<string>, j: nat, acc: string, m: nat) {
    && j <= m <= |lines|
    && (m == |lines| || Contains(acc + Appended(lines, j, m), "}"))
    && forall m' :: j <= m' < m ==> !Contains(acc + Appended(lines, j, m'), "}")
  }

  /** Appending line `j` first and the rest after is appending them all */
  lemma AppendedCons(lines: seq<string>, j: nat, acc: string, m: nat)
    requires j < m <= |lines|
    ensures acc + Appended(lines, j, m) == (acc + "\n" + lines[j]) + Appended(lines, j + 1, m)
  {
  }

  /** The candidate text is the line followed by exactly the lines up to the
      first that brings a `}` */
  lemma {:induction false} ExtendStops(lines: seq<string>, j: nat, acc: string)
    requires j <= |lines|
    ensures exists m :: StopsAt(lines, j, acc, m) && Extend(lines, j, acc) == acc + Appended(lines, j, m)
    decreases |lines| - j
  {
    if j < |lines| && !Contains(acc, "}") {
      var acc' := acc + "\n" + lines[j];
      ExtendStops(lines, j + 1, acc');
      var m: nat :| StopsAt(lines, j + 1, acc', m) && Extend(lines, j + 1, acc') == acc' + Appended(lines, j + 1, m);
      AppendedCons(lines, j, acc, m);
      forall m' | j <= m' < m
        ensures !Contains(acc + Appended(lines, j, m'), "}")
      {
        if m' > j {
          AppendedCons(lines, j, acc, m');
        } else {
          assert acc + Appended(lines, j, m') == acc;
        }
      }
      assert StopsAt(lines, j, acc, m);
    } else {
      assert acc + Appended(lines, j, j) == acc;
      assert StopsAt(lines, j, acc, j);
    }
  }

  /** What one line of the scan does: moves on, ends the scan, or finds a call */
  datatype Probe = Skip | Stop | Hit(call: ToolCall)

  /** One iteration of the second stage. A candidate whose text does not
      parse throws out of the loop and the catch gives no call; so does a
      parsed `null`, whose `tool` cannot be read. A parsed value without a
      call moves the scan on, as does a line that is no candidate. */
  function ProbeLine(lines: seq<string>, i: nat, rt: JsRuntime): (r: Probe)
    requires i < |lines|
    ensures !IsCandidate(Trim(lines[i])) ==> r == Skip
    ensures IsCandidate(Trim(lines[i])) && rt.parse(Extend(lines, i + 1, Trim(lines[i]))).None? ==> r == Stop
    ensures r.Hit? ==> IsCandidate(Trim(lines[i]))
                       && rt.parse(Extend(lines, i + 1, Trim(lines[i]))).Some?
                       && CallOf(rt.parse(Extend(lines, i + 1, Trim(lines[i]))).value) == Some(r.call)
  {
    var line := Trim(lines[i]);
    if !IsCandidate(line) then Skip
    else
      match rt.parse(Extend(lines, i + 1, line))
      case None => Stop
      case Some(v) =>
        if v.JNull? then Stop
        else
          match CallOf(v)
          case Some(c) => Hit(c)
          case None => Skip
  }

  /** What each line of the reply would do in the scan */
  function Probes(lines: seq<string>, rt: JsRuntime): (r: seq<Probe>)
    ensures |r| == |lines|
    ensures forall k :: 0 <= k < |lines| ==> r[k] == ProbeLine(lines, k, rt)
  {
    seq(|lines|, k requires 0 <= k < |lines| => ProbeLine(lines, k, rt))
  }

  /** The second-stage loop from line `i` on: the first line that does not
      move the scan on decides */
  function FirstDecision(ps: seq<Probe>, i: nat): (r: Option<ToolCall>)
    requires i <= |ps|
    ensures r.Some? ==> exists k :: i <= k < |ps| && ps[k] == Hit(r.value)
    decreases |ps| - i
  {
    if i == |ps| then None
    else
      match ps[i]
      case Skip => FirstDecision(ps, i + 1)
      case Stop => None
      case Hit(c) => Some(c)
  }

  /** The second stage over a reply's lines */
  function ScanLines(lines: seq<string>, rt: JsRuntime): (r: Option<ToolCall>)
    ensures r.Some? ==> exists k :: 0 <= k < |lines| && ProbeLine(lines, k, rt) == Hit(r.value)
  {
    FirstDecision(Probes(lines, rt), 0)
  }

  /** `_detectToolCall(text)`: a call is found only with truthy `tool` and
      `arguments`, and the fenced block's call wins over any bare line */
  function DetectToolCall(text: string, rt: JsRuntime): (r: Option<ToolCall>)
    ensures r.Some? ==> Truthy(r.value.tool) && Truthy(r.value.args)
    ensures FromFence(text, rt).Some? ==> r == FromFence(text, rt)
    ensures FromFence(text, rt).None? ==> r == ScanLines(Split(text, '\n'), rt)
  {
    match FromFence(text, rt)
    case Some(c) => Some(c)
    case None => ScanLines(Split(text, '\n'), rt)
  }

  /** The first candidate line decides: if its text does not parse, the scan
      ends with no call whatever the later lines hold */
  lemma ParseFailureEndsScan(lines: seq<string>, k: nat, rt: JsRuntime)
    requires k < |lines|
    requires forall n :: 0 <= n < k ==> !IsCandidate(Trim(lines[n]))
    requires IsCandidate(Trim(lines[k]))
    requires rt.parse(Extend(lines, k + 1, Trim(lines[k]))).None?
    ensures ScanLines(lines, rt) == None
  {
    DecidedAt(Probes(lines, rt), 0, k);
  }

  /** A call on a bare line is found when no candidate line precedes it and
      no fenced block yields a call */
  lemma FirstCandidateIsFound(text: string, k: nat, rt: JsRuntime)
    requires FromFence(text, rt).None?
    requires k < |Split(text, '\n')|
    requires forall n :: 0 <= n < k ==> !IsCandidate(Trim(Split(text, '\n')[n]))
    requires IsCandidate(Trim(Split(text, '\n')[k]))
    requires rt.parse(Extend(Split(text, '\n'), k + 1, Trim(Split(text, '\n')[k]))).Some?
    requires CallOf(rt.parse(Extend(Split(text, '\n'), k + 1, Trim(Split(text, '\n')[k]))).value).Some?
    ensures DetectToolCall(text, rt) ==
              CallOf(rt.parse(Extend(Split(text, '\n'), k + 1, Trim(Split(text, '\n')[k]))).value)
  {
    var lines := Split(text, '\n');
    DecidedAt(Probes(lines, rt), 0, k);
  }

  /** The loop runs past the lines that move it on: the first line that
      does not decides the outcome */
  lemma {:induction false} DecidedAt(ps: seq<Probe>, i: nat, k: nat)
    requires i <= k < |ps|
    requires forall n :: i <= n < k ==> ps[n] == Skip
    ensures FirstDecision(ps, i) == if ps[k].Hit? then Some(ps[k].call) else if ps[k] == Stop then None else FirstDecision(ps, k + 1)
    decreases k - i
  {
    if i < k {
      DecidedAt(ps, i + 1, k);
    }
  }
}

=== FILE: diskusage.dfy ===
/** `get_disk_usage`: the `du -sh` output is split into entries, each size
    token is read back into bytes, and the entries are ranked largest first.
    Running `du` is an oracle from the directory to its output. Sizes are
    exact reals; a size token whose number part has no digits reads as NaN. */
module DiskUsage {
  import opened Wrappers
  import opened Text
  import opened Json
  import opened Permissions
  import opened Handlers

  /** A JavaScript number as `_parseSizeToBytes` can produce it */
  datatype Bytes = Num(value: real) | NaN

  predicate IsNumberChar(c: char) { IsDigit(c) || c == '.' }

  /** Length of the longest prefix of `s` whose characters satisfy the class */
  function LeadingNumberChars(s: string): (n: nat)
    ensures n <= |s|
    ensures forall i :: 0 <= i < n ==> IsNumberChar(s[i])
    ensures n < |s| ==> !IsNumberChar(s[n])
  {
    if |s| == 0 || !IsNumberChar(s[0]) then 0 else 1 + LeadingNumberChars(s[1..])
  }

  function LeadingDigits(s: string): (n: nat)
    ensures n <= |s|
    ensures forall i :: 0 <= i < n ==> IsDigit(s[i])
    ensures n < |s| ==> !IsDigit(s[n])
  {
    if |s| == 0 || !IsDigit(s[0]) then 0 else 1 + LeadingDigits(s[1..])
  }

  function LeadingSpaces(s: string): (n: nat)
    ensures n <= |s|
    ensures forall i :: 0 <= i < n ==> IsJsSpace(s[i])
    ensures n < |s| ==> !IsJsSpace(s[n])
  {
    if |s| == 0 || !IsJsSpace(s[0]) then 0 else 1 + LeadingSpaces(s[1..])
  }

  function Pow10(k: nat): (p: nat)
    ensures p >= 1
  {
    if k == 0 then 1 else 10 * Pow10(k - 1)
  }

  /** `parseFloat` on a run of digits and dots: the integer digits, then at
      most one dot and its fraction digits; NaN when neither part has a digit */
  function ParseFloat(d: string): (r: Bytes)
    ensures r.Num? ==> r.value >= 0.0
  {
    var i := LeadingDigits(d);
    var whole := DigitsValue(d[..i]) as real;
    if i < |d| && d[i] == '.' then
      var rest := d[i + 1..];
      var f := LeadingDigits(rest);
      if i == 0 && f == 0 then NaN
      else Num(whole + (DigitsValue(rest[..f]) as real) / (Pow10(f) as real))
    else if i == 0 then NaN
    else Num(whole)
  }

  /** The unit tokens of `[BKMGT]B?` */
  const Units: seq<string> := ["B", "K", "M", "G", "T", "BB", "KB", "MB", "GB", "TB"]

  /** `units[unit] || 1`: "BB" is not in the table and counts as bytes */
  function UnitMultiplier(u: string): (m: nat)
    ensures m >= 1
  {
    if u == "K" || u == "KB" then 1024
    else if u == "M" || u == "MB" then 1024 * 1024
    else if u == "G" || u == "GB" then 1024 * 1024 * 1024
    else if u == "T" || u == "TB" then 1024 * 1024 * 1024 * 1024
    else 1
  }

  /** A match of `^([\d.]+)\s*([BKMGT]B?)$`: the number part and the unit */
  datatype SizeToken = SizeToken(number: string, unit: string)

  function MatchSizeToken(c: string): (r: Option<SizeToken>)
    ensures r.Some? ==> |r.value.number| > 0 && r.value.unit in Units
    ensures r.Some? ==> forall i :: 0 <= i < |r.value.number| ==> IsNumberChar(r.value.number[i])
  {
    var n := LeadingNumberChars(c);
    if n == 0 then None
    else
      var rest := c[n..];
      var u := rest[LeadingSpaces(rest)..];
      if u in Units then Some(SizeToken(c[..n], u)) else None
  }

  /** A number of units in bytes; NaN stays NaN */
  function Scale(b: Bytes, m: nat): (r: Bytes)
    requires b.Num? ==> b.value >= 0.0
    ensures r.Num? <==> b.Num?
    ensures r.Num? ==> r.value >= 0.0 && r.value == Times(b.value, m)
  {
    match b
    case NaN => NaN
    case Num(v) =>
      ScaledStaysNonNegative(v, m);
      Num(Times(v, m))
  }

  /** `value * multiplier` */
  function Times(v: real, m: nat): real {
    v * (m as real)
  }

  lemma ScaledStaysNonNegative(v: real, m: nat)
    requires v >= 0.0
    ensures Times(v, m) >= 0.0
  {
  }

  /** `_parseSizeToBytes(sizeStr)`: an empty or unmatched token gives 0 */
  function ParseSizeToBytes(s: string): (r: Bytes)
    ensures r.Num? ==> r.value >= 0.0
    ensures s == "" ==> r == Num(0.0)
  {
    if s == "" then Num(0.0)
    else
      var token := MatchSizeToken(ToUpperAscii(Trim(s)));
      if token.None? then Num(0.0)
      else Scale(ParseFloat(token.value.number), UnitMultiplier(token.value.unit))
  }

  predicate DigitString(s: string) {
    forall i :: 0 <= i < |s| ==> IsDigit(s[i])
  }

  lemma {:induction false} LeadingDigitsOfDigits(ip: string, rest: string)
    requires DigitString(ip)
    requires |rest| == 0 || !IsDigit(rest[0])
    ensures LeadingDigits(ip + rest) == |ip|
    decreases |ip|
  {
    if |ip| > 0 {
      assert (ip + rest)[1..] == ip[1..] + rest;
      LeadingDigitsOfDigits(ip[1..], rest);
    } else {
      assert ip + rest == rest;
    }
  }

  lemma {:induction false} LeadingNumberCharsOf(d: string, rest: string)
    requires forall i :: 0 <= i < |d| ==> IsNumberChar(d[i])
    requires |rest| == 0 || !IsNumberChar(rest[0])
    ensures LeadingNumberChars(d + rest) == |d|
    decreases |d|
  {
    if |d| > 0 {
      assert (d + rest)[1..] == d[1..] + rest;
      LeadingNumberCharsOf(d[1..], rest);
    } else {
      assert d + rest == rest;
    }
  }

  /** The value of the decimal numeral "ip.fp" */
  function DecimalValue(ip: string, fp: string): real
    requires DigitString(ip) && DigitString(fp)
  {
    DigitsValue(ip) as real + (DigitsValue(fp) as real) / (Pow10(|fp|) as real)
  }

  /** `parseFloat` reads "ip.fp" as the decimal number it spells */
  lemma ParseFloatDecimal(ip: string, fp: string)
    requires DigitString(ip) && DigitString(fp) && |ip| > 0
    ensures ParseFloat(ip + "." + fp) == Num(DecimalValue(ip, fp))
  {
    var d := ip + "." + fp;
    DecimalSlices(ip, fp);
    LeadingDigitsOfDigits(ip, "." + fp);
    LeadingDigitsOfDigits(fp, "");
    assert fp + "" == fp && fp[..|fp|] == fp;
    assert LeadingDigits(d) == |ip|;
  }

  lemma DecimalSlices(ip: string, fp: string)
    ensures var d := ip + "." + fp;
            && d == ip + ("." + fp)
            && d[..|ip|] == ip && d[|ip|] == '.' && d[|ip| + 1..] == fp
  {
  }

  /** `parseFloat` reads a run of digits as its value */
  lemma ParseFloatWhole(ip: string)
    requires DigitString(ip) && |ip| > 0
    ensures ParseFloat(ip) == Num(DigitsValue(ip) as real)
  {
    LeadingDigitsOfDigits(ip, "");
    assert ip + "" == ip;
    assert ip[..|ip|] == ip;
  }

  predicate NoSpaceEnds(s: string) {
    |s| > 0 && !IsJsSpace(s[0]) && !IsJsSpace(s[|s| - 1])
  }

  lemma TrimUntouched(s: string)
    requires NoSpaceEnds(s)
    ensures Trim(s) == s
  {
  }

  lemma UpperOfUpper(s: string)
    requires forall i :: 0 <= i < |s| ==> !('a' <= s[i] <= 'z')
    ensures ToUpperAscii(s) == s
  {
  }

  predicate NumberString(d: string) {
    |d| > 0 && forall i :: 0 <= i < |d| ==> IsNumberChar(d[i])
  }

  /** Every unit is one or two upper-case letters */
  lemma UnitLetters(u: string)
    requires u in Units
    ensures 0 < |u| <= 2 && forall i :: 0 <= i < |u| ==> 'A' <= u[i] <= 'Z'
  {
  }

  /** Trimming and upper-casing leave a number-and-unit token alone */
  lemma {:induction false} CleanedTokenUnchanged(d: string, u: string)
    requires NumberString(d) && u in Units
    ensures ToUpperAscii(Trim(d + u)) == d + u
  {
    var s := d + u;
    UnitLetters(u);
    forall i | 0 <= i < |s| ensures IsNumberChar(s[i]) || 'A' <= s[i] <= 'Z' {
      if i < |d| { assert s[i] == d[i]; } else { assert s[i] == u[i - |d|]; }
    }
    assert IsNumberChar(s[0]);
    assert 'A' <= s[|s| - 1] <= 'Z';
    TrimUntouched(s);
    UpperOfUpper(s);
  }

  lemma {:induction false} TokenMatches(d: string, u: string)
    requires NumberString(d) && u in Units
    ensures MatchSizeToken(d + u) == Some(SizeToken(d, u))
  {
    var s := d + u;
    assert |u| > 0 && !IsNumberChar(u[0]) && !IsJsSpace(u[0]);
    LeadingNumberCharsOf(d, u);
    assert s[..|d|] == d;
    assert s[|d|..] == u;
    assert LeadingSpaces(u) == 0;
    assert u[0..] == u;
  }

  /** A token `du` prints, a number followed by an upper-case unit, reads
      back as that number of units */
  lemma {:induction false} ParseSizeRoundTrip(d: string, u: string)
    requires NumberString(d) && u in Units
    ensures ParseSizeToBytes(d + u) == Scale(ParseFloat(d), UnitMultiplier(u))
  {
    var s := d + u;
    assert s != "" by { assert |s| > 0; }
    CleanedTokenUnchanged(d, u);
    TokenMatches(d, u);
  }

  /** A run of digits followed by a unit reads back as that many units */
  lemma DigitsSizeRoundTrip(d: string, u: string)
    requires DigitString(d) && |d| > 0
    requires u in Units
    ensures ParseSizeToBytes(d + u) == Num(Times(DigitsValue(d) as real, UnitMultiplier(u)))
  {
    ParseSizeRoundTrip(d, u);
    ParseFloatWhole(d);
    var v := DigitsValue(d) as real;
    assert ParseFloat(d) == Num(v);
    ScaleNum(v, UnitMultiplier(u));
  }

  lemma ScaleNum(v: real, m: nat)
    requires v >= 0.0
    ensures Scale(Num(v), m) == Num(Times(v, m))
  {
  }

  /** Whole numbers with a unit: "24K" is 24 * 1024 bytes */
  lemma WholeSizeRoundTrip(n: nat, u: string)
    requires u in Units
    ensures ParseSizeToBytes(NatToString(n) + u) == Num(Times(n as real, UnitMultiplier(u)))
  {
    NatToStringRoundTrip(n);
    DigitsSizeRoundTrip(NatToString(n), u);
  }

  lemma ExampleWholeTokens()
    ensures ParseSizeToBytes("24K") == Num(24576.0)
    ensures ParseSizeToBytes("0B") == Num(0.0)
  {
    assert NatToString(24) == "24";
    assert "24K" == NatToString(24) + "K";
    WholeSizeRoundTrip(24, "K");
    assert UnitMultiplier("K") == 1024;
    assert Times(24 as real, 1024) == 24576.0;
    assert "0B" == NatToString(0) + "B";
    WholeSizeRoundTrip(0, "B");
  }

  /** A number without a unit does not match and is worth nothing */
  lemma UnitlessNumberIsZero()
    ensures ParseSizeToBytes("12") == Num(0.0)
  {
    TrimUntouched("12");
    UpperOfUpper("12");
    assert LeadingNumberChars("12") == 2;
    assert "12"[2..] == "";
  }

  /** A bare dot before a unit matches and reads as NaN */
  lemma BareDotIsNaN()
    ensures ParseSizeToBytes(".K") == NaN
  {
    TrimUntouched(".K");
    UpperOfUpper(".K");
    assert LeadingNumberChars(".K") == 1;
    assert ".K"[1..] == "K";
    assert ".K"[..1] == ".";
    assert LeadingDigits(".") == 0;
    assert "."[1..] == "";
  }

  // ------------------------------------------------------------------ entries

  /** One ranked entry: the path relative to the directory, the path `du`
      printed, the size token and its byte count */
  datatype DuEntry = DuEntry(path: string, fullPath: string, size: string, sizeBytes: Bytes)

  /** The ranking key: the byte count, with NaN ranked as 0 */
  function Key(e: DuEntry): real {
    if e.sizeBytes.Num? then e.sizeBytes.value else 0.0
  }

  /** One output line `size<TAB>path`; None when the line has no tab */
  function ParseDuLine(line: string, dir: string): (r: Option<DuEntry>)
    ensures r.Some? <==> '\t' in line
  {
    var parts := Split(line, '\t');
    SplitCount(line, '\t');
    CountPositive(line, '\t');
    if |parts| < 2 then None
    else Some(DuEntry(ReplaceFirst(parts[1], dir + "/", ""), parts[1], parts[0], ParseSizeToBytes(parts[0])))
  }

  lemma {:induction false} CountPositive(s: string, c: char)
    ensures Count(s, c) > 0 <==> c in s
    decreases |s|
  {
    if |s| > 0 {
      CountPositive(s[1..], c);
      assert c in s <==> s[0] == c || c in s[1..];
    }
  }

  /** The path is reported relative to the directory it was listed under */
  lemma EntryPathIsRelative(line: string, dir: string)
    requires '\t' in line
    ensures var e := ParseDuLine(line, dir).value;
            StartsWith(e.fullPath, dir + "/") ==> e.fullPath == dir + "/" + e.path
  {
    var e := ParseDuLine(line, dir).value;
    assert e.path == ReplaceFirst(e.fullPath, dir + "/", "");
    if StartsWith(e.fullPath, dir + "/") {
      StripPrefix(e.fullPath, dir + "/");
    }
  }

  lemma StripPrefix(full: string, p: string)
    requires StartsWith(full, p)
    ensures full == p + ReplaceFirst(full, p, "")
  {
    ReplaceFirstAtStart(full, p, "");
    assert full == p + full[|p|..];
  }

  /** The non-empty lines of `stdout.trim().split('\n')` */
  function NonEmptyLines(lines: seq<string>): (r: seq<string>)
    ensures |r| <= |lines|
    ensures forall i :: 0 <= i < |r| ==> r[i] != "" && r[i] in lines
  {
    if |lines| == 0 then []
    else if lines[0] == "" then NonEmptyLines(lines[1..])
    else [lines[0]] + NonEmptyLines(lines[1..])
  }

  /** Every line becomes an entry; the first line without a tab throws */
  function ParseDuLines(lines: seq<string>, dir: string): (r: Result<seq<DuEntry>>)
    ensures r.Ok? ==> |r.value| == |lines|
    ensures r.Err? ==> r.message == NoPathError
  {
    if |lines| == 0 then Ok([])
    else
      match ParseDuLine(lines[0], dir)
      case None => Err(NoPathError)
      case Some(e) =>
        match ParseDuLines(lines[1..], dir)
        case Err(m) => Err(m)
        case Ok(rest) => Ok([e] + rest)
  }

  /** The lines parse exactly when every one holds a tab, and then entry `i`
      is what line `i` parses to */
  lemma ParseDuLinesSpec(lines: seq<string>, dir: string)
    ensures ParseDuLines(lines, dir).Ok? <==> forall i :: 0 <= i < |lines| ==> '\t' in lines[i]
    ensures ParseDuLines(lines, dir).Ok? ==>
              forall i :: 0 <= i < |lines| ==> Some(ParseDuLines(lines, dir).value[i]) == ParseDuLine(lines[i], dir)
  {
    ParseDuLinesOkIff(lines, dir);
    if ParseDuLines(lines, dir).Ok? {
      forall i | 0 <= i < |lines|
        ensures Some(ParseDuLines(lines, dir).value[i]) == ParseDuLine(lines[i], dir)
      {
        ParseDuLinesEntryAt(lines, dir, i);
      }
    }
  }

  predicate Tabbed(lines: seq<string>) {
    forall i :: 0 <= i < |lines| ==> '\t' in lines[i]
  }

  lemma TabbedCons(lines: seq<string>)
    requires |lines| > 0
    ensures Tabbed(lines) <==> '\t' in lines[0] && Tabbed(lines[1..])
  {
    if '\t' in lines[0] && Tabbed(lines[1..]) {
      forall i | 0 < i < |lines| ensures '\t' in lines[i] {
        assert lines[i] == lines[1..][i - 1];
      }
    }
  }

  lemma ParseDuLinesStep(lines: seq<string>, dir: string)
    requires |lines| > 0
    ensures ParseDuLines(lines, dir).Ok? <==> ParseDuLine(lines[0], dir).Some? && ParseDuLines(lines[1..], dir).Ok?
  {
  }

  lemma {:induction false} ParseDuLinesOkIff(lines: seq<string>, dir: string)
    ensures ParseDuLines(lines, dir).Ok? <==> Tabbed(lines)
    decreases |lines|
  {
    if |lines| > 0 {
      ParseDuLinesOkIff(lines[1..], dir);
      TabbedCons(lines);
      ParseDuLinesStep(lines, dir);
    }
  }

  /** A successful parse is the first line's entry followed by the rest's */
  lemma ParseDuLinesCons(lines: seq<string>, dir: string)
    requires |lines| > 0 && ParseDuLines(lines, dir).Ok?
    ensures ParseDuLine(lines[0], dir).Some? && ParseDuLines(lines[1..], dir).Ok?
    ensures ParseDuLines(lines, dir).value == [ParseDuLine(lines[0], dir).value] + ParseDuLines(lines[1..], dir).value
  {
  }

  lemma {:induction false} ParseDuLinesEntryAt(lines: seq<string>, dir: string, i: nat)
    requires ParseDuLines(lines, dir).Ok? && i < |lines|
    ensures Some(ParseDuLines(lines, dir).value[i]) == ParseDuLine(lines[i], dir)
    decreases i
  {
    ParseDuLinesCons(lines, dir);
    if i > 0 {
      ParseDuLinesEntryAt(lines[1..], dir, i - 1);
      assert lines[1..][i - 1] == lines[i];
    }
  }

  const NoPathError := "Cannot read properties of undefined (reading 'replace')"

  // ------------------------------------------------------------------ ranking

  predicate SortedDesc(s: seq<DuEntry>) {
    forall i, j :: 0 <= i < j < |s| ==> Key(s[i]) >= Key(s[j])
  }

  /** Place `x` after every entry at least as large: equal entries keep
      their order */
  function Insert(x: DuEntry, s: seq<DuEntry>): (r: seq<DuEntry>)
    ensures |r| == |s| + 1
    decreases |s|
  {
    if |s| == 0 then [x]
    else if Key(s[0]) >= Key(x) then [s[0]] + Insert(x, s[1..])
    else [x] + s
  }

  /** `results.sort((a, b) => b.sizeBytes - a.sizeBytes)`: a stable sort,
      largest first */
  function SortDesc(s: seq<DuEntry>): (r: seq<DuEntry>)
    ensures |r| == |s|
    decreases |s|
  {
    if |s| == 0 then [] else Insert(s[|s| - 1], SortDesc(s[..|s| - 1]))
  }

  lemma {:induction false} InsertMembers(x: DuEntry, s: seq<DuEntry>)
    ensures forall e :: e in Insert(x, s) ==> e == x || e in s
    decreases |s|
  {
    if |s| > 0 && Key(s[0]) >= Key(x) {
      InsertMembers(x, s[1..]);
    }
  }

  lemma {:induction false} InsertPermutes(x: DuEntry, s: seq<DuEntry>)
    ensures multiset(Insert(x, s)) == multiset(s) + multiset{x}
    decreases |s|
  {
    if |s| > 0 && Key(s[0]) >= Key(x) {
      InsertPermutes(x, s[1..]);
      assert s == [s[0]] + s[1..];
    }
  }

  lemma SortedTail(s: seq<DuEntry>)
    requires |s| > 0 && SortedDesc(s)
    ensures SortedDesc(s[1..])
  {
    forall i, j | 0 <= i < j < |s[1..]| ensures Key(s[1..][i]) >= Key(s[1..][j]) {
      assert s[1..][i] == s[i + 1] && s[1..][j] == s[j + 1];
    }
  }

  lemma {:induction false} InsertSorted(x: DuEntry, s: seq<DuEntry>)
    requires SortedDesc(s)
    ensures SortedDesc(Insert(x, s))
    decreases |s|
  {
    if |s| > 0 && Key(s[0]) >= Key(x) {
      var tail := s[1..];
      SortedTail(s);
      InsertSorted(x, tail);
      InsertMembers(x, tail);
      var t := Insert(x, tail);
      assert Insert(x, s) == [s[0]] + t;
      forall e | e in t ensures Key(s[0]) >= Key(e) {
        if e != x {
          var k :| 0 <= k < |tail| && tail[k] == e;
          assert s[k + 1] == e;
        }
      }
      SortedCons(s[0], t);
    } else if |s| > 0 {
      SortedCons(x, s);
    }
  }

  /** An entry at least as large as everything after it extends an ordered run */
  lemma SortedCons(x: DuEntry, t: seq<DuEntry>)
    requires SortedDesc(t) && forall e :: e in t ==> Key(x) >= Key(e)
    ensures SortedDesc([x] + t)
  {
    forall i, j | 0 <= i < j < |[x] + t| ensures Key(([x] + t)[i]) >= Key(([x] + t)[j]) {
      assert ([x] + t)[j] == t[j - 1];
      if i > 0 {
        assert ([x] + t)[i] == t[i - 1];
      } else {
        assert t[j - 1] in t;
      }
    }
  }

  lemma {:induction false} SortDescSorted(s: seq<DuEntry>)
    ensures SortedDesc(SortDesc(s))
    decreases |s|
  {
    if |s| > 0 {
      SortDescSorted(s[..|s| - 1]);
      InsertSorted(s[|s| - 1], SortDesc(s[..|s| - 1]));
    }
  }

  lemma {:induction false} SortDescPermutes(s: seq<DuEntry>)
    ensures multiset(SortDesc(s)) == multiset(s)
    decreases |s|
  {
    if |s| > 0 {
      var init, last := s[..|s| - 1], s[|s| - 1];
      SortDescPermutes(init);
      SortDescSnoc(s);
      InsertPermutes(last, SortDesc(init));
      MultisetSnoc(s);
    }
  }

  lemma SortDescSnoc(s: seq<DuEntry>)
    requires |s| > 0
    ensures SortDesc(s) == Insert(s[|s| - 1], SortDesc(s[..|s| - 1]))
  {
  }

  lemma MultisetSnoc(s: seq<DuEntry>)
    requires |s| > 0
    ensures multiset(s) == multiset(s[..|s| - 1]) + multiset{s[|s| - 1]}
  {
    assert s == s[..|s| - 1] + [s[|s| - 1]];
  }

  /** The ranking is ordered, and is a permutation of the entries */
  lemma SortDescCorrect(s: seq<DuEntry>)
    ensures SortedDesc(SortDesc(s))
    ensures multiset(SortDesc(s)) == multiset(s)
  {
    SortDescSorted(s);
    SortDescPermutes(s);
  }

  /** The entries of one size, in their order */
  function WithKey(s: seq<DuEntry>, k: real): seq<DuEntry> {
    if |s| == 0 then [] else (if Key(s[0]) == k then [s[0]] else []) + WithKey(s[1..], k)
  }

  lemma {:induction false} WithKeyAppend(a: seq<DuEntry>, b: seq<DuEntry>, k: real)
    ensures WithKey(a + b, k) == WithKey(a, k) + WithKey(b, k)
    decreases |a|
  {
    if |a| > 0 {
      assert (a + b)[1..] == a[1..] + b;
      WithKeyAppend(a[1..], b, k);
    } else {
      assert a + b == b;
    }
  }

  lemma {:induction false} WithKeyNone(s: seq<DuEntry>, k: real)
    requires forall i :: 0 <= i < |s| ==> Key(s[i]) < k
    ensures WithKey(s, k) == []
    decreases |s|
  {
    if |s| > 0 {
      WithKeyNone(s[1..], k);
    }
  }

  lemma {:induction false} InsertWithKey(x: DuEntry, s: seq<DuEntry>, k: real)
    requires SortedDesc(s)
    ensures WithKey(Insert(x, s), k) == WithKey(s, k) + (if Key(x) == k then [x] else [])
    decreases |s|
  {
    if |s| == 0 {
    } else if Key(s[0]) >= Key(x) {
      SortedTail(s);
      InsertWithKey(x, s[1..], k);
      InsertBehindHead(x, s, k);
    } else {
      InsertInFront(x, s, k);
    }
  }

  lemma InsertBehindHead(x: DuEntry, s: seq<DuEntry>, k: real)
    requires |s| > 0 && Key(s[0]) >= Key(x)
    requires WithKey(Insert(x, s[1..]), k) == WithKey(s[1..], k) + (if Key(x) == k then [x] else [])
    ensures WithKey(Insert(x, s), k) == WithKey(s, k) + (if Key(x) == k then [x] else [])
  {
    assert Insert(x, s) == [s[0]] + Insert(x, s[1..]);
    WithKeyCons(s[0], Insert(x, s[1..]), k);
    WithKeyCons(s[0], s[1..], k);
    assert [s[0]] + s[1..] == s;
  }

  lemma InsertInFront(x: DuEntry, s: seq<DuEntry>, k: real)
    requires SortedDesc(s) && |s| > 0 && Key(s[0]) < Key(x)
    ensures WithKey(Insert(x, s), k) == WithKey(s, k) + (if Key(x) == k then [x] else [])
  {
    assert Insert(x, s) == [x] + s;
    WithKeyCons(x, s, k);
    if Key(x) == k {
      SmallerAfter(s, k);
      WithKeyNone(s, k);
    }
  }

  lemma WithKeyCons(x: DuEntry, s: seq<DuEntry>, k: real)
    ensures WithKey([x] + s, k) == (if Key(x) == k then [x] else []) + WithKey(s, k)
  {
    assert ([x] + s)[1..] == s;
  }

  /** In an ordered run that starts below `k`, every entry is below `k` */
  lemma SmallerAfter(s: seq<DuEntry>, k: real)
    requires SortedDesc(s) && |s| > 0 && Key(s[0]) < k
    ensures forall i :: 0 <= i < |s| ==> Key(s[i]) < k
  {
    forall i | 0 <= i < |s| ensures Key(s[i]) < k {
      if i > 0 { assert Key(s[0]) >= Key(s[i]); }
    }
  }

  /** Stability: the entries of any one size come out in the order `du`
      printed them */
  lemma {:induction false} SortDescStable(s: seq<DuEntry>, k: real)
    ensures WithKey(SortDesc(s), k) == WithKey(s, k)
    decreases |s|
  {
    if |s| > 0 {
      var init := s[..|s| - 1];
      var last := s[|s| - 1];
      SortDescStable(init, k);
      SortDescSorted(init);
      InsertWithKey(last, SortDesc(init), k);
      assert s == init + [last];
      WithKeyAppend(init, [last], k);
      assert WithKey([last], k) == (if Key(last) == k then [last] else []) by {
        assert [last][1..] == [];
      }
    }
  }

  // ------------------------------------------------------------------- report

  const TopItems: nat := 20

  datatype DiskUsageReport = DiskUsageReport(directory: string, items: seq<DuEntry>, totalItems: nat)

  /** `_getDiskUsage`: rank what `du -sh` reports for each child of the directory, keep the 20
      largest. A failing `du` and a line without a tab both surface as
      "Disk usage analysis failed: ..." */
  function GetDiskUsage(home: string, args: Json, du: string -> Result<string>): (r: Result<DiskUsageReport>)
    ensures ResolveArg(home, args, "path").Err? ==> r == Err(ResolveArg(home, args, "path").message)
    ensures r.Err? && ResolveArg(home, args, "path").Ok? ==> StartsWith(r.message, "Disk usage analysis failed: ")
    ensures r.Ok? ==> ResolveArg(home, args, "path").Ok? && du(ResolveArg(home, args, "path").value).Ok?
    ensures r.Ok? ==>
              var dir := ResolveArg(home, args, "path").value;
              var lines := NonEmptyLines(Split(Trim(du(dir).value), '\n'));
              && r.value.directory == dir
              && r.value.totalItems == |lines|
              && |r.value.items| == Min(|lines|, TopItems)
              && SortedDesc(r.value.items)
              && ParseDuLines(lines, dir).Ok?
              && r.value.items == SortDesc(ParseDuLines(lines, dir).value)[..Min(|lines|, TopItems)]
  {
    match ResolveArg(home, args, "path")
    case Err(m) => Err(m)
    case Ok(dir) =>
      match du(dir)
      case Err(m) => Err("Disk usage analysis failed: " + m)
      case Ok(stdout) =>
        var lines := NonEmptyLines(Split(Trim(stdout), '\n'));
        match ParseDuLines(lines, dir)
        case Err(m) => Err("Disk usage analysis failed: " + m)
        case Ok(entries) =>
          var ranked := SortDesc(entries);
          SortDescCorrect(entries);
          assert |ranked| == |entries| by { assert |multiset(ranked)| == |multiset(entries)|; }
          Ok(DiskUsageReport(dir, ranked[..Min(|ranked|, TopItems)], |ranked|))
  }

  /** The kept entries are the largest: nothing left out is larger than
      anything kept */
  lemma TopItemsAreLargest(entries: seq<DuEntry>)
    ensures var ranked := SortDesc(entries);
            forall i, j :: 0 <= i < Min(|ranked|, TopItems) <= j < |ranked| ==> Key(ranked[i]) >= Key(ranked[j])
  {
    SortDescCorrect(entries);
  }

  /** What a successful report keeps are entries `du` printed, and no
      entry it leaves out is larger than one it keeps */
  lemma GetDiskUsageKeepsLargest(home: string, args: Json, du: string -> Result<string>)
    ensures var r := GetDiskUsage(home, args, du);
            r.Ok? ==>
              var lines := NonEmptyLines(Split(Trim(du(r.value.directory).value), '\n'));
              var entries := ParseDuLines(lines, r.value.directory).value;
              && multiset(r.value.items) <= multiset(entries)
              && forall i, e :: 0 <= i < |r.value.items| && e in multiset(entries) - multiset(r.value.items) ==>
                   Key(r.value.items[i]) >= Key(e)
  {
    var r := GetDiskUsage(home, args, du);
    if r.Ok? {
      var lines := NonEmptyLines(Split(Trim(du(r.value.directory).value), '\n'));
      var entries := ParseDuLines(lines, r.value.directory).value;
      TopOfRanking(entries, Min(|lines|, TopItems));
    }
  }

  /** A prefix of the ranking is part of the entries, and outranks the rest */
  lemma TopOfRanking(entries: seq<DuEntry>, k: nat)
    requires k <= |entries|
    ensures var kept := SortDesc(entries)[..k];
            && multiset(kept) <= multiset(entries)
            && forall i, e :: 0 <= i < |kept| && e in multiset(entries) - multiset(kept) ==> Key(kept[i]) >= Key(e)
  {
    SortDescCorrect(entries);
    TopOfSorted(SortDesc(entries), entries, k);
  }

  lemma TopOfSorted(ranked: seq<DuEntry>, entries: seq<DuEntry>, k: nat)
    requires SortedDesc(ranked) && multiset(ranked) == multiset(entries) && k <= |ranked|
    ensures var kept := ranked[..k];
            && multiset(kept) <= multiset(entries)
            && forall i, e :: 0 <= i < |kept| && e in multiset(entries) - multiset(kept) ==> Key(kept[i]) >= Key(e)
  {
    var kept := ranked[..k];
    var rest := ranked[k..];
    SplitMultiset(ranked, k);
    forall i, e | 0 <= i < |kept| && e in multiset(entries) - multiset(kept)
      ensures Key(kept[i]) >= Key(e)
    {
      assert e in multiset(rest);
      assert e in rest;
      OutranksRest(ranked, k, i, e);
    }
  }

  /** In a ranking, an entry before position `k` is at least as large as
      any entry from `k` on */
  lemma OutranksRest(ranked: seq<DuEntry>, k: nat, i: nat, e: DuEntry)
    requires SortedDesc(ranked) && i < k <= |ranked| && e in ranked[k..]
    ensures Key(ranked[i]) >= Key(e)
  {
    var j :| 0 <= j < |ranked[k..]| && ranked[k..][j] == e;
    SortedAt(ranked, i, k + j);
  }

  lemma SortedAt(s: seq<DuEntry>, i: nat, j: nat)
    requires SortedDesc(s) && i < j < |s|
    ensures Key(s[i]) >= Key(s[j])
  {
  }

  /** Cutting a sequence in two splits its multiset */
  lemma SplitMultiset(s: seq<DuEntry>, k: nat)
    requires k <= |s|
    ensures multiset(s[..k]) <= multiset(s)
    ensures multiset(s) - multiset(s[..k]) == multiset(s[k..])
  {
    assert s == s[..k] + s[k..];
  }
}

=== FILE: executor.dfy ===
/** The agent controller's dispatcher: the tool registry, the permission
    gate in front of every handler, and the bounded execution history.
    Handlers are an oracle here (their pure cores live in the handler
    modules); notifications to the window and timestamps are not modelled. */
module Executor {
  import opened Wrappers
  import opened Text
  import opened Json
  import opened Paths
  import opened Permissions

  /** The names the controller registers a handler under */
  const ToolNames: seq<string> := ["read_file", "list_directory", "search_files", "get_file_info",
                                   "get_disk_usage", "analyze_logs", "list_processes",
                                   "analyze_json", "analyze_csv"]

  /** The properties every plain object inherits from `Object.prototype`:
      looking one of these up in the registry also gives a truthy value */
  const ObjectPrototypeKeys: seq<string> := ["constructor", "__defineGetter__", "__defineSetter__",
                                             "hasOwnProperty", "__lookupGetter__", "__lookupSetter__",
                                             "isPrototypeOf", "propertyIsEnumerable", "toString",
                                             "valueOf", "__proto__", "toLocaleString"]

  /** `this.tools[tool]` is truthy: the property key is `String(tool)` */
  predicate Registered(tool: Json, rt: JsRuntime) {
    var key := ToJsString(tool, rt);
    key in ToolNames || key in ObjectPrototypeKeys
  }

  /** A detected call `{ tool, arguments }` */
  datatype ToolCall = ToolCall(tool: Json, args: Json)

  /** One history entry; the timestamp is not modelled */
  datatype ExecRecord = ExecRecord(tool: Json, args: Json, result: Option<Json>, error: Option<string>, success: bool)

  /** What a handler does with its arguments: resolve with a value, or throw */
  datatype HandlerOutcome = Returned(value: Json) | Threw(message: string)

  /** The object `executeToolCall` resolves with */
  datatype ExecOutcome = Succeeded(result: Json) | Failed(error: string)

  /** The controller's state: its permission configuration and its history,
      newest entry first */
  datatype Controller = Controller(config: Config, history: seq<ExecRecord>)

  const MaxHistory: nat := 100
  const DefaultHistoryLimit: int := 50

  /** `_logExecution`: the entry goes in front, and only the newest 100 are kept */
  function LogExecution(h: seq<ExecRecord>, e: ExecRecord): (r: seq<ExecRecord>)
    ensures |r| == Min(|h| + 1, MaxHistory)
    ensures r[0] == e
    ensures r[1..] == h[..|r| - 1]
  {
    var all := [e] + h;
    if |all| > MaxHistory then all[..MaxHistory] else all
  }

  /** The record `_logExecution(tool, args, value, success)` writes */
  function Failure(call: ToolCall, message: string): ExecRecord {
    ExecRecord(call.tool, call.args, None, Some(message), false)
  }

  function Success(call: ToolCall, value: Json): ExecRecord {
    ExecRecord(call.tool, call.args, Some(value), None, true)
  }

  /** Logging a run of entries one at a time, oldest first */
  function LogAll(h: seq<ExecRecord>, es: seq<ExecRecord>): seq<ExecRecord>
    decreases |es|
  {
    if |es| == 0 then h else LogAll(LogExecution(h, es[0]), es[1..])
  }

  function Reverse<T>(s: seq<T>): (r: seq<T>)
    ensures |r| == |s|
    ensures forall i :: 0 <= i < |s| ==> r[i] == s[|s| - 1 - i]
  {
    if |s| == 0 then [] else Reverse(s[1..]) + [s[0]]
  }

  /** After any run of executions the history holds the newest entries,
      newest first, up to 100 of them */
  lemma {:induction false} LogAllNewestFirst(h: seq<ExecRecord>, es: seq<ExecRecord>)
    requires |h| <= MaxHistory
    ensures LogAll(h, es) == (Reverse(es) + h)[..Min(|es| + |h|, MaxHistory)]
    decreases |es|
  {
    if |es| > 0 {
      var h1 := LogExecution(h, es[0]);
      LogAllNewestFirst(h1, es[1..]);
      var n := Min(|es| + |h|, MaxHistory);
      var lhs := (Reverse(es[1..]) + h1)[..Min(|es| - 1 + |h1|, MaxHistory)];
      var rhs := (Reverse(es) + h)[..n];
      assert Min(|es| - 1 + |h1|, MaxHistory) == n;
      assert Reverse(es) == Reverse(es[1..]) + [es[0]];
      forall i | 0 <= i < n ensures lhs[i] == rhs[i] {
        if i < |es| - 1 {
        } else if i == |es| - 1 {
        } else {
          assert h1[i - (|es| - 1)] == h[i - |es|];
        }
      }
      assert |lhs| == |rhs|;
      assert lhs == rhs;
    }
  }

  /** `getExecutionHistory(limit)`: `slice(0, limit)`, where a negative limit
      counts back from the end */
  function GetExecutionHistory(h: seq<ExecRecord>, limit: int): (r: seq<ExecRecord>)
    ensures 0 <= limit ==> |r| == Min(limit, |h|)
    ensures limit < 0 ==> |r| == Max(|h| + limit, 0)
    ensures forall i :: 0 <= i < |r| ==> r[i] == h[i]
  {
    if limit >= 0 then h[..Min(limit, |h|)] else h[..Max(|h| + limit, 0)]
  }

  /** The newest execution is the first one any positive limit returns */
  lemma NewestFirstInHistory(h: seq<ExecRecord>, e: ExecRecord, limit: int)
    requires limit >= 1
    ensures GetExecutionHistory(LogExecution(h, e), limit)[0] == e
  {
  }

  /** The controller after `executeToolCall(call)`, and what the call resolves with */
  datatype Step = Step(controller: Controller, outcome: ExecOutcome)

  /** The message a failed call logs: the bare reason of a denial (the
      reported error adds "Permission denied: "), otherwise the error itself */
  function Logged(decision: Decision, error: string): string {
    if decision.Deny? then decision.reason else error
  }

  /** What follows the permission check for a registered tool: a denial
      is logged and reported; otherwise the handler runs, and its throw,
      its `null` result or its value is logged and reported */
  function Proceed(c: Controller, call: ToolCall, decision: Decision,
                   run: (string, Json) -> HandlerOutcome, rt: JsRuntime): (r: Step)
    ensures r.controller.config == c.config
    ensures |r.controller.history| == Min(|c.history| + 1, MaxHistory)
    ensures r.outcome.Succeeded? ==> decision == Allow && r.controller.history[0] == Success(call, r.outcome.result)
    ensures r.outcome.Succeeded? ==> r.controller.history == LogExecution(c.history, Success(call, r.outcome.result))
    ensures r.outcome.Failed? ==>
              r.controller.history == LogExecution(c.history, Failure(call, Logged(decision, r.outcome.error)))
  {
    match decision
    case Deny(reason) =>
      Step(c.(history := LogExecution(c.history, Failure(call, reason))),
           Failed("Permission denied: " + reason))
    case Allow =>
      match run(ToJsString(call.tool, rt), call.args)
      case Threw(m) =>
        Step(c.(history := LogExecution(c.history, Failure(call, m))), Failed(m))
      case Returned(v) =>
        if v.JNull? then
          // reading `result.items` of a null result throws inside the try block
          var m := NullReadError("items");
          Step(c.(history := LogExecution(c.history, Failure(call, m))), Failed(m))
        else
          Step(c.(history := LogExecution(c.history, Success(call, v))), Succeeded(v))
  }

  /** `executeToolCall`: an unregistered name fails without a history entry;
      a denial by `validateOperation`, a throw and a success each add one entry */
  function ExecuteToolCall(c: Controller, home: string, call: ToolCall,
                           run: (string, Json) -> HandlerOutcome, rt: JsRuntime): (r: Step)
    ensures r.controller.config == c.config
    ensures !Registered(call.tool, rt) ==>
              r == Step(c, Failed("Unknown tool: " + ToJsString(call.tool, rt)))
    ensures Registered(call.tool, rt) ==> |r.controller.history| == Min(|c.history| + 1, MaxHistory)
    ensures r.outcome.Succeeded? ==>
              ValidateOperation(c.config, home, call.tool, call.args, rt) == Allow
              && r.controller.history[0] == Success(call, r.outcome.result)
    ensures Registered(call.tool, rt) && r.outcome.Succeeded? ==>
              r.controller.history == LogExecution(c.history, Success(call, r.outcome.result))
    ensures Registered(call.tool, rt) && r.outcome.Failed? ==>
              r.controller.history == LogExecution(c.history,
                Failure(call, Logged(ValidateOperation(c.config, home, call.tool, call.args, rt), r.outcome.error)))
  {
    if !Registered(call.tool, rt) then
      Step(c, Failed("Unknown tool: " + ToJsString(call.tool, rt)))
    else
      Proceed(c, call, ValidateOperation(c.config, home, call.tool, call.args, rt), run, rt)
  }

  /** The corrected dispatcher: the same steps, with the gate `ValidateCall`,
      which checks the argument each read handler resolves */
  function ExecuteToolCallCorrected(c: Controller, home: string, call: ToolCall,
                                    run: (string, Json) -> HandlerOutcome, rt: JsRuntime): (r: Step)
    ensures r.controller.config == c.config
    ensures !Registered(call.tool, rt) ==>
              r == Step(c, Failed("Unknown tool: " + ToJsString(call.tool, rt)))
    ensures Registered(call.tool, rt) ==> |r.controller.history| == Min(|c.history| + 1, MaxHistory)
    ensures r.outcome.Succeeded? ==>
              ValidateCall(c.config, home, call.tool, call.args, rt) == Allow
              && r.controller.history[0] == Success(call, r.outcome.result)
    ensures Registered(call.tool, rt) && r.outcome.Succeeded? ==>
              r.controller.history == LogExecution(c.history, Success(call, r.outcome.result))
    ensures Registered(call.tool, rt) && r.outcome.Failed? ==>
              r.controller.history == LogExecution(c.history,
                Failure(call, Logged(ValidateCall(c.config, home, call.tool, call.args, rt), r.outcome.error)))
  {
    if !Registered(call.tool, rt) then
      Step(c, Failed("Unknown tool: " + ToJsString(call.tool, rt)))
    else
      Proceed(c, call, ValidateCall(c.config, home, call.tool, call.args, rt), run, rt)
  }

  /** The history never grows past 100 entries */
  lemma HistoryStaysBounded(c: Controller, home: string, call: ToolCall,
                            run: (string, Json) -> HandlerOutcome, rt: JsRuntime)
    requires |c.history| <= MaxHistory
    ensures |ExecuteToolCall(c, home, call, run, rt).controller.history| <= MaxHistory
  {
  }

  /** No handler runs unless the permission check allows the call: when it
      does not, the outcome is the same whatever the handlers would do */
  lemma HandlerRunsOnlyWhenAllowed(c: Controller, home: string, call: ToolCall,
                                   run1: (string, Json) -> HandlerOutcome,
                                   run2: (string, Json) -> HandlerOutcome, rt: JsRuntime)
    requires ValidateOperation(c.config, home, call.tool, call.args, rt) != Allow
    ensures ExecuteToolCall(c, home, call, run1, rt) == ExecuteToolCall(c, home, call, run2, rt)
  {
  }

  /** A denial is reported with its reason and logged as a failed entry */
  lemma DenialIsLogged(c: Controller, home: string, call: ToolCall,
                       run: (string, Json) -> HandlerOutcome, rt: JsRuntime, reason: string)
    requires Registered(call.tool, rt)
    requires ValidateOperation(c.config, home, call.tool, call.args, rt) == Deny(reason)
    ensures var r := ExecuteToolCall(c, home, call, run, rt);
            && r.outcome == Failed("Permission denied: " + reason)
            && r.controller.history == LogExecution(c.history, Failure(call, reason))
  {
  }

  /** An allowed call reports exactly what its handler did */
  lemma AllowedCallReportsHandler(c: Controller, home: string, call: ToolCall,
                                  run: (string, Json) -> HandlerOutcome, rt: JsRuntime)
    requires Registered(call.tool, rt)
    ensures ValidateOperation(c.config, home, call.tool, call.args, rt) == Allow ==>
            var r := ExecuteToolCall(c, home, call, run, rt);
            var h := run(ToJsString(call.tool, rt), call.args);
            && (h.Threw? ==>
                  r.outcome == Failed(h.message)
                  && r.controller.history == LogExecution(c.history, Failure(call, h.message)))
            && (h.Returned? && h.value.JNull? ==>
                  r.outcome == Failed(NullReadError("items"))
                  && r.controller.history == LogExecution(c.history, Failure(call, NullReadError("items"))))
            && (h.Returned? && !h.value.JNull? ==>
                  r.outcome == Succeeded(h.value)
                  && r.controller.history == LogExecution(c.history, Success(call, h.value)))
            && (r.outcome.Succeeded? <==> h.Returned? && !h.value.JNull?)
  {
  }

  /** Only a string naming one of the nine registered tools can succeed */
  lemma OnlyRegisteredToolsSucceed(c: Controller, home: string, call: ToolCall,
                                   run: (string, Json) -> HandlerOutcome, rt: JsRuntime)
    ensures ExecuteToolCall(c, home, call, run, rt).outcome.Succeeded? ==>
              call.tool.JStr? && call.tool.s in ToolNames
  {
    var r := ExecuteToolCall(c, home, call, run, rt);
    if r.outcome.Succeeded? {
      var d := ValidateOperation(c.config, home, call.tool, call.args, rt);
      assert d == Allow;
      var k := Classify(call.tool);
      assert k != WriteOp && k != UnknownOp;
      assert call.tool.JStr?;
      var s := call.tool.s;
      assert s in ReadOps || s in SystemOps || s in ExecutionOps;
      assert ToJsString(call.tool, rt) == s;
      assert s in ToolNames || s in ObjectPrototypeKeys;
      if s !in ToolNames {
        assert s in ObjectPrototypeKeys;
        PrototypeKeysAreNoOperations(s);
        assert false;
      }
    }
  }

  lemma PrototypeKeysAreNoOperations(s: string)
    requires s in ObjectPrototypeKeys
    ensures s !in ReadOps && s !in WriteOps && s !in SystemOps && s !in ExecutionOps
  {
    PrototypeKeysAreNotRead(s);
    PrototypeKeysAreNotWrite(s);
  }

  lemma PrototypeKeysAreNotRead(s: string)
    requires s in ObjectPrototypeKeys
    ensures s !in ReadOps
  {
  }

  lemma PrototypeKeysAreNotWrite(s: string)
    requires s in ObjectPrototypeKeys
    ensures s !in WriteOps
  {
  }

  /** A name inherited from `Object.prototype` passes the registry lookup
      but is always refused as an unknown operation and never reaches a handler */
  lemma PrototypeNameIsRefused(c: Controller, home: string, key: string, args: Json,
                               run: (string, Json) -> HandlerOutcome, rt: JsRuntime)
    requires key in ObjectPrototypeKeys
    ensures var r := ExecuteToolCall(c, home, ToolCall(JStr(key), args), run, rt);
            && r.outcome == Failed("Permission denied: " + ("Unknown operation: " + key))
            && |r.controller.history| == Min(|c.history| + 1, MaxHistory)
  {
    var call := ToolCall(JStr(key), args);
    PrototypeKeysAreNoOperations(key);
    assert Registered(call.tool, rt);
    assert Classify(JStr(key)) == UnknownOp;
    assert ValidateOperation(c.config, home, call.tool, args, rt) == Deny("Unknown operation: " + key);
    DenialIsLogged(c, home, call, run, rt, "Unknown operation: " + key);
  }

  /** As written, a read tool runs only when the argument the check looked
      at, `args.path || args.directory`, is a string that clears the read
      policy */
  lemma CheckedArgumentIsReadable(c: Controller, home: string, call: ToolCall,
                                  run: (string, Json) -> HandlerOutcome, rt: JsRuntime)
    requires call.tool.JStr? && call.tool.s in ReadOps
    ensures ExecuteToolCall(c, home, call, run, rt).outcome.Succeeded? ==>
              var checked := Or(Member(call.args, "path"), Member(call.args, "directory"));
              checked.Some? && checked.value.JStr?
              && ReadablePath(c.config, ResolvePath(home, checked.value.s))
  {
    if ExecuteToolCall(c, home, call, run, rt).outcome.Succeeded? {
      var checked := Or(Member(call.args, "path"), Member(call.args, "directory"));
      assert ValidateOperation(c.config, home, call.tool, call.args, rt) == Allow;
      assert Classify(call.tool) == ReadOp;
      assert ValidateAccess(ReadAccess, c.config, home, checked) == Allow;
      ReadAllowedIff(c.config, home, ResolvePath(home, checked.value.s));
    }
  }

  /** As written, `search_files` runs on a blocked `directory` once its
      `path` is readable; the corrected dispatcher refuses the same call */
  lemma SearchRunsOnBlockedDirectoryAsWritten(c: Controller, home: string, root: string, blockedRoot: string,
                                              run: (string, Json) -> HandlerOutcome, rt: JsRuntime)
    requires IsAbsolute(root) && ReadablePath(c.config, root)
    requires IsAbsolute(blockedRoot) && blockedRoot in c.config.blocked
    requires run("search_files", JObj([Field("path", JStr(root)), Field("directory", JStr(blockedRoot))])).Returned?
    requires !run("search_files", JObj([Field("path", JStr(root)), Field("directory", JStr(blockedRoot))])).value.JNull?
    ensures var call := ToolCall(JStr("search_files"), JObj([Field("path", JStr(root)), Field("directory", JStr(blockedRoot))]));
            && ExecuteToolCall(c, home, call, run, rt).outcome.Succeeded?
            && !ReadablePath(c.config, ResolvePath(home, blockedRoot))
            && ExecuteToolCallCorrected(c, home, call, run, rt).outcome.Failed?
            && StartsWith(ExecuteToolCallCorrected(c, home, call, run, rt).outcome.error, "Permission denied: ")
  {
    var args := JObj([Field("path", JStr(root)), Field("directory", JStr(blockedRoot))]);
    var call := ToolCall(JStr("search_files"), args);
    SearchFilesRegistered(rt);
    SearchDirectoryEscapesAsWritten(c.config, home, root, blockedRoot, "search_files", rt);
    assert ExecuteToolCall(c, home, call, run, rt)
        == Proceed(c, call, ValidateOperation(c.config, home, call.tool, args, rt), run, rt);
    ProceedAllowed(c, call, run, rt);
    var d := ValidateCall(c.config, home, call.tool, args, rt);
    assert ExecuteToolCallCorrected(c, home, call, run, rt) == Proceed(c, call, d, run, rt);
    ProceedDenied(c, call, d.reason, run, rt);
  }

  lemma SearchFilesRegistered(rt: JsRuntime)
    ensures Registered(JStr("search_files"), rt)
  {
    assert ToolNames[2] == "search_files";
  }

  /** Past an allowed check, a handler's non-null value is a success */
  lemma ProceedAllowed(c: Controller, call: ToolCall, run: (string, Json) -> HandlerOutcome, rt: JsRuntime)
    requires run(ToJsString(call.tool, rt), call.args).Returned?
    requires !run(ToJsString(call.tool, rt), call.args).value.JNull?
    ensures Proceed(c, call, Allow, run, rt).outcome.Succeeded?
  {
  }

  /** A denial is reported behind the "Permission denied: " prefix */
  lemma ProceedDenied(c: Controller, call: ToolCall, reason: string,
                      run: (string, Json) -> HandlerOutcome, rt: JsRuntime)
    ensures Proceed(c, call, Deny(reason), run, rt).outcome.Failed?
    ensures StartsWith(Proceed(c, call, Deny(reason), run, rt).outcome.error, "Permission denied: ")
  {
    assert ("Permission denied: " + reason)[..|"Permission denied: "|] == "Permission denied: ";
  }

  /** With the corrected gate, a read tool only runs on a path that clears
      the read policy: after a success, the argument the handler resolves
      is readable */
  lemma ReadToolRunsOnReadablePath(c: Controller, home: string, call: ToolCall,
                                   run: (string, Json) -> HandlerOutcome, rt: JsRuntime)
    requires call.tool.JStr? && call.tool.s in ReadOps
    ensures ExecuteToolCallCorrected(c, home, call, run, rt).outcome.Succeeded? ==>
              var target := Member(call.args, HandlerPathKey(call.tool.s));
              target.Some? && target.value.JStr?
              && ReadablePath(c.config, ResolvePath(home, target.value.s))
  {
  }
}

=== FILE: handlers.dfy ===
/** The pure cores of the file tools: argument resolution, `read_file`,
    `list_directory`, and `analyze_json` with its structure summary. The file
    system is an oracle: `stat`, `readFile` and `readdir` become functions
    from a path to a result or the message of the error they throw. */
module Handlers {
  import opened Wrappers
  import opened Text
  import opened Json
  import opened Paths
  import opened Permissions

  /** What `fs.stat` reports */
  datatype Stat = Stat(size: nat, isDirectory: bool, mtime: string)

  /** A `readdir(..., { withFileTypes: true })` entry */
  datatype DirEntry = DirEntry(name: string, isDirectory: bool)

  datatype FileSystem = FileSystem(
    stat: string -> Result<Stat>,
    readFile: string -> Result<string>,
    readdir: string -> Result<seq<DirEntry>>)

  /** `this._resolvePath(args[key])`, with the TypeErrors a missing or
      non-string argument raises: reading `key` of a `null` argument
      object, calling `startsWith` on `undefined` or `null`, and calling
      `startsWith` where it is not a function */
  function ResolveArg(home: string, args: Json, key: string): (r: Result<string>)
    ensures r.Ok? <==> args.JObj? && Member(args, key).Some? && Member(args, key).value.JStr?
    ensures r.Ok? ==> r.value == ResolvePath(home, Member(args, key).value.s)
    ensures args.JNull? ==> r == Err(NullReadError(key))
    ensures !args.JNull? && Member(args, key).None? ==> r == Err(UndefinedReadError("startsWith"))
    ensures Member(args, key) == Some(JNull) ==> r == Err(NullReadError("startsWith"))
    ensures Member(args, key).Some? && !Member(args, key).value.JNull? && !Member(args, key).value.JStr? ==>
              r == Err(NotAStringError)
  {
    if args.JNull? then Err(NullReadError(key))
    else match Member(args, key)
      case None => Err(UndefinedReadError("startsWith"))
      case Some(v) =>
        if v.JStr? then Ok(ResolvePath(home, v.s))
        else if v.JNull? then Err(NullReadError("startsWith"))
        else Err(NotAStringError)
  }

  /** A `null` `path` property fails with the null-read TypeError, even when
      the permission check let the call through on `directory` */
  lemma NullPathArgument(home: string, directory: string)
    ensures ResolveArg(home, JObj([Field("path", JNull), Field("directory", JStr(directory))]), "path")
            == Err("Cannot read properties of null (reading 'startsWith')")
  {
    var args := JObj([Field("path", JNull), Field("directory", JStr(directory))]);
    assert Member(args, "path") == Some(JNull);
  }

  /** As written, the permission check reads `args.path || args.directory`:
      an allowed read call has that argument as a readable string, and a
      handler reading `path` resolves exactly that path whenever `path` is
      a non-empty string. When only `directory` is given, such a handler
      throws the TypeError of `ResolveArg` instead */
  lemma AllowedReadResolves(cfg: Config, home: string, tool: string, args: Json, rt: JsRuntime)
    requires tool in ReadOps
    ensures ValidateOperation(cfg, home, JStr(tool), args, rt) == Allow ==>
              var checked := Or(Member(args, "path"), Member(args, "directory"));
              && checked.Some? && checked.value.JStr?
              && ReadablePath(cfg, ResolvePath(home, checked.value.s))
              && (Defined(Member(args, "path")) && HandlerPathKey(tool) == "path" ==>
                    ResolveArg(home, args, "path") == Ok(ResolvePath(home, checked.value.s)))
              && (!Defined(Member(args, "path")) && HandlerPathKey(tool) == "path" ==>
                    ResolveArg(home, args, "path").Err? || ResolveArg(home, args, "path") == Ok(ResolvePath(home, "")))
  {
    if ValidateOperation(cfg, home, JStr(tool), args, rt) == Allow {
      CheckedReadArgument(cfg, home, tool, args, rt);
      if !Defined(Member(args, "path")) {
        FalsyPathArgument(home, args);
      }
    }
  }

  /** An allowed read call has `path || directory` as a readable string */
  lemma CheckedReadArgument(cfg: Config, home: string, tool: string, args: Json, rt: JsRuntime)
    requires tool in ReadOps && ValidateOperation(cfg, home, JStr(tool), args, rt) == Allow
    ensures !args.JNull?
    ensures var checked := Or(Member(args, "path"), Member(args, "directory"));
            && checked.Some? && checked.value.JStr?
            && ReadablePath(cfg, ResolvePath(home, checked.value.s))
  {
    var checked := Or(Member(args, "path"), Member(args, "directory"));
    assert Classify(JStr(tool)) == ReadOp;
    assert ValidateAccess(ReadAccess, cfg, home, checked) == Allow;
    ReadAllowedIff(cfg, home, ResolvePath(home, checked.value.s));
  }

  /** A falsy `path` either fails to resolve or is the empty string */
  lemma FalsyPathArgument(home: string, args: Json)
    requires !Defined(Member(args, "path"))
    ensures ResolveArg(home, args, "path").Err? || ResolveArg(home, args, "path") == Ok(ResolvePath(home, ""))
  {
    var m := Member(args, "path");
    if m.Some? && m.value.JStr? {
      assert m.value.s == "";
    }
  }

  /** With the corrected check, every allowed read tool resolves the
      argument its handler reads without a TypeError, to a readable path */
  lemma CorrectedReadResolves(cfg: Config, home: string, tool: string, args: Json, rt: JsRuntime)
    requires tool in ReadOps
    ensures ValidateCall(cfg, home, JStr(tool), args, rt) == Allow ==>
              ResolveArg(home, args, HandlerPathKey(tool)).Ok?
              && ReadablePath(cfg, ResolveArg(home, args, HandlerPathKey(tool)).value)
  {
    if ValidateCall(cfg, home, JStr(tool), args, rt) == Allow {
      assert Classify(JStr(tool)) == ReadOp;
      assert !args.JNull?;
    }
  }

  /** `validateFileSize(path, maxMB)` including the failure of its `stat` */
  function CheckSize(fs: FileSystem, path: string, maxSizeMB: nat): (r: Result<()>)
    ensures r.Ok? <==> fs.stat(path).Ok? && fs.stat(path).value.size <= maxSizeMB * 1024 * 1024
  {
    match fs.stat(path)
    case Err(m) => Err("Failed to get file size: " + m)
    case Ok(st) =>
      match ValidateFileSize(st.size, maxSizeMB)
      case Allow => Ok(())
      case Deny(reason) => Err(reason)
  }

  // ---------------------------------------------------------------- read_file

  const ReadLimitMB: nat := 10
  const ShownChars: nat := 50000
  const TruncationMarker: string := "\n... (truncated)"

  datatype FileRead = FileRead(path: string, content: string, size: nat, lines: nat, truncated: bool)

  /** `_readFile`: files over 10 MB are refused; the text shown is cut to
      50000 characters with a marker appended; `lines` counts the pieces of
      `split('\n')` */
  function ReadFile(home: string, args: Json, fs: FileSystem): (r: Result<FileRead>)
    ensures r.Ok? ==> ResolveArg(home, args, "path").Ok?
    ensures r.Ok? ==>
              var path := ResolveArg(home, args, "path").value;
              && r.value.path == path
              && CheckSize(fs, path, ReadLimitMB).Ok?
              && fs.readFile(path).Ok?
              && var text := fs.readFile(path).value;
              && r.value.size == |text|
              && r.value.lines == Count(text, '\n') + 1
              && (r.value.truncated <==> |text| > ShownChars)
              && (!r.value.truncated ==> r.value.content == text)
              && (r.value.truncated ==> r.value.content == text[..ShownChars] + TruncationMarker)
    ensures (ResolveArg(home, args, "path").Ok? && CheckSize(fs, ResolveArg(home, args, "path").value, ReadLimitMB).Err?) ==>
              r == Err(CheckSize(fs, ResolveArg(home, args, "path").value, ReadLimitMB).message)
  {
    match ResolveArg(home, args, "path")
    case Err(m) => Err(m)
    case Ok(path) =>
      match CheckSize(fs, path, ReadLimitMB)
      case Err(m) => Err(m)
      case Ok(_) =>
        match fs.readFile(path)
        case Err(m) => Err(m)
        case Ok(text) =>
          SplitCount(text, '\n');
          var truncated := |text| > ShownChars;
          Ok(FileRead(path, if truncated then text[..ShownChars] + TruncationMarker else text,
                      |text|, |Split(text, '\n')|, truncated))
  }

  /** The text shown is never longer than the limit plus the marker, and
      always begins with what fits of the file */
  lemma ReadFileShowsPrefix(home: string, args: Json, fs: FileSystem)
    requires ReadFile(home, args, fs).Ok?
    ensures var r := ReadFile(home, args, fs).value;
            var text := fs.readFile(r.path).value;
            && |r.content| <= ShownChars + |TruncationMarker|
            && StartsWith(r.content, text[..Min(|text|, ShownChars)])
  {
  }

  // ----------------------------------------------------------- list_directory

  const ListLimit: nat := 500

  /** One listed entry; the formatted size is left to the caller's formatter */
  datatype Item = Item(name: string, path: string, size: nat, sizeFormatted: string, modified: string)

  datatype Listing = Listing(path: string, files: seq<Item>, directories: seq<Item>, total: nat)

  /** The item for an entry of `dir`, or None when `stat` fails and the entry is skipped */
  function ItemFor(fs: FileSystem, dir: string, e: DirEntry, format: nat -> string): Option<Item> {
    var full := JoinPath(dir, e.name);
    match fs.stat(full)
    case Err(_) => None
    case Ok(st) => Some(Item(e.name, full, st.size, format(st.size), st.mtime))
  }

  /** Reference definition: the items of the listed entries whose kind
      (directory or not) is `dirs` */
  function ItemsOfKind(fs: FileSystem, dir: string, es: seq<DirEntry>, format: nat -> string, dirs: bool): seq<Item>
    decreases |es|
  {
    if |es| == 0 then []
    else
      var rest := ItemsOfKind(fs, dir, es[..|es| - 1], format, dirs);
      var e := es[|es| - 1];
      match ItemFor(fs, dir, e, format)
      case None => rest
      case Some(item) => if e.isDirectory == dirs then rest + [item] else rest
  }

  /** One more entry: it adds its item to the list of its kind when `stat`
      succeeds on it */
  lemma ItemsStep(fs: FileSystem, dir: string, es: seq<DirEntry>, i: nat, format: nat -> string, dirs: bool)
    requires i < |es|
    ensures ItemsOfKind(fs, dir, es[..i + 1], format, dirs)
            == ItemsOfKind(fs, dir, es[..i], format, dirs)
               + (match ItemFor(fs, dir, es[i], format)
                  case Some(item) => if es[i].isDirectory == dirs then [item] else []
                  case None => [])
  {
    assert es[..i + 1][..i] == es[..i];
  }

  /** Entries that `stat` succeeds on */
  function Statable(fs: FileSystem, dir: string, es: seq<DirEntry>, format: nat -> string): nat
    decreases |es|
  {
    if |es| == 0 then 0
    else Statable(fs, dir, es[..|es| - 1], format)
         + (if ItemFor(fs, dir, es[|es| - 1], format).Some? then 1 else 0)
  }

  /** `_listDirectory`: the first 500 entries are stat'ed in order; those
      whose `stat` fails are skipped, the rest go to `directories` or `files`
      by the entry's own type; `total` counts every entry */
  method ListDirectory(home: string, args: Json, fs: FileSystem, format: nat -> string) returns (r: Result<Listing>)
    ensures ResolveArg(home, args, "path").Err? ==> r == Err(ResolveArg(home, args, "path").message)
    ensures r.Ok? ==>
              var dir := ResolveArg(home, args, "path").value;
              && ResolveArg(home, args, "path").Ok?
              && fs.readdir(dir).Ok?
              && var es := fs.readdir(dir).value;
              var listed := es[..Min(|es|, ListLimit)];
              && r.value == Listing(dir, ItemsOfKind(fs, dir, listed, format, false),
                                    ItemsOfKind(fs, dir, listed, format, true), |es|)
  {
    var resolved := ResolveArg(home, args, "path");
    if resolved.Err? {
      return Err(resolved.message);
    }
    var dir := resolved.value;
    var entries := fs.readdir(dir);
    if entries.Err? {
      return Err(entries.message);
    }
    var es := entries.value;
    var n := Min(|es|, ListLimit);
    var files: seq<Item> := [];
    var directories: seq<Item> := [];
    var i := 0;
    while i < n
      invariant 0 <= i <= n
      invariant files == ItemsOfKind(fs, dir, es[..i], format, false)
      invariant directories == ItemsOfKind(fs, dir, es[..i], format, true)
    {
      ItemsStep(fs, dir, es, i, format, false);
      ItemsStep(fs, dir, es, i, format, true);
      var e := es[i];
      var full := JoinPath(dir, e.name);
      var st := fs.stat(full);
      if st.Ok? {
        var item := Item(e.name, full, st.value.size, format(st.value.size), st.value.mtime);
        if e.isDirectory {
          directories := directories + [item];
        } else {
          files := files + [item];
        }
      }
      i := i + 1;
    }
    assert es[..n] == es[..Min(|es|, ListLimit)];
    return Ok(Listing(dir, files, directories, |es|));
  }

  /** Files and directories split the stat-able entries between them: each
      such entry is listed exactly once */
  lemma {:induction false} ListingPartitions(fs: FileSystem, dir: string, es: seq<DirEntry>, format: nat -> string)
    ensures |ItemsOfKind(fs, dir, es, format, false)| + |ItemsOfKind(fs, dir, es, format, true)|
            == Statable(fs, dir, es, format)
    decreases |es|
  {
    if |es| > 0 {
      ListingPartitions(fs, dir, es[..|es| - 1], format);
    }
  }

  /** Every listed item sits directly inside the listed directory */
  lemma {:induction false} ItemsAreChildren(fs: FileSystem, dir: string, es: seq<DirEntry>, format: nat -> string, dirs: bool)
    ensures forall it :: it in ItemsOfKind(fs, dir, es, format, dirs) ==>
              it.path == JoinPath(dir, it.name)
              && exists j :: 0 <= j < |es| && es[j].name == it.name && es[j].isDirectory == dirs
    decreases |es|
  {
    if |es| > 0 {
      var init := es[..|es| - 1];
      ItemsAreChildren(fs, dir, init, format, dirs);
      forall it | it in ItemsOfKind(fs, dir, es, format, dirs)
        ensures it.path == JoinPath(dir, it.name)
        ensures exists j :: 0 <= j < |es| && es[j].name == it.name && es[j].isDirectory == dirs
      {
        if it in ItemsOfKind(fs, dir, init, format, dirs) {
          var j :| 0 <= j < |init| && init[j].name == it.name && init[j].isDirectory == dirs;
          assert es[j] == init[j];
        } else {
          assert es[|es| - 1].name == it.name;
        }
      }
    }
  }

  // ------------------------------------------------------------- analyze_json

  /** The summary `_analyzeStructure` builds: "..." past the depth limit,
      "Array[n]" for arrays, a key-to-summary object for objects, and the
      `typeof` name for everything else */
  datatype Shape =
    | Elided
    | ArrayOf(length: nat)
    | ObjectOf(entries: seq<ShapeEntry>)
    | TypeName(name: string)

  datatype ShapeEntry = ShapeEntry(key: string, shape: Shape)

  const StructureKeys: nat := 10

  function JsonSize(v: Json): nat {
    match v
    case JObj(fields) => 1 + FieldsSize(fields)
    case _ => 1
  }

  function FieldsSize(fields: seq<Field>): nat {
    if |fields| == 0 then 0 else 1 + JsonSize(fields[0].value) + FieldsSize(fields[1..])
  }

  /** `_analyzeStructure(v, depth, maxDepth)` */
  function AnalyzeStructure(v: Json, depth: int, maxDepth: int): Shape
    decreases JsonSize(v)
  {
    if depth > maxDepth then Elided
    else match v
      case JArr(items) => ArrayOf(|items|)
      case JObj(fields) => ObjectOf(FieldShapes(fields, StructureKeys, depth + 1, maxDepth))
      case _ => TypeName(TypeOf(v))
  }

  /** The entries for the first `budget` keys. Assigning to `__proto__` on a
      plain object sets its prototype instead of adding a key, so that key
      never shows in the summary. */
  function FieldShapes(fields: seq<Field>, budget: nat, depth: int, maxDepth: int): seq<ShapeEntry>
    decreases FieldsSize(fields)
  {
    if |fields| == 0 || budget == 0 then []
    else
      var rest := FieldShapes(fields[1..], budget - 1, depth, maxDepth);
      if fields[0].key == "__proto__" then rest
      else [ShapeEntry(fields[0].key, AnalyzeStructure(fields[0].value, depth, maxDepth))] + rest
  }

  function ShapeDepth(s: Shape): nat {
    match s
    case ObjectOf(entries) => 1 + EntriesDepth(entries)
    case _ => 0
  }

  function EntriesDepth(entries: seq<ShapeEntry>): nat {
    if |entries| == 0 then 0 else Max(ShapeDepth(entries[0].shape), EntriesDepth(entries[1..]))
  }

  /** Objects are summarised at most `maxDepth - depth + 1` levels deep */
  lemma {:induction false} StructureDepthBound(v: Json, depth: int, maxDepth: int)
    ensures ShapeDepth(AnalyzeStructure(v, depth, maxDepth)) <= Max(maxDepth - depth + 1, 0)
    decreases JsonSize(v), 1
  {
    if depth <= maxDepth && v.JObj? {
      FieldShapesDepthBound(v.fields, StructureKeys, depth + 1, maxDepth);
    }
  }

  lemma {:induction false} FieldShapesDepthBound(fields: seq<Field>, budget: nat, depth: int, maxDepth: int)
    ensures EntriesDepth(FieldShapes(fields, budget, depth, maxDepth)) <= Max(maxDepth - depth + 1, 0)
    decreases FieldsSize(fields), 0
  {
    if |fields| > 0 && budget > 0 {
      FieldShapesDepthBound(fields[1..], budget - 1, depth, maxDepth);
      StructureDepthBound(fields[0].value, depth, maxDepth);
      var rest := FieldShapes(fields[1..], budget - 1, depth, maxDepth);
      if fields[0].key != "__proto__" {
        var first := ShapeEntry(fields[0].key, AnalyzeStructure(fields[0].value, depth, maxDepth));
        assert ([first] + rest)[1..] == rest;
      }
    }
  }

  /** An object's summary lists its first ten keys at most, in their order */
  lemma {:induction false} FieldShapesKeys(fields: seq<Field>, budget: nat, depth: int, maxDepth: int)
    ensures var es := FieldShapes(fields, budget, depth, maxDepth);
            && |es| <= budget
            && forall i :: 0 <= i < |es| ==>
                 es[i].key != "__proto__"
                 && exists j :: 0 <= j < Min(budget, |fields|) && fields[j].key == es[i].key
    decreases |fields|
  {
    if |fields| > 0 && budget > 0 {
      FieldShapesKeys(fields[1..], budget - 1, depth, maxDepth);
      var rest := FieldShapes(fields[1..], budget - 1, depth, maxDepth);
      var es := FieldShapes(fields, budget, depth, maxDepth);
      forall i | 0 <= i < |es|
        ensures es[i].key != "__proto__"
        ensures exists j :: 0 <= j < Min(budget, |fields|) && fields[j].key == es[i].key
      {
        if fields[0].key == "__proto__" {
          var j :| 0 <= j < Min(budget - 1, |fields| - 1) && fields[1..][j].key == es[i].key;
          assert fields[j + 1].key == es[i].key;
        } else if i == 0 {
          assert fields[0].key == es[i].key;
        } else {
          assert es[i] == rest[i - 1];
          var j :| 0 <= j < Min(budget - 1, |fields| - 1) && fields[1..][j].key == rest[i - 1].key;
          assert fields[j + 1].key == es[i].key;
        }
      }
    }
  }

  /** Every one of the first `budget` keys other than `__proto__` is kept,
      summarised one level deeper */
  lemma {:induction false} FieldShapesKeepsFirstKeys(fields: seq<Field>, budget: nat, depth: int, maxDepth: int)
    ensures forall j :: 0 <= j < Min(budget, |fields|) && fields[j].key != "__proto__" ==>
              ShapeEntry(fields[j].key, AnalyzeStructure(fields[j].value, depth, maxDepth))
                in FieldShapes(fields, budget, depth, maxDepth)
    decreases |fields|
  {
    if |fields| > 0 && budget > 0 {
      FieldShapesKeepsFirstKeys(fields[1..], budget - 1, depth, maxDepth);
      forall j | 0 <= j < Min(budget, |fields|) && fields[j].key != "__proto__"
        ensures ShapeEntry(fields[j].key, AnalyzeStructure(fields[j].value, depth, maxDepth))
                  in FieldShapes(fields, budget, depth, maxDepth)
      {
        if j > 0 {
          assert fields[j] == fields[1..][j - 1];
        }
      }
    }
  }

  /** The summary of a concatenation is the summaries of its parts in order,
      the second part with what is left of the key budget; a single kept key
      gives exactly its entry */
  lemma {:induction false} FieldShapesAppend(a: seq<Field>, b: seq<Field>, budget: nat, depth: int, maxDepth: int)
    requires |a| <= budget
    ensures FieldShapes(a + b, budget, depth, maxDepth)
              == FieldShapes(a, budget, depth, maxDepth) + FieldShapes(b, budget - |a|, depth, maxDepth)
    ensures forall f :: budget > 0 ==>
              FieldShapes([f], budget, depth, maxDepth)
                == (if f.key == "__proto__" then [] else [ShapeEntry(f.key, AnalyzeStructure(f.value, depth, maxDepth))])
    decreases |a|
  {
    if |a| > 0 {
      assert (a + b)[0] == a[0];
      assert (a + b)[1..] == a[1..] + b;
      FieldShapesAppend(a[1..], b, budget - 1, depth, maxDepth);
    } else {
      assert a + b == b;
    }
    forall f | budget > 0
      ensures FieldShapes([f], budget, depth, maxDepth)
              == (if f.key == "__proto__" then [] else [ShapeEntry(f.key, AnalyzeStructure(f.value, depth, maxDepth))])
    {
      assert [f][1..] == [];
    }
  }

  const JsonLimitMB: nat := 20

  /** `_analyzeJson`'s report; `arrayLength`/`sampleItem` are set for arrays,
      `keys`/`keyCount` for everything else */
  datatype JsonReport = JsonReport(
    path: string, kind: string, size: nat, structure: Shape,
    arrayLength: Option<nat>, sampleItem: Option<Json>,
    keys: Option<seq<string>>, keyCount: Option<nat>)

  function IndexKeys(n: nat): (r: seq<string>)
    ensures |r| == n
  {
    if n == 0 then [] else IndexKeys(n - 1) + [NatToString(n - 1)]
  }

  function FieldKeys(fields: seq<Field>): (r: seq<string>)
    ensures |r| == |fields|
    ensures forall i :: 0 <= i < |fields| ==> r[i] == fields[i].key
  {
    if |fields| == 0 then [] else [fields[0].key] + FieldKeys(fields[1..])
  }

  /** `Object.keys(v)`: a string's indices, an object's keys, nothing for
      numbers and booleans; `null` throws */
  function ObjectKeys(v: Json): (r: Result<seq<string>>)
    ensures r.Err? <==> v.JNull?
    ensures v.JObj? ==> r == Ok(FieldKeys(v.fields))
  {
    match v
    case JNull => Err("Cannot convert undefined or null to object")
    case JStr(s) => Ok(IndexKeys(|s|))
    case JArr(items) => Ok(IndexKeys(|items|))
    case JObj(fields) => Ok(FieldKeys(fields))
    case _ => Ok([])
  }

  /** `_analyzeJson`: size check at 20 MB, parse, then summarise */
  function AnalyzeJson(home: string, args: Json, fs: FileSystem, rt: JsRuntime): (r: Result<JsonReport>)
    ensures r.Ok? ==> ResolveArg(home, args, "path").Ok?
    ensures r.Ok? ==>
              var path := ResolveArg(home, args, "path").value;
              && CheckSize(fs, path, JsonLimitMB).Ok?
              && fs.readFile(path).Ok?
              && var data := rt.parse(fs.readFile(path).value);
              && data.Some?
              && r.value.structure == AnalyzeStructure(data.value, 0, 3)
              && (r.value.kind == "array" <==> data.value.JArr?)
              && (data.value.JArr? ==> r.value.arrayLength == Some(|data.value.items|))
              && (data.value.JObj? ==> r.value.keys == Some(FieldKeys(data.value.fields)))
    ensures (ResolveArg(home, args, "path").Ok? && CheckSize(fs, ResolveArg(home, args, "path").value, JsonLimitMB).Ok?
             && fs.readFile(ResolveArg(home, args, "path").value).Ok?
             && rt.parse(fs.readFile(ResolveArg(home, args, "path").value).value) == Some(JNull)) ==>
              r == Err("Cannot convert undefined or null to object")
  {
    match ResolveArg(home, args, "path")
    case Err(m) => Err(m)
    case Ok(path) =>
      match CheckSize(fs, path, JsonLimitMB)
      case Err(m) => Err(m)
      case Ok(_) =>
        match fs.readFile(path)
        case Err(m) => Err(m)
        case Ok(text) =>
          match rt.parse(text)
          case None => Err(rt.parseError(text))
          case Some(data) =>
            var structure := AnalyzeStructure(data, 0, 3);
            if data.JArr? then
              Ok(JsonReport(path, "array", |text|, structure, Some(|data.items|),
                            if |data.items| > 0 then Some(data.items[0]) else None, None, None))
            else
              match ObjectKeys(data)
              case Err(m) => Err(m)
              case Ok(keys) => Ok(JsonReport(path, "object", |text|, structure, None, None, Some(keys), Some(|keys|)))
  }
}

=== FILE: json.dfy ===
/** JavaScript values as produced by `JSON.parse`, with the parts of
    JavaScript semantics the agent applies to them: truthiness, property
    access, `typeof`, `String(v)` and the abstract runtime primitives. */
module Json {
  import opened Wrappers
  import opened Text

  /** A parsed JSON value. An object's fields are listed in the order
      `Object.keys` enumerates them. */
  datatype Json =
    | JNull
    | JBool(b: bool)
    | JNum(n: real)
    | JStr(s: string)
    | JArr(items: seq<Json>)
    | JObj(fields: seq<Field>)

  datatype Field = Field(key: string, value: Json)

  /** The JavaScript runtime primitives the model leaves abstract:
      `JSON.parse` (None where it throws, with the thrown message),
      `JSON.stringify(v, null, 2)`, and `Number.prototype.toString`. */
  datatype JsRuntime = JsRuntime(
    parse: string -> Option<Json>,
    parseError: string -> string,
    stringify: Json -> string,
    numberToString: real -> string)

  /** JavaScript truthiness (`if (v)`, `v || w`, `v && w`) */
  predicate Truthy(v: Json) {
    match v
    case JNull => false
    case JBool(b) => b
    case JNum(n) => n != 0.0
    case JStr(s) => s != ""
    case JArr(_) => true
    case JObj(_) => true
  }

  /** Truthiness of a property read that may give `undefined` */
  predicate Defined(v: Option<Json>) {
    v.Some? && Truthy(v.value)
  }

  /** `v[key]` on a value that is not null: the first field with that key
      of an object; `undefined` on every other value (strings, numbers,
      booleans and arrays have no own or inherited `path`-like property) */
  function Member(v: Json, key: string): (r: Option<Json>)
    ensures r.Some? ==> v.JObj? && exists i :: 0 <= i < |v.fields| && v.fields[i] == Field(key, r.value)
    ensures !v.JObj? ==> r.None?
  {
    if v.JObj? then Lookup(v.fields, key) else None
  }

  /** The first field with the key. `JSON.parse` keeps the last of
      duplicate keys, so the parse oracle is taken to give objects without
      duplicate keys, where first and last agree */
  function Lookup(fields: seq<Field>, key: string): (r: Option<Json>)
    ensures r.Some? ==> exists i :: 0 <= i < |fields| && fields[i] == Field(key, r.value)
    ensures r.None? ==> forall i :: 0 <= i < |fields| ==> fields[i].key != key
  {
    if |fields| == 0 then None
    else if fields[0].key == key then Some(fields[0].value)
    else
      var r := Lookup(fields[1..], key);
      if r.Some? then assert fields[1..][0] == fields[1]; r else r
  }

  /** `a || b` over property reads */
  function Or(a: Option<Json>, b: Option<Json>): (r: Option<Json>)
    ensures Defined(a) ==> r == a
    ensures !Defined(a) ==> r == b
  {
    if Defined(a) then a else b
  }

  /** `typeof v` */
  function TypeOf(v: Json): string {
    match v
    case JNull => "object"
    case JBool(_) => "boolean"
    case JNum(_) => "number"
    case JStr(_) => "string"
    case JArr(_) => "object"
    case JObj(_) => "object"
  }

  /** `String(v)` and template-literal interpolation `${v}`: arrays join
      their elements with "," (null elements print as nothing), plain
      objects print as "[object Object]" */
  function ToJsString(v: Json, rt: JsRuntime): string {
    match v
    case JNull => "null"
    case JBool(b) => if b then "true" else "false"
    case JNum(n) => rt.numberToString(n)
    case JStr(s) => s
    case JArr(items) => Join(ElementStrings(items, rt), ",")
    case JObj(_) => "[object Object]"
  }

  function ElementStrings(items: seq<Json>, rt: JsRuntime): (r: seq<string>)
    ensures |r| == |items|
  {
    if |items| == 0 then []
    else [if items[0].JNull? then "" else ToJsString(items[0], rt)] + ElementStrings(items[1..], rt)
  }
}

=== FILE: logs.dfy ===
/** `analyze_logs`: every line is checked for error words, warning words
    and an optional caller pattern; each kind keeps its first 50 hits.
    A compiled pattern is an oracle: `search(line, from)` is the end index of
    the leftmost match that starts at or after `from`. */
module Logs {
  import opened Wrappers
  import opened Text
  import opened Json
  import opened Permissions
  import opened Handlers

  datatype Regex = Regex(search: (string, nat) -> Option<nat>)

  /** One reported line: its 1-based number and its first 200 characters */
  datatype LogHit = LogHit(line: nat, content: string)

  const MaxHits: nat := 50
  const ShownLineChars: nat := 200
  const LogLimitMB: nat := 50

  const ErrorWords: seq<string> := ["error", "fatal", "exception", "fail"]
  const WarningWords: seq<string> := ["warn", "warning", "caution"]

  /** `/error|fatal|exception|fail/i.test(line)` */
  predicate IsErrorLine(line: string) {
    exists w :: w in ErrorWords && ContainsIgnoringCase(line, w)
  }

  /** `/warn|warning|caution/i.test(line)` */
  predicate IsWarningLine(line: string) {
    exists w :: w in WarningWords && ContainsIgnoringCase(line, w)
  }

  /** `regex.test(line)` on a pattern without the global flag: a match
      anywhere in the line */
  predicate Tests(re: Regex, line: string) {
    re.search(line, 0).Some?
  }

  /** `line.substring(0, 200)`: the line's leading characters, all of them
      when the line is short */
  function Clip(line: string): (r: string)
    ensures StartsWith(line, r) && |r| == Min(|line|, ShownLineChars)
  {
    line[..Min(|line|, ShownLineChars)]
  }

  /** Reference definition: every line among the first `n` that `p` accepts */
  function Hits(lines: seq<string>, n: nat, p: string -> bool): (r: seq<LogHit>)
    requires n <= |lines|
    ensures |r| <= n
    decreases n
  {
    if n == 0 then []
    else Hits(lines, n - 1, p) + (if p(lines[n - 1]) then [LogHit(n, Clip(lines[n - 1]))] else [])
  }

  /** The first 50 of a list of hits */
  function Capped(h: seq<LogHit>): (r: seq<LogHit>)
    ensures |r| == Min(|h|, MaxHits)
    ensures forall i :: 0 <= i < |r| ==> r[i] == h[i]
  {
    h[..Min(|h|, MaxHits)]
  }

  /** Every hit names a line `p` accepts among the first `n`, by its
      1-based number, with that line's first 200 characters; hits come in
      line order */
  ghost predicate SoundHits(lines: seq<string>, n: nat, p: string -> bool, h: seq<LogHit>)
    requires n <= |lines|
  {
    && (forall i :: 0 <= i < |h| ==>
          1 <= h[i].line <= n && p(lines[h[i].line - 1]) && h[i].content == Clip(lines[h[i].line - 1]))
    && (forall i, j :: 0 <= i < j < |h| ==> h[i].line < h[j].line)
  }

  lemma {:induction false} HitsSound(lines: seq<string>, n: nat, p: string -> bool)
    requires n <= |lines|
    ensures SoundHits(lines, n, p, Hits(lines, n, p))
    decreases n
  {
    if n > 0 {
      HitsSound(lines, n - 1, p);
      var h0 := Hits(lines, n - 1, p);
      var h := Hits(lines, n, p);
      assert SoundHits(lines, n - 1, p, h0);
      assert h == h0 + (if p(lines[n - 1]) then [LogHit(n, Clip(lines[n - 1]))] else []);
      forall i | 0 <= i < |h|
        ensures 1 <= h[i].line <= n && p(lines[h[i].line - 1]) && h[i].content == Clip(lines[h[i].line - 1])
      {
        if i < |h0| {
          assert h[i] == h0[i];
        }
      }
      forall i, j | 0 <= i < j < |h|
        ensures h[i].line < h[j].line
      {
        assert h[i] == h0[i];
        if j < |h0| {
          assert h[j] == h0[j];
        }
      }
    }
  }

  /** A line `p` accepts is a hit */
  lemma {:induction false} HitsComplete(lines: seq<string>, n: nat, p: string -> bool, k: nat)
    requires n <= |lines| && 1 <= k <= n && p(lines[k - 1])
    ensures LogHit(k, Clip(lines[k - 1])) in Hits(lines, n, p)
    decreases n
  {
    if k < n {
      HitsComplete(lines, n - 1, p, k);
    }
  }

  /** One more hit is kept only while fewer than 50 are */
  lemma CappedSnoc(h: seq<LogHit>, x: LogHit)
    ensures Capped(h + [x]) == if |Capped(h)| < MaxHits then Capped(h) + [x] else Capped(h)
  {
    if |h| < MaxHits {
      assert Capped(h + [x]) == h + [x];
    } else {
      assert (h + [x])[..MaxHits] == h[..MaxHits];
    }
  }

  datatype LogReport = LogReport(
    file: string, totalLines: nat,
    errors: seq<LogHit>, warnings: seq<LogHit>, matches: seq<LogHit>,
    summary: string)

  /** The summary line; the pattern count appears only when a pattern was given */
  function Summary(errors: nat, warnings: nat, matches: Option<nat>): string {
    "Found " + NatToString(errors) + " errors, " + NatToString(warnings) + " warnings"
    + (if matches.Some? then ", " + NatToString(matches.value) + " pattern matches" else "")
  }

  /** `args.pattern ? new RegExp(args.pattern, ...) : null` */
  function CompilePattern(args: Json, compile: string -> Result<Regex>, rt: JsRuntime): Result<Option<Regex>> {
    var p := Member(args, "pattern");
    if !Defined(p) then Ok(None)
    else match compile(ToJsString(p.value, rt))
      case Err(m) => Err(m)
      case Ok(re) => Ok(Some(re))
  }

  /** Whether a line counts as a pattern match: never without a pattern */
  function MatchTest(pattern: Option<Regex>): string -> bool {
    line => pattern.Some? && Tests(pattern.value, line)
  }

  /** Reference definition of the report: the capped hits of each kind over
      all lines, and the summary of their counts */
  function ExpectedReport(path: string, lines: seq<string>, pattern: Option<Regex>): LogReport {
    var errors := Capped(Hits(lines, |lines|, IsErrorLine));
    var warnings := Capped(Hits(lines, |lines|, IsWarningLine));
    var matches := Capped(Hits(lines, |lines|, MatchTest(pattern)));
    LogReport(path, |lines|, errors, warnings, matches,
              Summary(|errors|, |warnings|, if pattern.Some? then Some(|matches|) else None))
  }

  /** `_analyzeLogs`, with each line matched against the pattern from its
      start: files over 50 MB are refused, then every line is classified */
  method AnalyzeLogs(home: string, args: Json, fs: FileSystem, compile: string -> Result<Regex>, rt: JsRuntime)
    returns (r: Result<LogReport>)
    ensures ResolveArg(home, args, "path").Err? ==> r == Err(ResolveArg(home, args, "path").message)
    ensures r.Ok? ==> ResolveArg(home, args, "path").Ok?
    ensures r.Ok? ==>
              var path := ResolveArg(home, args, "path").value;
              && CheckSize(fs, path, LogLimitMB).Ok?
              && fs.readFile(path).Ok?
              && CompilePattern(args, compile, rt).Ok?
              && r.value == ExpectedReport(path, Split(fs.readFile(path).value, '\n'),
                                           CompilePattern(args, compile, rt).value)
  {
    var resolved := ResolveArg(home, args, "path");
    if resolved.Err? {
      return Err(resolved.message);
    }
    var path := resolved.value;
    var size := CheckSize(fs, path, LogLimitMB);
    if size.Err? {
      return Err(size.message);
    }
    var read := fs.readFile(path);
    if read.Err? {
      return Err(read.message);
    }
    var lines := Split(read.value, '\n');
    var compiled := CompilePattern(args, compile, rt);
    if compiled.Err? {
      return Err(compiled.message);
    }
    var pattern := compiled.value;
    var errors, warnings, matches := ClassifyLines(lines, pattern);
    var summary := Summary(|errors|, |warnings|, if pattern.Some? then Some(|matches|) else None);
    return Ok(LogReport(path, |lines|, errors, warnings, matches, summary));
  }

  /** The loop of `_analyzeLogs`: one pass over the lines, keeping the
      first 50 hits of each kind */
  method ClassifyLines(lines: seq<string>, pattern: Option<Regex>)
    returns (errors: seq<LogHit>, warnings: seq<LogHit>, matches: seq<LogHit>)
    ensures errors == Capped(Hits(lines, |lines|, IsErrorLine))
    ensures warnings == Capped(Hits(lines, |lines|, IsWarningLine))
    ensures matches == Capped(Hits(lines, |lines|, MatchTest(pattern)))
  {
    var isMatch := MatchTest(pattern);
    errors, warnings, matches := [], [], [];
    var i := 0;
    while i < |lines|
      invariant 0 <= i <= |lines|
      invariant errors == Capped(Hits(lines, i, IsErrorLine))
      invariant warnings == Capped(Hits(lines, i, IsWarningLine))
      invariant matches == Capped(Hits(lines, i, isMatch))
    {
      errors := KeepHit(lines, i, IsErrorLine, errors);
      warnings := KeepHit(lines, i, IsWarningLine, warnings);
      matches := KeepHit(lines, i, isMatch, matches);
      i := i + 1;
    }
  }

  /** One step of the loop for one kind: line `i + 1` is kept when `p`
      accepts it and fewer than 50 hits are kept so far */
  method KeepHit(lines: seq<string>, i: nat, p: string -> bool, kept: seq<LogHit>) returns (r: seq<LogHit>)
    requires i < |lines| && kept == Capped(Hits(lines, i, p))
    ensures r == Capped(Hits(lines, i + 1, p))
  {
    var hit := LogHit(i + 1, Clip(lines[i]));
    CappedSnoc(Hits(lines, i, p), hit);
    if p(lines[i]) && |kept| < MaxHits {
      r := kept + [hit];
    } else {
      r := kept;
    }
  }

  /** Without a pattern nothing is reported as a match, and the summary
      leaves the pattern count out */
  lemma NoPatternNoMatches(path: string, lines: seq<string>)
    ensures ExpectedReport(path, lines, None).matches == []
    ensures ExpectedReport(path, lines, None).summary ==
              Summary(|ExpectedReport(path, lines, None).errors|, |ExpectedReport(path, lines, None).warnings|, None)
  {
    NoPatternNoHits(lines, |lines|, MatchTest(None));
  }

  lemma {:induction false} NoPatternNoHits(lines: seq<string>, n: nat, p: string -> bool)
    requires n <= |lines|
    requires forall line :: !p(line)
    ensures Hits(lines, n, p) == []
    decreases n
  {
    if n > 0 {
      NoPatternNoHits(lines, n - 1, p);
    }
  }

  // ------------------------------------------- the global flag, as written

  /** `re.test(line)` on a pattern with the global flag: the search starts
      at `lastIndex`, a hit moves `lastIndex` to the match's end, a miss
      (or a start past the end) resets it to 0 */
  function GlobalTest(re: Regex, line: string, lastIndex: nat): (bool, nat) {
    if lastIndex > |line| then (false, 0)
    else match re.search(line, lastIndex)
      case None => (false, 0)
      case Some(e) => (true, e)
  }

  /** The pattern hits as written: one `gi` regular expression object is
      applied to every line in turn, carrying `lastIndex` from line to line */
  function GlobalHits(lines: seq<string>, n: nat, re: Regex): (seq<LogHit>, nat)
    requires n <= |lines|
    decreases n
  {
    if n == 0 then ([], 0)
    else
      var prev := GlobalHits(lines, n - 1, re);
      var test := GlobalTest(re, lines[n - 1], prev.1);
      (prev.0 + (if test.0 then [LogHit(n, Clip(lines[n - 1]))] else []), test.1)
  }

  /** A case-insensitive literal pattern: the end of the first occurrence
      of `pat` at or after `from` */
  function Literal(pat: string): Regex {
    Regex((line: string, from: nat) =>
      match IndexOf(ToLowerAscii(line), ToLowerAscii(pat), from)
      case None => None
      case Some(i) => Some(i + |pat|))
  }

  /** With the pattern "a" and the lines "xa" then "a", the shared
      `lastIndex` (2 after the first line) makes the second line miss, while
      testing each line from its start reports both */
  lemma GlobalFlagMissesLines()
    ensures var lines := ["xa", "a"];
            && GlobalHits(lines, 2, Literal("a")).0 == [LogHit(1, "xa")]
            && Hits(lines, 2, line => Tests(Literal("a"), line)) == [LogHit(1, "xa"), LogHit(2, "a")]
  {
    var lines := ["xa", "a"];
    var re := Literal("a");
    assert ToLowerAscii("a") == "a";
    assert ToLowerAscii("xa") == "xa";
    assert IndexOf("xa", "a", 0) == Some(1) by {
      assert "xa"[0..1][0] == 'x';
      assert "xa"[1..2] == "a";
    }
    assert IndexOf("a", "a", 0) == Some(0) by {
      assert "a"[0..1] == "a";
    }
    assert re.search("xa", 0) == Some(2);
    assert re.search("a", 0) == Some(1);
    assert lines[0] == "xa" && lines[1] == "a";
    assert GlobalHits(lines, 0, re) == ([], 0);
    assert GlobalTest(re, "xa", 0) == (true, 2);
    var first := GlobalHits(lines, 1, re);
    assert first.1 == 2;
    assert first.0 == [LogHit(1, Clip("xa"))];
    assert GlobalTest(re, "a", 2) == (false, 0);
    assert Clip("xa") == "xa";
    assert Clip("a") == "a";
  }
}

=== FILE: markdown.dfy ===
/** The renderer's text safety helpers: `escapeHtml`, the `javascript:`
    stripping step of `sanitizeHtml`, and the cases of `markdownToHtml`.
    The Markdown renderer itself and the two tag-stripping regular
    expressions of `sanitizeHtml` are parameters. */
module Markdown {
  import opened Wrappers
  import opened Text

  // ---------------------------------------------------------------- escape

  /** The five characters `escapeHtml` replaces */
  predicate IsSpecial(c: char) {
    c == '&' || c == '<' || c == '>' || c == '"' || c == '\''
  }

  /** The characters that never survive escaping: every special one but `&`,
      which starts each entity */
  predicate IsMarkup(c: char) {
    c == '<' || c == '>' || c == '"' || c == '\''
  }

  function Entity(c: char): string {
    match c
    case '&' => "&amp;"
    case '<' => "&lt;"
    case '>' => "&gt;"
    case '"' => "&quot;"
    case '\'' => "&#039;"
    case _ => [c]
  }

  /** `escapeHtml(text)`: each special character becomes its entity, every
      other character is kept */
  function EscapeHtml(s: string): (r: string)
    ensures forall i :: 0 <= i < |r| ==> !IsMarkup(r[i])
    ensures (forall i :: 0 <= i < |s| ==> !IsSpecial(s[i])) ==> r == s
    ensures |s| <= |r|
    decreases |s|
  {
    if |s| == 0 then "" else Entity(s[0]) + EscapeHtml(s[1..])
  }

  /** Escaping works character by character */
  lemma {:induction false} EscapeAppend(a: string, b: string)
    ensures EscapeHtml(a + b) == EscapeHtml(a) + EscapeHtml(b)
    decreases |a|
  {
    if |a| > 0 {
      assert (a + b)[1..] == a[1..] + b;
      EscapeAppend(a[1..], b);
    } else {
      assert a + b == b;
    }
  }

  /** The inverse of escaping: each of the five entities becomes its character */
  function UnescapeHtml(s: string): string
    decreases |s|
  {
    if |s| == 0 then ""
    else if StartsWith(s, "&amp;") then "&" + UnescapeHtml(s[5..])
    else if StartsWith(s, "&lt;") then "<" + UnescapeHtml(s[4..])
    else if StartsWith(s, "&gt;") then ">" + UnescapeHtml(s[4..])
    else if StartsWith(s, "&quot;") then "\"" + UnescapeHtml(s[6..])
    else if StartsWith(s, "&#039;") then "'" + UnescapeHtml(s[6..])
    else [s[0]] + UnescapeHtml(s[1..])
  }

  /** Unescaping a text that starts with `entity` consumes the entity whole */
  lemma UnescapeStep(entity: string, c: char, rest: string)
    requires entity in ["&amp;", "&lt;", "&gt;", "&quot;", "&#039;"]
    requires c == match entity
                  case "&amp;" => '&' case "&lt;" => '<' case "&gt;" => '>'
                  case "&quot;" => '"' case _ => '\''
    ensures UnescapeHtml(entity + rest) == [c] + UnescapeHtml(rest)
  {
    var e := entity + rest;
    assert e[..|entity|] == entity && e[|entity|..] == rest;
    assert e[0] == '&' && e[1] == entity[1];
  }

  lemma UnescapeEntity(c: char, rest: string)
    ensures UnescapeHtml(Entity(c) + rest) == [c] + UnescapeHtml(rest)
  {
    if IsSpecial(c) {
      UnescapeStep(Entity(c), c, rest);
    } else {
      PlainStep(c, rest);
    }
  }

  /** A character other than `&` starts no entity and is kept */
  lemma PlainStep(c: char, rest: string)
    requires c != '&'
    ensures UnescapeHtml([c] + rest) == [c] + UnescapeHtml(rest)
  {
    var e := [c] + rest;
    FirstDiffers(e, "&amp;");
    FirstDiffers(e, "&lt;");
    FirstDiffers(e, "&gt;");
    FirstDiffers(e, "&quot;");
    FirstDiffers(e, "&#039;");
    assert e[1..] == rest;
  }

  lemma FirstDiffers(s: string, prefix: string)
    requires |s| > 0 && |prefix| > 0 && s[0] != prefix[0]
    ensures !StartsWith(s, prefix)
  {
    if |prefix| <= |s| {
      assert s[..|prefix|][0] == s[0];
    }
  }

  /** Escaping loses nothing: unescaping gives the text back */
  lemma {:induction false} EscapeRoundTrip(s: string)
    ensures UnescapeHtml(EscapeHtml(s)) == s
    decreases |s|
  {
    if |s| > 0 {
      UnescapeEntity(s[0], EscapeHtml(s[1..]));
      EscapeRoundTrip(s[1..]);
    }
  }

  // ------------------------------------------------------------- sanitise

  const Scheme: string := "javascript:"

  /** A case-insensitive (ASCII) `javascript:` starts at index `i` */
  predicate SchemeAt(s: string, i: nat) {
    i + |Scheme| <= |s| && forall k :: 0 <= k < |Scheme| ==> LowerChar(s[i + k]) == Scheme[k]
  }

  predicate HasScheme(s: string) {
    exists i: nat :: i < |s| && SchemeAt(s, i)
  }

  lemma SchemeAtShift(c: char, s: string, i: nat)
    ensures SchemeAt([c] + s, i + 1) <==> SchemeAt(s, i)
  {
    if i + |Scheme| <= |s| {
      assert ([c] + s)[i + 1..i + 1 + |Scheme|] == s[i..i + |Scheme|];
    }
  }

  /** `.replace(/javascript:/gi, '')`: one left-to-right scan that deletes
      each occurrence it finds and resumes after it */
  function StripSchemeOnce(s: string): (r: string)
    ensures |r| <= |s|
    ensures |r| == |s| ==> r == s
    decreases |s|
  {
    if |s| == 0 then ""
    else if SchemeAt(s, 0) then StripSchemeOnce(s[|Scheme|..])
    else [s[0]] + StripSchemeOnce(s[1..])
  }

  /** The scan changes the text exactly when the text holds the scheme */
  lemma {:induction false} StripSchemeOnceShortens(s: string)
    ensures |StripSchemeOnce(s)| < |s| <==> HasScheme(s)
    decreases |s|
  {
    if |s| > 0 && !SchemeAt(s, 0) {
      StripSchemeOnceShortens(s[1..]);
      HasSchemeTail(s);
    } else if |s| > 0 {
      assert HasScheme(s) by { assert SchemeAt(s, 0); }
    }
  }

  /** Past its first character, a text holds the scheme exactly when its tail does */
  lemma HasSchemeTail(s: string)
    requires |s| > 0 && !SchemeAt(s, 0)
    ensures HasScheme(s) <==> HasScheme(s[1..])
  {
    assert [s[0]] + s[1..] == s;
    if HasScheme(s) {
      var i: nat :| i < |s| && SchemeAt(s, i);
      SchemeAtShift(s[0], s[1..], i - 1);
      assert SchemeAt(s[1..], i - 1);
    }
    if HasScheme(s[1..]) {
      var i: nat :| i < |s[1..]| && SchemeAt(s[1..], i);
      SchemeAtShift(s[0], s[1..], i);
      assert SchemeAt(s, i + 1);
    }
  }

  /** No occurrence starts among the first `n` characters of `s` */
  predicate ClearFor(s: string, n: nat) {
    n <= |s| && forall i :: 0 <= i < n ==> !SchemeAt(s, i)
  }

  /** A clear prefix stays clear, one shorter, past its first character */
  lemma ClearForTail(s: string, n: nat)
    requires n > 0 && ClearFor(s, n)
    ensures !SchemeAt(s, 0) && ClearFor(s[1..], n - 1)
  {
    assert !SchemeAt(s, 0);
    assert [s[0]] + s[1..] == s;
    forall i | 0 <= i < n - 1 ensures !SchemeAt(s[1..], i) {
      SchemeAtShift(s[0], s[1..], i);
      assert !SchemeAt(s, i + 1);
    }
  }

  /** A prefix with no occurrence starting inside it passes the scan unchanged */
  lemma {:induction false} StripSchemeOnceKeeps(p: string, rest: string)
    requires ClearFor(p + rest, |p|)
    ensures StripSchemeOnce(p + rest) == p + StripSchemeOnce(rest)
    decreases |p|
  {
    if |p| > 0 {
      var s := p + rest;
      assert s[1..] == p[1..] + rest;
      ClearForTail(s, |p|);
      StripSchemeOnceKeeps(p[1..], rest);
      assert [p[0]] + p[1..] == p;
    } else {
      assert p + rest == rest;
    }
  }

  /** The single scan can leave the scheme behind: deleting the inner
      occurrence of "javajavascript:script:" joins the outer pieces into a
      new one */
  lemma StripSchemeOnceLeavesScheme(s: string)
    requires s == "javajavascript:script:"
    ensures StripSchemeOnce(s) == "javascript:"
    ensures HasScheme(StripSchemeOnce(s))
  {
    var p, q := "java", "script:";
    assert s == p + (Scheme + q);
    assert p + q == Scheme;
    JavaPrefixClear(Scheme + q);
    StripSchemeOnceKeeps(p, Scheme + q);
    SchemeThenShortDeleted(q);
    SchemeHeld(StripSchemeOnce(s));
  }

  /** "java" followed by anything that starts with `j` holds no occurrence
      starting in its first four characters: at 0 the fifth character is `j`
      where the scheme has `s`, and the next three are not `j` */
  lemma JavaPrefixClear(u: string)
    requires |u| >= |Scheme| && u[0] == 'j'
    ensures ClearFor("java" + u, 4)
  {
    var s := "java" + u;
    assert Scheme[0] == 'j' && Scheme[4] == 's';
    forall i | 0 <= i < 4 ensures !SchemeAt(s, i) {
      if i == 0 {
        assert LowerChar(s[4]) != Scheme[4];
      } else {
        assert LowerChar(s[i]) != Scheme[0];
      }
    }
  }

  /** An occurrence followed by too little to hold another is deleted */
  lemma SchemeThenShortDeleted(q: string)
    requires |q| < |Scheme|
    ensures StripSchemeOnce(Scheme + q) == q
  {
    var t := Scheme + q;
    assert SchemeAt(t, 0) by {
      SchemeIsLower();
    }
    assert t[|Scheme|..] == q;
    assert !HasScheme(q);
    StripSchemeOnceShortens(q);
  }

  lemma SchemeHeld(t: string)
    requires t == Scheme
    ensures HasScheme(t)
  {
    SchemeIsLower();
    assert SchemeAt(t, 0);
  }

  lemma SchemeIsLower()
    ensures forall k :: 0 <= k < |Scheme| ==> LowerChar(Scheme[k]) == Scheme[k]
  {
  }

  /** The scan repeated until nothing changes */
  function StripScheme(s: string): (r: string)
    ensures !HasScheme(r)
    ensures !HasScheme(s) ==> r == s
    decreases |s|
  {
    var t := StripSchemeOnce(s);
    StripSchemeOnceShortens(s);
    if |t| == |s| then s else StripScheme(t)
  }

  /** `sanitizeHtml(html)`: the script-tag and event-handler deletions
      (`stripTags`), then one pass of the `javascript:` deletion */
  function SanitizeHtml(html: string, stripTags: string -> string): (r: string)
    ensures |r| <= |stripTags(html)|
    ensures |r| < |stripTags(html)| <==> HasScheme(stripTags(html))
    ensures !HasScheme(stripTags(html)) ==> r == stripTags(html)
  {
    StripSchemeOnceShortens(stripTags(html));
    StripSchemeOnce(stripTags(html))
  }

  /** As written, a sanitized text can still hold the scheme: with the tag
      deletions leaving "javajavascript:script:" alone, the result is
      "javascript:", where the corrected sanitizer leaves nothing */
  lemma SanitizeHtmlLeavesScheme(html: string, stripTags: string -> string)
    requires stripTags(html) == "javajavascript:script:"
    ensures SanitizeHtml(html, stripTags) == "javascript:"
    ensures HasScheme(SanitizeHtml(html, stripTags))
    ensures !HasScheme(SanitizeHtmlCorrected(html, stripTags))
  {
    StripSchemeOnceLeavesScheme(stripTags(html));
  }

  /** The corrected sanitizer: the `javascript:` deletion repeated until
      none is left */
  function SanitizeHtmlCorrected(html: string, stripTags: string -> string): (r: string)
    ensures !HasScheme(r)
    ensures !HasScheme(stripTags(html)) ==> r == stripTags(html)
  {
    StripScheme(stripTags(html))
  }

  // -------------------------------------------------------------- markdown

  /** `markdownToHtml(markdown)`: `render` is `marked.parse` when the
      renderer is loaded (`None` otherwise), failing with `Err` when it throws */
  function MarkdownToHtml(markdown: string, render: Option<string -> Result<string>>,
                          stripTags: string -> string): (r: string)
    ensures markdown == "" ==> r == ""
    ensures markdown != "" && (render.None? || render.value(markdown).Err?) ==> r == EscapeHtml(markdown)
    ensures markdown != "" && render.Some? && render.value(markdown).Ok? ==>
              r == SanitizeHtml(render.value(markdown).value, stripTags)
              && |r| <= |stripTags(render.value(markdown).value)|
  {
    if markdown == "" then ""
    else if render.None? then EscapeHtml(markdown)
    else match render.value(markdown)
      case Ok(html) => SanitizeHtml(html, stripTags)
      case Err(_) => EscapeHtml(markdown)
  }

  /** As written, a rendering that holds "javajavascript:script:" after the
      tag deletions reaches the page as a live `javascript:` */
  lemma MarkdownToHtmlLeavesScheme(markdown: string, render: string -> Result<string>,
                                   stripTags: string -> string)
    requires markdown != "" && render(markdown).Ok?
    requires stripTags(render(markdown).value) == "javajavascript:script:"
    ensures HasScheme(MarkdownToHtml(markdown, Some(render), stripTags))
  {
    SanitizeHtmlLeavesScheme(render(markdown).value, stripTags);
  }
}

=== FILE: paths.dfy ===
/** The POSIX flavour of Node's `path` module as the agent uses it:
    `isAbsolute`, `join` of two parts (which normalises), `basename`
    and `extname`. Paths are plain strings; nothing touches a file system. */
module Paths {
  import opened Wrappers
  import opened Text

  predicate IsAbsolute(p: string) {
    |p| > 0 && p[0] == '/'
  }

  /** One segment of normalisation: empty and "." segments vanish, ".."
      drops the previous segment, or is kept when there is nothing to drop
      and the path is relative */
  function PushSegment(stack: seq<string>, seg: string, allowAboveRoot: bool): seq<string> {
    if seg == "" || seg == "." then stack
    else if seg == ".." then
      if |stack| > 0 && stack[|stack| - 1] != ".." then stack[..|stack| - 1]
      else if allowAboveRoot then stack + [".."]
      else stack
    else stack + [seg]
  }

  function PushAll(stack: seq<string>, segs: seq<string>, allowAboveRoot: bool): seq<string>
    decreases |segs|
  {
    if |segs| == 0 then stack
    else PushAll(PushSegment(stack, segs[0], allowAboveRoot), segs[1..], allowAboveRoot)
  }

  /** A stack of normalised segments: no empty, "." or slash-carrying
      segment, ".." only as a leading run, and none at all above a root */
  predicate NormalStack(st: seq<string>, allowAboveRoot: bool) {
    && (forall i :: 0 <= i < |st| ==> st[i] != "" && st[i] != "." && '/' !in st[i])
    && (forall i, j :: 0 <= i < j < |st| && st[j] == ".." ==> st[i] == "..")
    && (!allowAboveRoot ==> forall i :: 0 <= i < |st| ==> st[i] != "..")
  }

  lemma PushSegmentNormal(stack: seq<string>, seg: string, allowAboveRoot: bool)
    requires NormalStack(stack, allowAboveRoot)
    requires '/' !in seg
    ensures NormalStack(PushSegment(stack, seg, allowAboveRoot), allowAboveRoot)
  {
  }

  lemma {:induction false} PushAllNormal(stack: seq<string>, segs: seq<string>, allowAboveRoot: bool)
    requires NormalStack(stack, allowAboveRoot)
    requires forall i :: 0 <= i < |segs| ==> '/' !in segs[i]
    ensures NormalStack(PushAll(stack, segs, allowAboveRoot), allowAboveRoot)
    decreases |segs|
  {
    if |segs| > 0 {
      PushSegmentNormal(stack, segs[0], allowAboveRoot);
      PushAllNormal(PushSegment(stack, segs[0], allowAboveRoot), segs[1..], allowAboveRoot);
    }
  }

  /** The normalised segments of `p` */
  function Segments(p: string): seq<string> {
    PushAll([], Split(p, '/'), !IsAbsolute(p))
  }

  lemma SegmentsNormal(p: string)
    ensures NormalStack(Segments(p), !IsAbsolute(p))
  {
    SplitPiecesHaveNoSeparator(p, '/');
    PushAllNormal([], Split(p, '/'), !IsAbsolute(p));
  }

  /** `path.normalize(p)` (POSIX): a trailing slash is kept, an empty
      result is "/" for an absolute path and "." (or "./") otherwise */
  function Normalize(p: string): string {
    if p == "" then "."
    else
      var trailing := p[|p| - 1] == '/';
      var body := Join(Segments(p), "/");
      if body == "" then (if IsAbsolute(p) then "/" else if trailing then "./" else ".")
      else
        var b := if trailing then body + "/" else body;
        if IsAbsolute(p) then "/" + b else b
  }

  /** `path.join(a, b)`: empty parts are skipped, the rest are joined with
      "/" and normalised */
  function JoinPath(a: string, b: string): string {
    if a == "" && b == "" then "."
    else if a == "" then Normalize(b)
    else if b == "" then Normalize(a)
    else Normalize(a + "/" + b)
  }

  lemma {:induction false} JoinStartsWithFirst(parts: seq<string>, sep: string)
    requires |parts| >= 1
    ensures StartsWith(Join(parts, sep), parts[0])
    decreases |parts|
  {
  }

  /** Normalisation keeps a path absolute, and keeps a relative one relative */
  lemma NormalizeKeepsAbsoluteness(p: string)
    ensures IsAbsolute(Normalize(p)) <==> IsAbsolute(p)
  {
    if p != "" {
      var st := Segments(p);
      SegmentsNormal(p);
      var body := Join(st, "/");
      if body != "" && !IsAbsolute(p) {
        assert |st| >= 1;
        JoinStartsWithFirst(st, "/");
        assert st[0] != "" && '/' !in st[0];
        assert body[0] == st[0][0];
        assert st[0][0] in st[0];
      }
    }
  }

  /** `path.join(a, b)` is absolute exactly when its first non-empty part is */
  lemma JoinPathAbsolute(a: string, b: string)
    ensures IsAbsolute(JoinPath(a, b)) <==> (if a != "" then IsAbsolute(a) else IsAbsolute(b))
  {
    if a != "" && b != "" {
      NormalizeKeepsAbsoluteness(a + "/" + b);
      assert (a + "/" + b)[0] == a[0];
    } else if a != "" {
      NormalizeKeepsAbsoluteness(a);
    } else if b != "" {
      NormalizeKeepsAbsoluteness(b);
    }
  }

  /** `p` without its trailing slashes */
  function StripTrailingSlashes(p: string): (r: string)
    ensures StartsWith(p, r)
    ensures |r| == 0 || r[|r| - 1] != '/'
    ensures forall i :: |r| <= i < |p| ==> p[i] == '/'
    decreases |p|
  {
    if |p| > 0 && p[|p| - 1] == '/' then StripTrailingSlashes(p[..|p| - 1]) else p
  }

  /** The text after the last slash of `p` */
  function LastSegment(p: string): (r: string)
    ensures EndsWith(p, r)
    ensures '/' !in r
    ensures |r| == |p| || p[|p| - |r| - 1] == '/'
    decreases |p|
  {
    if |p| == 0 || p[|p| - 1] == '/' then ""
    else
      var r := LastSegment(p[..|p| - 1]) + [p[|p| - 1]];
      assert p[..|p| - 1][|p| - |r|..] + [p[|p| - 1]] == p[|p| - |r|..];
      r
  }

  /** `path.basename(p)` (POSIX, no suffix argument) */
  function Basename(p: string): (r: string)
    ensures '/' !in r
  {
    LastSegment(StripTrailingSlashes(p))
  }

  /** Index of the last `c` in `s` */
  function LastIndexOf(s: string, c: char): (r: Option<nat>)
    ensures r.Some? ==> r.value < |s| && s[r.value] == c
                        && forall j :: r.value < j < |s| ==> s[j] != c
    ensures r.None? ==> c !in s
    decreases |s|
  {
    if |s| == 0 then None
    else if s[|s| - 1] == c then Some(|s| - 1)
    else
      var r := LastIndexOf(s[..|s| - 1], c);
      assert r.None? ==> c !in s by {
        if r.None? {
          forall j | 0 <= j < |s| ensures s[j] != c {
            if j < |s| - 1 { assert s[j] == s[..|s| - 1][j]; }
          }
        }
      }
      r
  }

  /** The extension of a file name: from its last dot to the end, unless
      that dot opens the name or the name is ".." */
  function NameExtension(name: string): (r: string)
    ensures r != "" ==> |r| < |name| && r[0] == '.' && EndsWith(name, r) && '.' !in r[1..]
    ensures r == "" ==> name == ".." || forall j :: 1 <= j < |name| ==> name[j] != '.'
  {
    match LastIndexOf(name, '.')
    case None => ""
    case Some(d) =>
      if d == 0 || name == ".." then ""
      else
        var r := name[d..];
        assert '.' !in r[1..] by {
          forall j | 1 <= j < |r| ensures r[j] != '.' { assert r[j] == name[d + j]; }
        }
        r
  }

  /** `path.extname(p)` (POSIX) */
  function Extname(p: string): string {
    NameExtension(Basename(p))
  }
}

=== FILE: permissions.dfy ===
/** The agent's permission policy (PermissionManager): it classifies a tool
    name, resolves the path argument against the home directory, and applies
    the blocklist, the whitelist, the sensitive-name patterns and the blocked
    extensions, in that order. Path containment is a raw string prefix test,
    as `_validateReadAccess` makes it with `startsWith`. */
module Permissions {
  import opened Wrappers
  import opened Text
  import opened Json
  import opened Paths

  /** The regular expressions of the sensitive-file list, each of which is
      a literal anchored at the end, a literal anywhere, or a literal
      anywhere ignoring ASCII case */
  datatype Pattern =
    | EndsWithText(text: string)
    | ContainsText(text: string)
    | ContainsTextIgnoringCase(text: string)

  predicate PatternMatches(p: Pattern, name: string) {
    match p
    case EndsWithText(t) => EndsWith(name, t)
    case ContainsText(t) => Contains(name, t)
    case ContainsTextIgnoringCase(t) => ContainsIgnoringCase(name, t)
  }

  datatype Config = Config(
    allowed: seq<string>,
    blocked: seq<string>,
    sensitive: seq<Pattern>,
    blockedExtensions: seq<string>)

  /** The configuration the manager starts with, for home directory `home` */
  function DefaultConfig(home: string): Config {
    Config(
      [JoinPath(home, "Documents"), JoinPath(home, "Desktop"), JoinPath(home, "Downloads")],
      ["/System", "/private", "/Library", "/usr", "/bin", "/sbin", "/var", "/etc", "/tmp",
       JoinPath(home, ".ssh"), JoinPath(JoinPath(home, "Library"), "Keychains"),
       JoinPath(home, ".aws"), JoinPath(home, ".config")],
      [EndsWithText(".env"), ContainsText(".env."), ContainsTextIgnoringCase("credentials"),
       ContainsTextIgnoringCase("password"), ContainsText("id_rsa"), ContainsText("id_dsa"),
       EndsWithText(".key"), EndsWithText(".pem"), EndsWithText(".p12"), EndsWithText(".pfx"),
       EndsWithText("wallet.dat"), ContainsTextIgnoringCase("keystore")],
      [".app", ".dmg", ".pkg", ".sh", ".command"])
  }

  datatype Decision = Allow | Deny(reason: string)

  datatype OpClass = ReadOp | WriteOp | SystemOp | ExecutionOp | UnknownOp

  const ReadOps: seq<string> := ["read_file", "list_directory", "search_files", "get_file_info",
                                 "analyze_json", "analyze_csv", "analyze_logs", "get_disk_usage"]
  const WriteOps: seq<string> := ["write_file", "append_to_file", "create_directory", "delete_file",
                                  "rename_file", "transform_data"]
  const SystemOps: seq<string> := ["list_processes", "get_system_info"]
  const ExecutionOps: seq<string> := ["execute_code"]

  /** The class of a tool, by strict equality with the names of each list,
      tried in the order `validateOperation` tries them (read, write, system, execution) */
  function Classify(tool: Json): (c: OpClass)
    ensures c == ReadOp <==> tool.JStr? && tool.s in ReadOps
    ensures c == WriteOp <==> tool.JStr? && tool.s in WriteOps
    ensures c == SystemOp <==> tool.JStr? && tool.s in SystemOps
    ensures c == ExecutionOp <==> tool.JStr? && tool.s in ExecutionOps
  {
    if tool.JStr? && tool.s in ReadOps then ReadOp
    else if tool.JStr? && tool.s in WriteOps then WriteOp
    else if tool.JStr? && tool.s in SystemOps then SystemOp
    else if tool.JStr? && tool.s in ExecutionOps then ExecutionOp
    else UnknownOp
  }

  /** `_resolvePath`: "~…" is joined under the home directory, an absolute
      path is kept as it is (not normalised), anything else is joined under
      the home directory (never the working directory) */
  function ResolvePath(home: string, input: string): string {
    if StartsWith(input, "~") then JoinPath(home, input[1..])
    else if IsAbsolute(input) then input
    else JoinPath(home, input)
  }

  /** With an absolute home directory every resolved path is absolute */
  lemma ResolvedPathIsAbsolute(home: string, input: string)
    requires IsAbsolute(home)
    ensures IsAbsolute(ResolvePath(home, input))
  {
    if StartsWith(input, "~") {
      JoinPathAbsolute(home, input[1..]);
    } else if !IsAbsolute(input) {
      JoinPathAbsolute(home, input);
    }
  }

  /** The first entry of `roots` that `path` starts with */
  function FirstPrefix(roots: seq<string>, path: string): (r: Option<string>)
    ensures r.Some? ==> r.value in roots && StartsWith(path, r.value)
    ensures r.Some? ==> exists k :: 0 <= k < |roots| && roots[k] == r.value
                          && forall j :: 0 <= j < k ==> !StartsWith(path, roots[j])
    ensures r.None? ==> forall d :: d in roots ==> !StartsWith(path, d)
  {
    if |roots| == 0 then None
    else if StartsWith(path, roots[0]) then Some(roots[0])
    else
      var r := FirstPrefix(roots[1..], path);
      if r.Some? then
        var k :| 0 <= k < |roots[1..]| && roots[1..][k] == r.value
                 && forall j :: 0 <= j < k ==> !StartsWith(path, roots[1..][j]);
        assert roots[k + 1] == r.value;
        r
      else r
  }

  /** The whitelist shown in a denial, with the home directory written as "~" */
  function AllowedForDisplay(cfg: Config, home: string): string {
    Join(DisplayDirs(cfg.allowed, home), ", ")
  }

  function DisplayDirs(dirs: seq<string>, home: string): (r: seq<string>)
    ensures |r| == |dirs|
    ensures forall i :: 0 <= i < |dirs| ==> r[i] == ReplaceFirst(dirs[i], home, "~")
  {
    if |dirs| == 0 then [] else [ReplaceFirst(dirs[0], home, "~")] + DisplayDirs(dirs[1..], home)
  }

  predicate Sensitive(cfg: Config, name: string) {
    exists p :: p in cfg.sensitive && PatternMatches(p, name)
  }

  function SensitiveCheck(patterns: seq<Pattern>, name: string): (r: bool)
    ensures r <==> exists p :: p in patterns && PatternMatches(p, name)
  {
    if |patterns| == 0 then false
    else PatternMatches(patterns[0], name) || SensitiveCheck(patterns[1..], name)
  }

  /** `s.toLowerCase()` as far as it matters when the result is compared
      with an ASCII string: ASCII capitals and the Kelvin sign (U+212A),
      the only other character whose lower case is ASCII */
  function LowerForCompare(s: string): (r: string)
    ensures |r| == |s|
  {
    seq(|s|, i requires 0 <= i < |s| => if s[i] == '\U{212A}' then 'k' else LowerChar(s[i]))
  }

  datatype AccessKind = ReadAccess | ExecutionAccess

  /** The checks on a resolved path, in the order `_validateReadAccess` makes them */
  function CheckResolved(kind: AccessKind, cfg: Config, home: string, resolved: string): Decision {
    match FirstPrefix(cfg.blocked, resolved)
    case Some(b) =>
      if kind == ReadAccess then Deny("Access to " + b + " is blocked for security")
      else Deny("Code execution in " + b + " is blocked for security")
    case None =>
      if FirstPrefix(cfg.allowed, resolved).None? then
        if kind == ReadAccess then
          Deny("Access denied. Only these directories are allowed: " + AllowedForDisplay(cfg, home))
        else
          Deny("Code execution denied. Only these directories are allowed: " + AllowedForDisplay(cfg, home))
      else if kind == ExecutionAccess then Allow
      else
        var name := Basename(resolved);
        if SensitiveCheck(cfg.sensitive, name) then
          Deny("File " + name + " appears to contain sensitive data")
        else
          var ext := LowerForCompare(Extname(resolved));
          if ext in cfg.blockedExtensions then Deny("File type " + ext + " is not allowed for security")
          else Allow
  }

  /** The message of the TypeError `inputPath.startsWith(...)` throws on a
      value that is not a string */
  const NotAStringError := "inputPath.startsWith is not a function"

  /** `_validateReadAccess` / `_validateExecutionAccess` on `args.path || …`:
      a falsy input is "No path specified" for a read and allowed for
      execution; a non-string input throws, which `validateOperation`
      turns into a "Validation error" denial */
  function ValidateAccess(kind: AccessKind, cfg: Config, home: string, input: Option<Json>): Decision {
    if !Defined(input) then
      if kind == ReadAccess then Deny("No path specified") else Allow
    else if !input.value.JStr? then Deny("Validation error: " + NotAStringError)
    else CheckResolved(kind, cfg, home, ResolvePath(home, input.value.s))
  }

  /** The message of the TypeError a property read on `null` throws */
  function NullReadError(key: string): string {
    "Cannot read properties of null (reading '" + key + "')"
  }

  /** The message of the TypeError a property read on `undefined` throws */
  function UndefinedReadError(key: string): string {
    "Cannot read properties of undefined (reading '" + key + "')"
  }

  /** `validateOperation(tool, args)`: never throws; every failure is a denial */
  function ValidateOperation(cfg: Config, home: string, tool: Json, args: Json, rt: JsRuntime): Decision {
    match Classify(tool)
    case ReadOp =>
      if args.JNull? then Deny("Validation error: " + NullReadError("path"))
      else ValidateAccess(ReadAccess, cfg, home, Or(Member(args, "path"), Member(args, "directory")))
    case WriteOp => Deny("Write operations not implemented in Phase 1")
    case SystemOp => Allow
    case ExecutionOp =>
      if args.JNull? then Deny("Validation error: " + NullReadError("path"))
      else ValidateAccess(ExecutionAccess, cfg, home, Or(Member(args, "path"), Member(args, "workingDir")))
    case UnknownOp => Deny("Unknown operation: " + ToJsString(tool, rt))
  }

  /** A path clears the read policy: under no blocked root, under some
      allowed root, not a sensitive name, not a blocked extension */
  predicate ReadablePath(cfg: Config, resolved: string) {
    && (forall b :: b in cfg.blocked ==> !StartsWith(resolved, b))
    && (exists a :: a in cfg.allowed && StartsWith(resolved, a))
    && !Sensitive(cfg, Basename(resolved))
    && LowerForCompare(Extname(resolved)) !in cfg.blockedExtensions
  }

  /** Every write-class tool is denied, whatever its arguments */
  lemma WriteAlwaysDenied(cfg: Config, home: string, tool: string, args: Json, rt: JsRuntime)
    requires tool in WriteOps
    ensures ValidateOperation(cfg, home, JStr(tool), args, rt) == Deny("Write operations not implemented in Phase 1")
  {
  }

  /** The four classes: system tools are always allowed, `execute_code`
      without a path is allowed, unlisted names are unknown operations */
  lemma ClassOutcomes(cfg: Config, home: string, tool: Json, args: Json, rt: JsRuntime)
    ensures tool in {JStr("list_processes"), JStr("get_system_info")} ==>
              ValidateOperation(cfg, home, tool, args, rt) == Allow
    ensures tool == JStr("execute_code") && args.JObj?
            && !Defined(Member(args, "path")) && !Defined(Member(args, "workingDir")) ==>
              ValidateOperation(cfg, home, tool, args, rt) == Allow
    ensures !(tool.JStr? && (tool.s in ReadOps || tool.s in WriteOps || tool.s in SystemOps || tool.s in ExecutionOps)) ==>
              ValidateOperation(cfg, home, tool, args, rt) == Deny("Unknown operation: " + ToJsString(tool, rt))
  {
  }

  /** A read-class call with neither `path` nor `directory` is refused before any resolution */
  lemma ReadWithoutPathDenied(cfg: Config, home: string, tool: string, args: Json, rt: JsRuntime)
    requires tool in ReadOps && args.JObj?
    requires !Defined(Member(args, "path")) && !Defined(Member(args, "directory"))
    ensures ValidateOperation(cfg, home, JStr(tool), args, rt) == Deny("No path specified")
  {
  }

  /** A blocked root wins over the whitelist, and the denial names the
      first blocked root (in list order) the path starts with */
  lemma BlocklistFirst(kind: AccessKind, cfg: Config, home: string, resolved: string, k: nat)
    requires k < |cfg.blocked| && StartsWith(resolved, cfg.blocked[k])
    requires forall j :: 0 <= j < k ==> !StartsWith(resolved, cfg.blocked[j])
    ensures CheckResolved(kind, cfg, home, resolved) ==
              if kind == ReadAccess then Deny("Access to " + cfg.blocked[k] + " is blocked for security")
              else Deny("Code execution in " + cfg.blocked[k] + " is blocked for security")
  {
    var r := FirstPrefix(cfg.blocked, resolved);
    var k' :| 0 <= k' < |cfg.blocked| && cfg.blocked[k'] == r.value
              && forall j :: 0 <= j < k' ==> !StartsWith(resolved, cfg.blocked[j]);
    assert k' == k;
  }

  /** A path that clears the blocklist but is under no allowed root is
      denied, and the reason lists the whitelist with "~" for the home */
  lemma OutsideWhitelistDenied(cfg: Config, home: string, resolved: string)
    requires forall b :: b in cfg.blocked ==> !StartsWith(resolved, b)
    requires forall a :: a in cfg.allowed ==> !StartsWith(resolved, a)
    ensures CheckResolved(ReadAccess, cfg, home, resolved) ==
              Deny("Access denied. Only these directories are allowed: " + AllowedForDisplay(cfg, home))
  {
  }

  /** A read is allowed exactly when all four checks pass */
  lemma ReadAllowedIff(cfg: Config, home: string, resolved: string)
    ensures CheckResolved(ReadAccess, cfg, home, resolved) == Allow <==> ReadablePath(cfg, resolved)
  {
    if FirstPrefix(cfg.allowed, resolved).Some? {
      assert FirstPrefix(cfg.allowed, resolved).value in cfg.allowed;
    }
  }

  /** Execution checks only the blocklist and the whitelist */
  lemma ExecutionAllowedIff(cfg: Config, home: string, resolved: string)
    ensures CheckResolved(ExecutionAccess, cfg, home, resolved) == Allow <==>
              (forall b :: b in cfg.blocked ==> !StartsWith(resolved, b))
              && (exists a :: a in cfg.allowed && StartsWith(resolved, a))
  {
    if FirstPrefix(cfg.allowed, resolved).Some? {
      assert FirstPrefix(cfg.allowed, resolved).value in cfg.allowed;
    }
  }

  /** Containment is a raw string prefix: any text after an allowed root,
      such as "-old/notes.txt" after "~/Documents", counts as inside it */
  lemma SiblingPrefixIsInside(cfg: Config, home: string, root: string, rest: string)
    requires root in cfg.allowed
    requires forall b :: b in cfg.blocked ==> !StartsWith(root + rest, b)
    ensures CheckResolved(ExecutionAccess, cfg, home, root + rest) == Allow
    ensures CheckResolved(ReadAccess, cfg, home, root + rest) == Allow <==>
              !Sensitive(cfg, Basename(root + rest))
              && LowerForCompare(Extname(root + rest)) !in cfg.blockedExtensions
  {
    var p := root + rest;
    assert StartsWith(p, root) by { assert p[..|root|] == root; }
    ExecutionAllowedIff(cfg, home, p);
    ReadAllowedIff(cfg, home, p);
    assert ReadablePath(cfg, p) <==>
             !Sensitive(cfg, Basename(p)) && LowerForCompare(Extname(p)) !in cfg.blockedExtensions;
  }

  /** `addAllowedDirectory`: append the resolved path unless already present */
  function AddAllowedDirectory(cfg: Config, home: string, dir: string): (r: Config)
    ensures ResolvePath(home, dir) in r.allowed
    ensures forall d :: d in r.allowed <==> d in cfg.allowed || d == ResolvePath(home, dir)
    ensures r.blocked == cfg.blocked && r.sensitive == cfg.sensitive
            && r.blockedExtensions == cfg.blockedExtensions
    ensures |cfg.allowed| <= |r.allowed| <= |cfg.allowed| + 1 && r.allowed[..|cfg.allowed|] == cfg.allowed
  {
    var resolved := ResolvePath(home, dir);
    if resolved in cfg.allowed then cfg else cfg.(allowed := cfg.allowed + [resolved])
  }

  /** Keep the entries of `dirs` that differ from `d`, in order */
  function Without(dirs: seq<string>, d: string): (r: seq<string>)
    ensures forall x :: x in r <==> x in dirs && x != d
    ensures |r| <= |dirs|
  {
    if |dirs| == 0 then []
    else if dirs[0] == d then Without(dirs[1..], d)
    else [dirs[0]] + Without(dirs[1..], d)
  }

  /** `removeAllowedDirectory`: drop every entry equal to the resolved path */
  function RemoveAllowedDirectory(cfg: Config, home: string, dir: string): (r: Config)
    ensures ResolvePath(home, dir) !in r.allowed
    ensures forall d :: d in r.allowed <==> d in cfg.allowed && d != ResolvePath(home, dir)
    ensures r.blocked == cfg.blocked && r.sensitive == cfg.sensitive
            && r.blockedExtensions == cfg.blockedExtensions
  {
    cfg.(allowed := Without(cfg.allowed, ResolvePath(home, dir)))
  }

  /** `filter` keeps the order and multiplicity of the kept entries: it works
      piecewise on a concatenation and on one entry keeps exactly the entries
      that differ from `d` */
  lemma {:induction false} WithoutAppend(a: seq<string>, b: seq<string>, d: string)
    ensures Without(a + b, d) == Without(a, d) + Without(b, d)
    ensures forall x :: Without([x], d) == (if x == d then [] else [x])
  {
    if |a| > 0 {
      assert (a + b)[0] == a[0];
      assert (a + b)[1..] == a[1..] + b;
      WithoutAppend(a[1..], b, d);
    } else {
      assert a + b == b;
    }
    forall x ensures Without([x], d) == (if x == d then [] else [x]) {
      assert [x][1..] == [];
    }
  }

  predicate NoDuplicates(s: seq<string>) {
    forall i, j :: 0 <= i < j < |s| ==> s[i] != s[j]
  }

  /** Adding never creates a duplicate, and adding twice is adding once */
  lemma AddAllowedIdempotent(cfg: Config, home: string, dir: string)
    ensures NoDuplicates(cfg.allowed) ==> NoDuplicates(AddAllowedDirectory(cfg, home, dir).allowed)
    ensures AddAllowedDirectory(AddAllowedDirectory(cfg, home, dir), home, dir) == AddAllowedDirectory(cfg, home, dir)
  {
  }

  lemma {:induction false} WithoutAbsent(dirs: seq<string>, d: string)
    requires d !in dirs
    ensures Without(dirs, d) == dirs
  {
    if |dirs| > 0 {
      WithoutAbsent(dirs[1..], d);
    }
  }

  lemma {:induction false} WithoutSnoc(dirs: seq<string>, d: string)
    ensures Without(dirs + [d], d) == Without(dirs, d)
  {
    if |dirs| == 0 {
      assert Without([d], d) == Without([], d);
    } else {
      assert (dirs + [d])[1..] == dirs[1..] + [d];
      WithoutSnoc(dirs[1..], d);
    }
  }

  /** Removing a directory that was just added (and absent before) restores the whitelist */
  lemma RemoveUndoesAdd(cfg: Config, home: string, dir: string)
    requires ResolvePath(home, dir) !in cfg.allowed
    ensures RemoveAllowedDirectory(AddAllowedDirectory(cfg, home, dir), home, dir) == cfg
  {
    var d := ResolvePath(home, dir);
    WithoutSnoc(cfg.allowed, d);
    WithoutAbsent(cfg.allowed, d);
  }

  /** `toFixed(2)` of size / 2^20, the megabyte figure of a size error:
      round half up to hundredths (the division by a power of two is exact) */
  function MegabytesFixed2(size: nat): string {
    var hundredths := (size * 100 + 524288) / 1048576;
    var frac := hundredths % 100;
    NatToString(hundredths / 100) + "." + [DigitChar(frac / 10), DigitChar(frac % 10)]
  }

  /** `validateFileSize(path, maxSizeMB)` on the size `stat` reported */
  function ValidateFileSize(size: nat, maxSizeMB: nat): (r: Decision)
    ensures r == Allow <==> size <= maxSizeMB * 1024 * 1024
    ensures r.Deny? ==> StartsWith(r.reason, "File too large (")
  {
    if size > maxSizeMB * 1024 * 1024 then
      Deny("File too large (" + MegabytesFixed2(size) + "MB). Maximum: " + NatToString(maxSizeMB) + "MB")
    else Allow
  }

  /** The argument a read tool's handler resolves: `directory` for
      `search_files`, `path` for every other read tool */
  function HandlerPathKey(tool: string): string {
    if tool == "search_files" then "directory" else "path"
  }

  /** The permission check with the read policy applied to the argument the
      handler will actually resolve (the corrected form of
      `ValidateOperation`, which checks `args.path || args.directory` for
      every read tool); every other class is checked as before */
  function ValidateCall(cfg: Config, home: string, tool: Json, args: Json, rt: JsRuntime): (r: Decision)
    ensures Classify(tool) != ReadOp ==> r == ValidateOperation(cfg, home, tool, args, rt)
    ensures r == Allow && Classify(tool) == ReadOp ==>
              var target := Member(args, HandlerPathKey(tool.s));
              target.Some? && target.value.JStr? && target.value.s != ""
              && ReadablePath(cfg, ResolvePath(home, target.value.s))
  {
    match Classify(tool)
    case ReadOp =>
      if args.JNull? then Deny("Validation error: " + NullReadError(HandlerPathKey(tool.s)))
      else
        var target := Member(args, HandlerPathKey(tool.s));
        var r := ValidateAccess(ReadAccess, cfg, home, target);
        if r == Allow then
          ReadAllowedIff(cfg, home, ResolvePath(home, target.value.s));
          r
        else r
    case _ => ValidateOperation(cfg, home, tool, args, rt)
  }

  /** As written, `search_files` is checked on `path` while its handler
      searches `directory`: a readable `path` lets any `directory` through,
      a blocked one included */
  lemma SearchDirectoryEscapesAsWritten(cfg: Config, home: string, root: string, blockedRoot: string,
                                        tool: string, rt: JsRuntime)
    requires tool == "search_files"
    requires IsAbsolute(root) && ReadablePath(cfg, root)
    requires IsAbsolute(blockedRoot) && blockedRoot in cfg.blocked
    ensures var args := JObj([Field("path", JStr(root)), Field("directory", JStr(blockedRoot))]);
            && ValidateOperation(cfg, home, JStr(tool), args, rt) == Allow
            && !ReadablePath(cfg, ResolvePath(home, blockedRoot))
            && ValidateCall(cfg, home, JStr(tool), args, rt) != Allow
  {
    assert tool in ReadOps by { assert ReadOps[2] == tool; }
    PathCheckedFirst(cfg, home, root, blockedRoot, tool, rt);
    DirectoryCheckedForSearch(cfg, home, root, blockedRoot, tool, rt);
    BlockedRootDenied(cfg, home, blockedRoot);
  }

  /** With a non-empty `path`, the check of `validateOperation` looks at it alone */
  lemma PathCheckedFirst(cfg: Config, home: string, root: string, other: string, tool: string, rt: JsRuntime)
    requires tool in ReadOps
    requires IsAbsolute(root) && ReadablePath(cfg, root)
    ensures var args := JObj([Field("path", JStr(root)), Field("directory", JStr(other))]);
            ValidateOperation(cfg, home, JStr(tool), args, rt) == Allow
  {
    var args := JObj([Field("path", JStr(root)), Field("directory", JStr(other))]);
    PathAndDirectoryArgs(root, other);
    ReadOpChecksPathOrDirectory(cfg, home, tool, args, rt);
    AbsoluteReadAllowed(cfg, home, root);
  }

  /** The corrected check of `search_files` looks at `directory` */
  lemma DirectoryCheckedForSearch(cfg: Config, home: string, path: string, directory: string,
                                  tool: string, rt: JsRuntime)
    requires tool == "search_files" && tool in ReadOps
    ensures var args := JObj([Field("path", JStr(path)), Field("directory", JStr(directory))]);
            ValidateCall(cfg, home, JStr(tool), args, rt) == ValidateAccess(ReadAccess, cfg, home, Some(JStr(directory)))
  {
    var args := JObj([Field("path", JStr(path)), Field("directory", JStr(directory))]);
    PathAndDirectoryArgs(path, directory);
    assert HandlerPathKey(tool) == "directory";
    ReadCallChecksHandlerKey(cfg, home, tool, args, rt);
  }

  /** A blocked absolute root is not readable and fails the read check */
  lemma BlockedRootDenied(cfg: Config, home: string, blockedRoot: string)
    requires IsAbsolute(blockedRoot) && blockedRoot in cfg.blocked
    ensures !ReadablePath(cfg, ResolvePath(home, blockedRoot))
    ensures ValidateAccess(ReadAccess, cfg, home, Some(JStr(blockedRoot))) != Allow
  {
    ResolveAbsolute(home, blockedRoot);
    assert StartsWith(blockedRoot, blockedRoot) by { assert blockedRoot[..|blockedRoot|] == blockedRoot; }
    ReadAllowedIff(cfg, home, blockedRoot);
  }

  /** As written, an empty `path` falls through to `directory` for the
      check, while the handler of every read tool but `search_files`
      resolves the empty `path` to the home directory */
  lemma EmptyPathEscapesAsWritten(cfg: Config, home: string, root: string, tool: string, rt: JsRuntime)
    requires tool in ReadOps && tool != "search_files"
    requires IsAbsolute(root) && ReadablePath(cfg, root)
    ensures var args := JObj([Field("path", JStr("")), Field("directory", JStr(root))]);
            && ValidateOperation(cfg, home, JStr(tool), args, rt) == Allow
            && ResolvePath(home, "") == JoinPath(home, "")
            && ValidateCall(cfg, home, JStr(tool), args, rt) == Deny("No path specified")
  {
    var args := JObj([Field("path", JStr("")), Field("directory", JStr(root))]);
    PathAndDirectoryArgs("", root);
    EmptyPathCheckedOnDirectory(cfg, home, root, tool, rt);
    assert HandlerPathKey(tool) == "path";
    ReadCallChecksHandlerKey(cfg, home, tool, args, rt);
    EmptyInputDenied(cfg, home);
    ResolveEmpty(home);
  }

  /** An empty path is "No path specified" for a read */
  lemma EmptyInputDenied(cfg: Config, home: string)
    ensures ValidateAccess(ReadAccess, cfg, home, Some(JStr(""))) == Deny("No path specified")
  {
  }

  /** The corrected check of a read-class tool looks at the handler's argument */
  lemma ReadCallChecksHandlerKey(cfg: Config, home: string, tool: string, args: Json, rt: JsRuntime)
    requires tool in ReadOps && args.JObj?
    ensures ValidateCall(cfg, home, JStr(tool), args, rt) ==
              ValidateAccess(ReadAccess, cfg, home, Member(args, HandlerPathKey(tool)))
  {
  }

  /** The empty path is joined under the home directory */
  lemma ResolveEmpty(home: string)
    ensures ResolvePath(home, "") == JoinPath(home, "")
  {
  }

  /** The two lookups on an argument object holding `path` then `directory` */
  lemma PathAndDirectoryArgs(path: string, directory: string)
    ensures var args := JObj([Field("path", JStr(path)), Field("directory", JStr(directory))]);
            && Member(args, "path") == Some(JStr(path))
            && Member(args, "directory") == Some(JStr(directory))
  {
    var args := JObj([Field("path", JStr(path)), Field("directory", JStr(directory))]);
    assert "path" != "directory" by { assert "path"[0] != "directory"[0]; }
    assert args.fields[1..] == [Field("directory", JStr(directory))];
    assert Lookup(args.fields[1..], "directory") == Some(JStr(directory));
    assert Lookup(args.fields, "directory") == Lookup(args.fields[1..], "directory");
  }

  /** With an empty `path`, the check of `validateOperation` falls to `directory` */
  lemma EmptyPathCheckedOnDirectory(cfg: Config, home: string, root: string, tool: string, rt: JsRuntime)
    requires tool in ReadOps
    requires IsAbsolute(root) && ReadablePath(cfg, root)
    ensures var args := JObj([Field("path", JStr("")), Field("directory", JStr(root))]);
            ValidateOperation(cfg, home, JStr(tool), args, rt) == Allow
  {
    var args := JObj([Field("path", JStr("")), Field("directory", JStr(root))]);
    PathAndDirectoryArgs("", root);
    ReadOpChecksPathOrDirectory(cfg, home, tool, args, rt);
    AbsoluteReadAllowed(cfg, home, root);
  }

  /** A read-class tool is checked on `args.path || args.directory` */
  lemma ReadOpChecksPathOrDirectory(cfg: Config, home: string, tool: string, args: Json, rt: JsRuntime)
    requires tool in ReadOps && args.JObj?
    ensures ValidateOperation(cfg, home, JStr(tool), args, rt) ==
              ValidateAccess(ReadAccess, cfg, home, Or(Member(args, "path"), Member(args, "directory")))
  {
  }

  /** An absolute path is resolved to itself */
  lemma ResolveAbsolute(home: string, p: string)
    requires IsAbsolute(p)
    ensures ResolvePath(home, p) == p
  {
    assert !StartsWith(p, "~") by { assert p[..1][0] == '/'; }
  }

  /** A readable absolute path passes the read check */
  lemma AbsoluteReadAllowed(cfg: Config, home: string, root: string)
    requires IsAbsolute(root) && ReadablePath(cfg, root)
    ensures ValidateAccess(ReadAccess, cfg, home, Some(JStr(root))) == Allow
  {
    ResolveAbsolute(home, root);
    ReadAllowedIff(cfg, home, root);
  }
}

=== FILE: text.dfy ===
/** The JavaScript string operations the agent relies on, over `string`
    (one `char` stands for one UTF-16 code unit of a JavaScript string):
    `startsWith`, `endsWith`, `includes`, `indexOf`, `split` on one character,
    `join`, `trim`, `replace` with a string pattern (first occurrence only),
    ASCII case mapping and decimal rendering of naturals. */
module Text {
  import opened Wrappers

  predicate StartsWith(s: string, prefix: string) {
    |prefix| <= |s| && s[..|prefix|] == prefix
  }

  predicate EndsWith(s: string, suffix: string) {
    |suffix| <= |s| && s[|s| - |suffix|..] == suffix
  }

  /** `pat` occurs in `s` at index `i` */
  predicate OccursAt(s: string, pat: string, i: int) {
    0 <= i && i + |pat| <= |s| && s[i..i + |pat|] == pat
  }

  /** `s.includes(pat)` */
  predicate Contains(s: string, pat: string) {
    exists i | 0 <= i <= |s| :: OccursAt(s, pat, i)
  }

  /** `s.indexOf(pat, from)`: the first occurrence at or after `from` */
  function IndexOf(s: string, pat: string, from: nat): (r: Option<nat>)
    ensures r.Some? ==> from <= r.value && OccursAt(s, pat, r.value)
    ensures r.Some? ==> forall j :: from <= j < r.value ==> !OccursAt(s, pat, j)
    ensures r.None? ==> forall j :: from <= j ==> !OccursAt(s, pat, j)
    decreases |s| - from
  {
    if from + |pat| > |s| then None
    else if s[from..from + |pat|] == pat then Some(from)
    else IndexOf(s, pat, from + 1)
  }

  lemma ContainsIffIndexOf(s: string, pat: string)
    ensures Contains(s, pat) <==> IndexOf(s, pat, 0).Some?
  {
    if IndexOf(s, pat, 0).Some? {
      assert OccursAt(s, pat, IndexOf(s, pat, 0).value);
    }
  }

  /** `s.replace(pat, rep)` with a string pattern: only the first occurrence is replaced */
  function ReplaceFirst(s: string, pat: string, rep: string): string {
    match IndexOf(s, pat, 0)
    case None => s
    case Some(i) => s[..i] + rep + s[i + |pat|..]
  }

  /** Without an occurrence nothing changes; otherwise the first occurrence,
      and only it, is replaced */
  lemma ReplaceFirstSpec(s: string, pat: string, rep: string)
    ensures !Contains(s, pat) ==> ReplaceFirst(s, pat, rep) == s
    ensures Contains(s, pat) ==>
      exists i | 0 <= i <= |s| :: OccursAt(s, pat, i) && ReplaceFirst(s, pat, rep) == s[..i] + rep + s[i + |pat|..]
                  && forall j :: 0 <= j < i ==> !OccursAt(s, pat, j)
  {
    ContainsIffIndexOf(s, pat);
    if Contains(s, pat) {
      var i := IndexOf(s, pat, 0).value;
      assert OccursAt(s, pat, i) && ReplaceFirst(s, pat, rep) == s[..i] + rep + s[i + |pat|..];
    }
  }

  /** A text that starts with the pattern has that prefix replaced */
  lemma ReplaceFirstAtStart(s: string, pat: string, rep: string)
    requires StartsWith(s, pat)
    ensures ReplaceFirst(s, pat, rep) == rep + s[|pat|..]
  {
    assert s[0..|pat|] == s[..|pat|];
    assert IndexOf(s, pat, 0) == Some(0);
  }

  /** Number of occurrences of the character `c` in `s` */
  function Count(s: string, c: char): nat {
    if |s| == 0 then 0 else (if s[0] == c then 1 else 0) + Count(s[1..], c)
  }

  lemma CountAppend(a: string, b: string, c: char)
    ensures Count(a + b, c) == Count(a, c) + Count(b, c)
  {
    if |a| == 0 {
      assert a + b == b;
    } else {
      assert (a + b)[1..] == a[1..] + b;
      CountAppend(a[1..], b, c);
    }
  }

  /** `parts.join(sep)` */
  function Join(parts: seq<string>, sep: string): string {
    if |parts| == 0 then ""
    else if |parts| == 1 then parts[0]
    else parts[0] + sep + Join(parts[1..], sep)
  }

  /** `p` with `c` appended to its last piece */
  function ExtendLast(p: seq<string>, c: char): (r: seq<string>)
    requires |p| >= 1
    ensures |r| == |p|
  {
    p[..|p| - 1] + [p[|p| - 1] + [c]]
  }

  /** `s.split(sep)` for a one-character separator: the maximal
      separator-free pieces, including empty ones at either end */
  function Split(s: string, sep: char): (parts: seq<string>)
    ensures |parts| >= 1
    decreases |s|
  {
    if |s| == 0 then [""]
    else
      var init := Split(s[..|s| - 1], sep);
      if s[|s| - 1] == sep then init + [""] else ExtendLast(init, s[|s| - 1])
  }

  /** Appending one character to a split string opens a new last piece or extends the last one */
  lemma SplitSnoc(s: string, c: char, sep: char)
    ensures Split(s + [c], sep) ==
              if c == sep then Split(s, sep) + [""] else ExtendLast(Split(s, sep), c)
  {
    assert (s + [c])[..|s + [c]| - 1] == s;
  }

  lemma {:induction false} SplitPiecesHaveNoSeparator(s: string, sep: char)
    ensures forall i :: 0 <= i < |Split(s, sep)| ==> sep !in Split(s, sep)[i]
    decreases |s|
  {
    if |s| > 0 {
      SplitPiecesHaveNoSeparator(s[..|s| - 1], sep);
    }
  }

  lemma {:induction false} SplitCount(s: string, sep: char)
    ensures |Split(s, sep)| == Count(s, sep) + 1
    decreases |s|
  {
    if |s| > 0 {
      SplitCount(s[..|s| - 1], sep);
      CountAppend(s[..|s| - 1], [s[|s| - 1]], sep);
      assert s[..|s| - 1] + [s[|s| - 1]] == s;
    }
  }

  lemma {:induction false} JoinSnoc(parts: seq<string>, last: string, sep: string)
    requires |parts| >= 1
    ensures Join(parts + [last], sep) == Join(parts, sep) + sep + last
    decreases |parts|
  {
    if |parts| > 1 {
      assert (parts + [last])[1..] == parts[1..] + [last];
      JoinSnoc(parts[1..], last, sep);
    }
  }

  lemma {:induction false} JoinExtendLast(parts: seq<string>, c: char, sep: string)
    requires |parts| >= 1
    ensures Join(ExtendLast(parts, c), sep) == Join(parts, sep) + [c]
    decreases |parts|
  {
    if |parts| > 1 {
      assert ExtendLast(parts, c)[1..] == ExtendLast(parts[1..], c);
      JoinExtendLast(parts[1..], c, sep);
    }
  }

  /** `split` then `join` with the same separator gives back the string */
  lemma {:induction false} JoinSplit(s: string, sep: char)
    ensures Join(Split(s, sep), [sep]) == s
    decreases |s|
  {
    if |s| > 0 {
      var t, c := s[..|s| - 1], s[|s| - 1];
      assert s == t + [c];
      var ps := Split(t, sep);
      SplitSnoc(t, c, sep);
      JoinSplit(t, sep);
      assert Join(ps, [sep]) == t;
      if c == sep {
        assert Split(s, sep) == ps + [""];
        JoinSnoc(ps, "", [sep]);
        assert Join(ps + [""], [sep]) == t + [sep] + "";
        assert t + [sep] + "" == s;
      } else {
        assert Split(s, sep) == ExtendLast(ps, c);
        JoinExtendLast(ps, c, [sep]);
        assert Join(ExtendLast(ps, c), [sep]) == t + [c];
      }
    }
  }

  /** Splitting a string that does not contain the separator gives it back whole */
  lemma {:induction false} SplitNoSeparator(s: string, sep: char)
    requires sep !in s
    ensures Split(s, sep) == [s]
    decreases |s|
  {
    if |s| > 0 {
      var init := s[..|s| - 1];
      assert init + [s[|s| - 1]] == s;
      assert s[|s| - 1] in s;
      assert sep !in init by {
        forall i | 0 <= i < |init| ensures init[i] != sep {
          assert init[i] == s[i];
        }
      }
      SplitNoSeparator(init, sep);
      assert s[|s| - 1] != sep;
      assert Split(s, sep) == ExtendLast(Split(init, sep), s[|s| - 1]);
      assert ExtendLast([init], s[|s| - 1]) == [init + [s[|s| - 1]]];
    }
  }

  /** Splitting at a separator splits the pieces of both halves apart */
  lemma {:induction false} SplitAround(a: string, sep: char, b: string)
    ensures Split(a + [sep] + b, sep) == Split(a, sep) + Split(b, sep)
    decreases |b|
  {
    if |b| == 0 {
      assert a + [sep] + b == a + [sep];
      SplitSnoc(a, sep, sep);
    } else {
      var b', x := b[..|b| - 1], b[|b| - 1];
      var s := a + [sep] + b';
      assert a + [sep] + b == s + [x];
      assert b == b' + [x];
      SplitAround(a, sep, b');
      SplitSnoc(s, x, sep);
      SplitSnoc(b', x, sep);
      if x != sep {
        ExtendLastAppend(Split(a, sep), Split(b', sep), x);
      } else {
        assert Split(a, sep) + Split(b', sep) + [""] == Split(a, sep) + (Split(b', sep) + [""]);
      }
    }
  }

  lemma ExtendLastAppend(p: seq<string>, q: seq<string>, c: char)
    requires |q| >= 1
    ensures ExtendLast(p + q, c) == p + ExtendLast(q, c)
  {
    assert (p + q)[..|p + q| - 1] == p + q[..|q| - 1];
  }

  /** The whitespace set of JavaScript's `trim` and of `\s` in regular expressions */
  const JsSpaces: set<char> := {' ', '\t', '\n', '\r', '\U{0B}', '\U{0C}', '\U{A0}', '\U{1680}',
    '\U{2000}', '\U{2001}', '\U{2002}', '\U{2003}', '\U{2004}', '\U{2005}', '\U{2006}', '\U{2007}',
    '\U{2008}', '\U{2009}', '\U{200A}', '\U{2028}', '\U{2029}', '\U{202F}', '\U{205F}', '\U{3000}', '\U{FEFF}'}

  predicate IsJsSpace(c: char) {
    c in JsSpaces
  }

  /** `s.trimStart()` */
  function TrimStart(s: string): string
    decreases |s|
  {
    if |s| > 0 && IsJsSpace(s[0]) then TrimStart(s[1..]) else s
  }

  /** `s.trimEnd()` */
  function TrimEnd(s: string): string
    decreases |s|
  {
    if |s| > 0 && IsJsSpace(s[|s| - 1]) then TrimEnd(s[..|s| - 1]) else s
  }

  /** Trimming the start drops exactly the leading whitespace */
  lemma {:induction false} TrimStartSpec(s: string)
    ensures EndsWith(s, TrimStart(s))
    ensures forall i :: 0 <= i < |s| - |TrimStart(s)| ==> IsJsSpace(s[i])
    ensures |TrimStart(s)| > 0 ==> !IsJsSpace(TrimStart(s)[0])
    decreases |s|
  {
    if |s| > 0 && IsJsSpace(s[0]) {
      TrimStartSpec(s[1..]);
    }
  }

  /** Trimming the end drops exactly the trailing whitespace */
  lemma {:induction false} TrimEndSpec(s: string)
    ensures StartsWith(s, TrimEnd(s))
    ensures forall i :: |TrimEnd(s)| <= i < |s| ==> IsJsSpace(s[i])
    ensures |TrimEnd(s)| > 0 ==> !IsJsSpace(TrimEnd(s)[|TrimEnd(s)| - 1])
    decreases |s|
  {
    if |s| > 0 && IsJsSpace(s[|s| - 1]) {
      TrimEndSpec(s[..|s| - 1]);
    }
  }

  /** `s.trim()` */
  function Trim(s: string): string {
    TrimEnd(TrimStart(s))
  }

  /** A string of whitespace only trims to nothing, and only such a string does */
  lemma TrimEmptyIffBlank(s: string)
    ensures Trim(s) == "" <==> forall i :: 0 <= i < |s| ==> IsJsSpace(s[i])
  {
    var t := TrimStart(s);
    TrimStartSpec(s);
    TrimEndSpec(t);
    if Trim(s) == "" {
      assert t == "";
    } else {
      var r := Trim(s);
      assert r[0] == t[0];
      assert t[0] == s[|s| - |t|];
    }
  }

  function LowerChar(c: char): char {
    if 'A' <= c <= 'Z' then (c as int + 32) as char else c
  }

  function UpperChar(c: char): char {
    if 'a' <= c <= 'z' then (c as int - 32) as char else c
  }

  /** ASCII lower-casing; for the ASCII patterns of the `/…/i` regular
      expressions in the permission manager and the log analysis this is their case-insensitive comparison */
  function ToLowerAscii(s: string): (r: string)
    ensures |r| == |s|
    ensures forall i :: 0 <= i < |s| ==> r[i] == LowerChar(s[i])
  {
    seq(|s|, i requires 0 <= i < |s| => LowerChar(s[i]))
  }

  function ToUpperAscii(s: string): (r: string)
    ensures |r| == |s|
    ensures forall i :: 0 <= i < |s| ==> r[i] == UpperChar(s[i])
  {
    seq(|s|, i requires 0 <= i < |s| => UpperChar(s[i]))
  }

  /** `/pat/i.test(s)` for a lower-case ASCII literal `pat` */
  predicate ContainsIgnoringCase(s: string, pat: string) {
    Contains(ToLowerAscii(s), ToLowerAscii(pat))
  }

  predicate IsDigit(c: char) { '0' <= c <= '9' }

  function DigitChar(d: nat): char
    requires d < 10
  {
    ('0' as int + d) as char
  }

  /** Decimal rendering of a natural number, as `String(n)` prints it */
  function NatToString(n: nat): (r: string)
    ensures |r| >= 1
    ensures forall i :: 0 <= i < |r| ==> IsDigit(r[i])
  {
    if n < 10 then [DigitChar(n)] else NatToString(n / 10) + [DigitChar(n % 10)]
  }

  /** The value of a non-empty run of decimal digits */
  function DigitsValue(s: string): nat
    requires forall i :: 0 <= i < |s| ==> IsDigit(s[i])
  {
    if |s| == 0 then 0
    else
      assert IsDigit(s[|s| - 1]);
      10 * DigitsValue(s[..|s| - 1]) + (s[|s| - 1] as int - '0' as int)
  }

  /** Reading back a rendered natural gives the natural */
  lemma {:induction false} NatToStringRoundTrip(n: nat)
    ensures DigitsValue(NatToString(n)) == n
  {
    if n >= 10 {
      var s := NatToString(n);
      assert s[..|s| - 1] == NatToString(n / 10);
      NatToStringRoundTrip(n / 10);
    }
  }
}

=== FILE: wrappers.dfy ===
/** Failure-carrying values used across the model.
    - Option<T>: a JavaScript value that may be `undefined`/`null`, or a partial function's result
    - Result<T>: a value, or the `message` of the JavaScript `Error` the program would throw
 */
module Wrappers {

  datatype Option<+T> = None | Some(value: T)

  datatype Result<+T> = Ok(value: T) | Err(message: string)

  function Min(a: int, b: int): int { if a <= b then a else b }

  function Max(a: int, b: int): int { if a <= b then b else a }
}
